=== FILE: README.md ===
# pegjs-java-plugin core, modelled in Dafny

pegjs-java-plugin turns a PEG.js grammar into the Java source code of a parser.
This project models two parts of it.

**The Java runtime** is the code every generated parser extends:
- `Position` is the line/column cursor.
- `Expect` is the farthest-failure tracker.
- `Expected` is the descriptor of something the parser expected.
- `Location` is a span of two positions.
- `State` holds the leaf matchers, the final success/failure decision, the user aborts `expected` and `error`, and the byte-array input view.
- `SyntaxError` sorts the candidates and builds the error message.

**The code-generator helpers** are:
- `VarStack`, which allocates variable names;
- `CodeBuilder`, which emits indented lines;
- `RuleBuilder`, which gives the rule contexts and the position save/restore code;
- `UserCodeBuilder`, the de-duplicating registry of action and predicate functions;
- `Imports`, the import table and resolver;
- `Boxed` and `Types`, the Java type names;
- the string helpers at the top of `passes/generate-java.js`: the constant pools, `hex`, `escape`, `regexEscape`, `toUpperSnakeCase` and `makeRegexString`.

## How the model is built

Modules:
- One Dafny module per source file. Module `Basics` holds the shared pieces: `Option`, `Result` and `Fault`; the 16-bit `CodeUnit` character type; decimal printing; and the `IndexOf`/`Added` pair used by every de-duplicating registry.
- Java exceptions and JavaScript throws become `Err(fault)` values. A parser that throws a `SyntaxError` ends in the `Raised` outcome. One that crashes with a runtime exception ends in `Crashed`.

Code that changes state in place is modelled as classes:
- the Java classes `Position`, `Expect` and `State`;
- the JavaScript closures `VarStack`, `CodeBuilder`, the function builders, the import table and the constant pool.

Each method states its new state as a function of the old one (for example `Value() == Step(old(Value()), ch)`). The properties the sources promise are proved about those functions as lemmas. Loops in the source are loops in the model, each with its invariants:
- `next(input, to)`;
- `buildMessage`;
- `equals` and `findIndex`;
- `declares`/`defines`;
- the `Imports` constructor;
- `args`.

Expressions in the source are pure functions:
- `Expected`, `Location` and the byte view;
- `Types` and `Boxed`;
- the escapes and `toUpperSnakeCase`.

The replace-chains of `escape` and `regexEscape` are modelled stage by stage, exactly as written. Lemmas then prove them equal to an independent per-character definition, and prove that definition invertible.

### Behaviour of the code worth noting

- **Byte-array views.** Each byte is read as one character through the cast `(char)content[i]`, which sign-extends: byte 0xFF reads as U+FFFF, not as 255, and bytes 0x80–0xFF read as U+FF80–U+FFFF. `ByteViews.ToChar` models the cast and `ByteViews.HighByteSignExtends` states the case.
- **Slicing a byte input.** `subSequence` on a byte view builds a new view, so a reversed range is refused as a negative length: `toText` or `text()` with the start past the cursor throws IllegalArgumentException on a byte array and IndexOutOfBoundsException on a string (`Locations.ReversedRange`).
- **`toUpperSnakeCase`.** The optional dot is part of the replaced match. So `a.B` becomes `A_.B` (`RuleNames.DotExample`), not `A_B`.
- **`State.error`** cannot work as written. See Findings.
- **Literals on byte input.** `parseLiteral` compares the slice's `toString()`, which a byte view does not override, so as written no literal matches a byte array. The model keeps that behaviour in `States.State.ParseLiteralAsWritten` and uses the character comparison in `States.State.ParseLiteral`. See Findings.

## Model

| member | source | states |
|---|---|---|
| Positions.Position.constructor | java/pegjs-java-core/src/org/pegjs/java/Position.java:38-41 | a fresh cursor is at offset 0, line 1, column 1, with no CR seen |
| Positions.Position.Next | java/pegjs-java-core/src/org/pegjs/java/Position.java:65-84 | advancing over one character is the step function `Step`: LF counts a line only when no CR came just before it; CR, U+2028 and U+2029 count a line and set the CR flag; any other character moves one column |
| Positions.FeedOffset | java/pegjs-java-core/src/org/pegjs/java/Position.java:66 | feeding n characters adds exactly n to the offset |
| Positions.FeedKeepsWellFormed | java/pegjs-java-core/src/org/pegjs/java/Position.java:65-84 | line and column stay at least 1, and the line never decreases |
| Positions.FeedAppend | java/pegjs-java-core/src/org/pegjs/java/Position.java:85-90 | feeding a+b is feeding a, then b |
| Positions.FeedPair | java/pegjs-java-core/src/org/pegjs/java/Position.java:85-90 | feeding two characters is two single steps |
| Positions.LastTerminator | java/pegjs-java-core/src/org/pegjs/java/Position.java:73-78 | the index of the last line terminator, or -1, bounded by the input; the character there is a terminator and none follows it |
| Positions.FeedFromStart | java/pegjs-java-core/src/org/pegjs/java/Position.java:38-84 | from the start, the cursor after s is offset \|s\|, line 1 + number of line breaks (CRLF counted once), column = characters since the last terminator + 1, and the CR flag says whether s ends in CR, U+2028 or U+2029 |
| Positions.CrLfLaw | java/pegjs-java-core/src/org/pegjs/java/Position.java:67-79 | "\r\n" is one line break, while "\n\r" and "\r\r" are two |
| Positions.CrLfExamples | java/pegjs-java-core/src/org/pegjs/java/Position.java:67-83 | "a\r\nb" ends at line 2, column 2; "a\r\rb" ends at line 3, column 2 |
| Positions.Position.NextTo | java/pegjs-java-core/src/org/pegjs/java/Position.java:85-90 | the loop feeds input[offset..to) one character at a time and ends at offset `to`; nothing changes when `to` is not ahead |
| Positions.Position.CompareTo | java/pegjs-java-core/src/org/pegjs/java/Position.java:92-96 | the sign follows the offsets alone, and every position is greater than null |
| Positions.Position.Clone | java/pegjs-java-core/src/org/pegjs/java/Position.java:98-105 | a fresh object with the same offset, line, column and CR flag |
| Positions.CloneIsIndependent | java/pegjs-java-core/src/org/pegjs/java/Position.java:98-105 | advancing a clone leaves the original where it was |
| Expectations.CompareStringsSpec | java/pegjs-java-core/src/org/pegjs/java/Expected.java:57-59 | `String.compareTo` as documented: at the first index where the strings differ, the difference of those code units; when one is a prefix of the other, the difference of the lengths |
| Expectations.CompareStringsZero | java/pegjs-java-core/src/org/pegjs/java/Expected.java:57-59 | the lexicographic comparison is 0 exactly for equal strings |
| Expectations.CompareStringsAntisymmetric | java/pegjs-java-core/src/org/pegjs/java/Expected.java:57-59 | swapping the operands negates the comparison |
| Expectations.CompareStringsTransitive | java/pegjs-java-core/src/org/pegjs/java/Expected.java:57-59 | the string order is transitive |
| Expectations.CompareTo | java/pegjs-java-core/src/org/pegjs/java/Expected.java:57-59 | `compareTo` gives 0 exactly when the two descriptions are equal |
| Expectations.CompareToZero | java/pegjs-java-core/src/org/pegjs/java/Expected.java:57-59 | two descriptors compare equal exactly when their descriptions are equal, whatever their kind and value |
| Expectations.BeforeIsStrictTotalOrder | java/pegjs-java-core/src/org/pegjs/java/Expected.java:57-59 | ordering by description is irreflexive, asymmetric, transitive, and total on distinct descriptions |
| Tracker.Expect.constructor | java/pegjs-java-core/src/org/pegjs/java/Expect.java:37-50 | a fresh tracker is at a fresh start position, not silenced, with no candidates |
| Tracker.Expect.Add | java/pegjs-java-core/src/org/pegjs/java/Expect.java:52-65 | the new state is `Record` of the old one: nothing while silenced or behind; a farther failure replaces the position by a fresh clone and the candidates by the one descriptor; an equal offset appends; the stored position is never the caller's object |
| Tracker.RecordAllSilenced | java/pegjs-java-core/src/org/pegjs/java/Expect.java:56 | while silent > 0, any sequence of failures changes nothing |
| Tracker.RecordAllMonotone | java/pegjs-java-core/src/org/pegjs/java/Expect.java:56-63 | the tracked offset never decreases, and the silent counter is untouched |
| Tracker.MaxOffsetBounds | java/pegjs-java-core/src/org/pegjs/java/Expect.java:56-63 | the farthest offset bounds every failure's offset and the starting offset |
| Tracker.AtBeyondMax | java/pegjs-java-core/src/org/pegjs/java/Expect.java:52-65 | no failure is recorded at an offset beyond all failures |
| Tracker.RecordAllFarthest | java/pegjs-java-core/src/org/pegjs/java/Expect.java:52-65 | unsilenced, the tracked offset is the farthest failure offset, and the old candidates survive only if nothing got farther |
| Tracker.CandidatesAtFarthest | java/pegjs-java-core/src/org/pegjs/java/Expect.java:52-65 | from a fresh tracker, the candidates are exactly the descriptors of the failures at the farthest offset, duplicates kept, in arrival order |
| Tracker.DeeperFailureWins | java/pegjs-java-core/src/org/pegjs/java/Expect.java:56-64 | whichever order they arrive in, the failure at offset 4 displaces the one at offset 2 |
| Locations.NewLocation | java/pegjs-java-core/src/org/pegjs/java/Location.java:42-48 | construction fails with IllegalArgument exactly when start or end is null; otherwise start and end are the arguments, with no order between them checked |
| Locations.SubSequence | java/pegjs-java-core/src/org/pegjs/java/Location.java:52-54 | `subSequence` of a string succeeds exactly for 0 ≤ begin ≤ end ≤ length, then holds those characters; otherwise IndexOutOfBounds |
| Locations.SubSequenceOf | java/pegjs-java-core/src/org/pegjs/java/State.java:86-88 | `subSequence` of either kind of input: a string checks 0 ≤ begin ≤ end ≤ length, a byte view checks its shifted bounds against the backing array; in range it yields exactly those characters; a reversed range is IllegalArgument on bytes and IndexOutOfBounds on a string, every other failure IndexOutOfBounds |
| Locations.ReversedRange | java/pegjs-java-core/src/org/pegjs/java/State.java:70-72 | a reversed range fails with IndexOutOfBounds on a string and with IllegalArgument on a byte view |
| Locations.Region | java/pegjs-java-core/src/org/pegjs/java/Location.java:52-54 | the region is the input's `subSequence` between the start and end offsets: on a whole input it exists exactly when those are in order and in range, and then holds those characters; a reversed span on bytes is IllegalArgument |
| Locations.Clone | java/pegjs-java-core/src/org/pegjs/java/Location.java:57-59 | a clone shares the same start and end objects |
| Locations.EmptySpan | java/pegjs-java-core/src/org/pegjs/java/Location.java:52-54 | a span from a position to itself covers the empty text, on a string or a byte view |
| ByteViews.ToChar | java/pegjs-java-core/src/org/pegjs/java/State.java:84 | a byte b ≥ 0 reads as code b; a negative byte reads as b + 0x10000, in U+FF80–U+FFFF |
| ByteViews.HighByteSignExtends | java/pegjs-java-core/src/org/pegjs/java/State.java:84 | byte 0xFF reads as U+FFFF, and byte 0 as U+0000 |
| ByteViews.NewView | java/pegjs-java-core/src/org/pegjs/java/State.java:70-80 | a view exists exactly when 0 ≤ length and 0 ≤ offset ≤ content length − length; a negative length is IllegalArgument, a bad offset IndexOutOfBounds |
| ByteViews.Whole | java/pegjs-java-core/src/org/pegjs/java/State.java:69 | the one-argument constructor views the whole array |
| ByteViews.Chars | java/pegjs-java-core/src/org/pegjs/java/State.java:82-84 | the view reads as `length` characters, character i being `charAt(i)` |
| ByteViews.SubSequence | java/pegjs-java-core/src/org/pegjs/java/State.java:86-88 | a sub-view shares the array at the shifted offset and exists exactly when the shifted bounds fit the whole array; a reversed range is IllegalArgument, checked first, and any other failure IndexOutOfBounds |
| ByteViews.SubSequenceInRange | java/pegjs-java-core/src/org/pegjs/java/State.java:86-88 | within the view's bounds, a sub-view reads as the corresponding slice |
| ByteViews.SubSequenceOverrunsView | java/pegjs-java-core/src/org/pegjs/java/State.java:86-88 | a sub-view is checked against the array, not the view, so it can reach past the view's end |
| ByteViews.Clone | java/pegjs-java-core/src/org/pegjs/java/State.java:90-92 | a clone is a copy starting at offset 0 that reads the same characters |
| SyntaxErrors.InsertSpec | java/pegjs-java-core/src/org/pegjs/java/exceptions/SyntaxError.java:37-39 | inserting into the sorted set keeps it strictly sorted by description; a descriptor whose description is already present is dropped, any other is added |
| SyntaxErrors.SortedSetSpec | java/pegjs-java-core/src/org/pegjs/java/exceptions/SyntaxError.java:37-39 | building the `TreeSet` from a list gives candidates strictly sorted by description, with exactly the list's descriptions, each kept as its first occurrence in the list |
| SyntaxErrors.SortedSetShape | java/pegjs-java-core/src/org/pegjs/java/exceptions/SyntaxError.java:37-39 | the `TreeSet` is strictly sorted by description and holds exactly the list's descriptions |
| SyntaxErrors.FirstWithPresent | java/pegjs-java-core/src/org/pegjs/java/exceptions/SyntaxError.java:37-39 | the first descriptor with a description exists exactly when the list has that description |
| SyntaxErrors.TwoCandidates | java/pegjs-java-core/src/org/pegjs/java/exceptions/SyntaxError.java:60-69 | two candidates read `A, or B` |
| SyntaxErrors.AppendCandidates | java/pegjs-java-core/src/org/pegjs/java/exceptions/SyntaxError.java:60-68 | on a non-empty candidate list the loop over the first n−1 candidates, the `or ` and the last description append exactly the candidate list text |
| SyntaxErrors.AppendTrailer | java/pegjs-java-core/src/org/pegjs/java/exceptions/SyntaxError.java:70-77 | appends ` but `, the found character in quotes (or `end of input`), and ` found.` |
| SyntaxErrors.BuildMessage | java/pegjs-java-core/src/org/pegjs/java/exceptions/SyntaxError.java:55-79 | the StringBuilder loop yields `Line L, column C: Expected ` with the first n−1 descriptions each followed by `, `, then `or ` and the last, then ` but "c" found.` or ` but end of input found.`; it fails with NoSuchElement on no candidates |
| SyntaxErrors.FromList | java/pegjs-java-core/src/org/pegjs/java/exceptions/SyntaxError.java:37-39 | a null list is a NullPointer; otherwise the candidates are the sorted, de-duplicated set, and with no message the error exists exactly when the list is not empty |
| SyntaxErrors.FromSet | java/pegjs-java-core/src/org/pegjs/java/exceptions/SyntaxError.java:49-54 | a null set is always a NullPointer; a given message is used verbatim; no message means the built message, and NoSuchElement for an empty set |
| SyntaxErrors.UserError | java/pegjs-java-core/src/org/pegjs/java/State.java:174-176 | corrected `error`: the user's message, no candidates, the given location and found character |
| SyntaxErrors.NullSetAlwaysFails | java/pegjs-java-core/src/org/pegjs/java/exceptions/SyntaxError.java:49-51 | with a null candidate set, construction fails whatever the message |
| States.Throw | java/pegjs-java-core/src/org/pegjs/java/State.java:281 | throwing a built error raises it; a failure to build it crashes with that fault |
| States.RecordKeepsConsistent | java/pegjs-java-core/src/org/pegjs/java/Expect.java:52-65 | recording a failure keeps the tracker's position at a non-negative offset |
| States.State.constructor | java/pegjs-java-core/src/org/pegjs/java/State.java:43-56 | a parser state over an input starts at the start position, with no mark and a fresh tracker |
| States.State.Init | java/pegjs-java-core/src/org/pegjs/java/State.java:244-247 | `init` installs the input, a string or byte view, and a fresh start position |
| States.State.InitBytes | java/pegjs-java-core/src/org/pegjs/java/State.java:251-253 | `init(byte[])` installs a view of the whole array, which reads each byte through the sign-extending cast; the saved mark is left as it was |
| States.State.Fail | java/pegjs-java-core/src/org/pegjs/java/State.java:264-267 | `fail` records the descriptor at the current position and returns FAILED |
| States.State.ParseAny | java/pegjs-java-core/src/org/pegjs/java/State.java:192-199 | succeeds exactly when input is left; it then returns the next character and steps over it, otherwise it records "any character" without moving |
| States.State.ParsePattern | java/pegjs-java-core/src/org/pegjs/java/State.java:204-213 | succeeds exactly when input is left and the class test XOR `inverse` holds (so it fails at end of input even when inverted); on failure it records the descriptor without moving |
| States.State.ParseLiteral | java/pegjs-java-core/src/org/pegjs/java/State.java:223-240 | corrected: compares the characters of the slice on either kind of input; succeeds exactly when the literal fits and the whole slice matches it (case-insensitively if asked); it then advances over exactly the slice, and otherwise records the descriptor and never partly advances |
| States.ObjectToString | java/pegjs-java-core/src/org/pegjs/java/State.java:64-93 | the inherited `Object.toString` of a byte view starts with the view's class name and is longer than it |
| States.ToStringOf | java/pegjs-java-core/src/org/pegjs/java/State.java:226-233 | `result.toString()`: a string slice is its own text, a byte view the inherited `Object.toString` |
| States.ByteViewTextIsNoLiteral | java/pegjs-java-core/src/org/pegjs/java/State.java:226-233 | the text of a byte view is never a literal no longer than the view's class name |
| States.ByteLiteralExample | java/pegjs-java-core/src/org/pegjs/java/State.java:223-240 | the byte array `[0x61]` reads as `a`, yet its slice's text is not `a` |
| States.State.ParseLiteralAsWritten | java/pegjs-java-core/src/org/pegjs/java/State.java:223-240 | as written: succeeds exactly when the literal fits and `toString()` of the slice matches it; it then advances over the slice, otherwise records the descriptor without moving |
| States.State.ByteInputRejectsLiteral | java/pegjs-java-core/src/org/pegjs/java/State.java:226-239 | as written, on byte input no literal up to the class name's length ever matches case-sensitively |
| States.State.Found | java/pegjs-java-core/src/org/pegjs/java/State.java:288-291 | the character at the location's start, or none at or past the end |
| States.State.Report | java/pegjs-java-core/src/org/pegjs/java/State.java:280-281 | the final error sits at `Location(pos, pos)`, the tracker's farthest point, with the tracker's descriptions; no candidates is NoSuchElement |
| States.State.Finalize | java/pegjs-java-core/src/org/pegjs/java/State.java:268-282 | a result that consumed the whole input is returned; leftover input records "end of input" at the current position; every other case throws the tracker's error |
| States.LeftoverInputIsSyntaxError | java/pegjs-java-core/src/org/pegjs/java/State.java:274-281 | unsilenced, recording "end of input" leaves at least one candidate, so leftover input raises a syntax error rather than crashing |
| States.State.ToText | java/pegjs-java-core/src/org/pegjs/java/State.java:261-263 | the input from the given position to the current one, existing exactly when those are in order and in range; a saved position past the cursor is IllegalArgument on bytes and IndexOutOfBounds on a string |
| States.State.Location | java/pegjs-java-core/src/org/pegjs/java/State.java:129-131 | the span from the mark to a fresh clone of the current position; no mark is IllegalArgument |
| States.State.Text | java/pegjs-java-core/src/org/pegjs/java/State.java:142-144 | the input's `subSequence` between the mark and the current offset, with the same success condition and characters as `toText` |
| States.State.ExpectedAt | java/pegjs-java-core/src/org/pegjs/java/State.java:152-159 | the error has exactly one CUSTOM candidate whose value and description are the given text, at the given location, with the built message |
| States.State.ExpectedHere | java/pegjs-java-core/src/org/pegjs/java/State.java:166-168 | the same at the span from the mark to the current position: one CUSTOM candidate with the given text, and the message built from it and the found character |
| States.State.ErrorAsWritten | java/pegjs-java-core/src/org/pegjs/java/State.java:174-176 | as written, `error` always ends in a NullPointer |
| States.State.Error | java/pegjs-java-core/src/org/pegjs/java/State.java:174-176 | corrected: the error carries the user's message, no candidates, the location and the found character |
| States.State.ErrorHere | java/pegjs-java-core/src/org/pegjs/java/State.java:182-184 | the corrected error at the span from the mark to the current position, whose found character is the one at the mark, or none at the end |
| VarStacks.Slot | utils/VarStack.js:9-14 | a slot name exists exactly for a non-negative index and is the variable name followed by the index; a negative index is the underflow error naming the index |
| VarStacks.SlotNamesDistinct | utils/VarStack.js:9-14 | different slots have different names |
| VarStacks.Range | utils/VarStack.js:3-5 | an empty range is empty; otherwise the range holds the slot names begin…end−1 in order, and fails on the first negative index |
| VarStacks.RunKeepsHighWaterMark | utils/VarStack.js:16-39 | over pushes, pops and replaces, maxSp ≥ sp is kept, and maxSp is the highest sp reached |
| VarStacks.MaxSpIsDeepest | utils/VarStack.js:16-23 | from an empty stack, maxSp is the deepest level reached and bounds the current one |
| VarStacks.ReplaceKeepsCounters | utils/VarStack.js:41-44 | `replace` leaves sp and maxSp unchanged |
| VarStacks.Declaration | utils/VarStack.js:51-56 | the declaration is empty exactly when nothing was ever pushed |
| VarStacks.DeclarationNamesAll | utils/VarStack.js:51-56 | otherwise it is `T r0, …, r<maxSp>;` |
| VarStacks.ArgsOfSpec | utils/VarStack.js:65-74 | the arguments exist exactly when every label's index is non-negative; each is the slot name with the stack's type, in label order |
| VarStacks.ArgsErrorSticks | utils/VarStack.js:65-74 | the first bad label decides the error, whatever follows it |
| VarStacks.VarStack.constructor | utils/VarStack.js:8-17 | a new stack has sp = maxSp = −1 |
| VarStacks.VarStack.Push | utils/VarStack.js:20-26 | sp goes up by one, and maxSp follows it; the result is `r<sp> = e;` for the new sp |
| VarStacks.VarStack.Pop | utils/VarStack.js:29-31 | sp goes down by one even when the old sp names no slot; the result is the old top slot, or the underflow error |
| VarStacks.VarStack.PopN | utils/VarStack.js:32-37 | sp goes down by n; the result names slots sp−n+1 … sp, in ascending order |
| VarStacks.VarStack.Replace | utils/VarStack.js:41-44 | the counters end as they were, and the code assigns the same top variable |
| VarStacks.VarStack.Top | utils/VarStack.js:47 | the slot at sp |
| VarStacks.VarStack.Index | utils/VarStack.js:49 | the slot i below the top |
| VarStacks.VarStack.Defines | utils/VarStack.js:51-56 | the declaration of all slots up to maxSp, empty exactly when nothing was ever pushed |
| VarStacks.VarStack.RangeFrom | utils/VarStack.js:58-61 | a negative start throws; otherwise it returns the slots from the start up to sp |
| VarStacks.VarStack.Args | utils/VarStack.js:65-74 | the loop builds `ArgsOf` |
| VarStacks.VarStack.Local | utils/VarStack.js:77 | `local` is the slot function itself |
| VarStacks.VarStack.ResultName | utils/VarStack.js:79 | the result variable is always `r0` |
| CodeBuilders.IndentUnit | utils/CodeBuilder.js:7 | the indent unit is the given one, or two spaces when none or an empty one is given; it is never empty |
| CodeBuilders.LinesSpec | utils/CodeBuilder.js:16-28 | one line per argument: a non-empty string behind the prefix, an empty string as is, a null as the bare prefix |
| CodeBuilders.LinesAppend | utils/CodeBuilder.js:53 | pushing a+b emits the lines of a, then those of b |
| CodeBuilders.IndentedLineKeepsText | utils/CodeBuilder.js:21 | an indented line is the prefix followed by the unchanged text |
| CodeBuilders.UniformConcat | utils/CodeBuilder.js:9-36 | the prefix is the indent unit repeated level times |
| CodeBuilders.CodeBuilder.constructor | utils/CodeBuilder.js:5-9 | the code array is the given one or empty, the level is 0, and the unit is `IndentUnit` |
| CodeBuilders.CodeBuilder.Push | utils/CodeBuilder.js:16-28 | appends exactly the `Lines` of its arguments at the current prefix, keeps every earlier line, and returns the level |
| CodeBuilders.CodeBuilder.PushAll | utils/CodeBuilder.js:53 | the same as `Push` over the array's elements |
| CodeBuilders.CodeBuilder.Indent | utils/CodeBuilder.js:32-38 | pushes at the old prefix, then raises the level by one, the prefix growing by one unit |
| CodeBuilders.CodeBuilder.Dedent | utils/CodeBuilder.js:42-48 | lowers the level (nothing at 0), then pushes at the new prefix |
| CodeBuilders.IndentThenDedent | utils/CodeBuilder.js:35-44 | `indent()` then `dedent()` restores the level and prefix and emits nothing |
| RuleBuilders.MakeRuleBuilder | utils/RuleBuilder.js:6-47 | the root context has sp −1, an empty env and no action, over two fresh, distinct, empty stacks `r` and `l` and a fresh builder |
| RuleBuilders.Child | utils/RuleBuilder.js:24-46 | a child context has its own sp, env and action and shares the two stacks and the builder |
| RuleBuilders.DescendantsShare | utils/RuleBuilder.js:24-46 | every descendant, however deep, shares the same stacks and builder |
| RuleBuilders.LocPush | utils/RuleBuilder.js:14-16 | pushes the location stack and returns `l<k> = super.current.clone();` |
| RuleBuilders.LocPop | utils/RuleBuilder.js:17-19 | pops and returns `super.current = l<k>;` for the old top |
| RuleBuilders.LocMark | utils/RuleBuilder.js:20-22 | pops and returns `super.mark = l<k>;` for the old top |
| RuleBuilders.SaveRestorePairs | utils/RuleBuilder.js:14-22 | a push followed by a pop restores the depth and keeps maxSp ≥ sp |
| RuleBuilders.Local | utils/RuleBuilder.js:43 | a label's variable is the slot of its env index; an unknown label gives `r` + "undefined" |
| RuleBuilders.ResultName | utils/RuleBuilder.js:44 | the result is `r0` |
| UserCode.Zip | utils/UserCodeBuilder.js:25-29 | pairs param name i with argument i's type; fewer arguments than params is a TypeError |
| UserCode.Eq | utils/UserCodeBuilder.js:31-33 | two params are equal exactly when names and types are |
| UserCode.Equals | utils/UserCodeBuilder.js:35-44 | the early-return loop is true exactly when the two lists are equal |
| UserCode.CallText | utils/UserCodeBuilder.js:9-14 | the registry name and the digits of the index, then `(`, ending with `)`; with no arguments just `<name><i>()` |
| UserCode.CallTextIndex | utils/UserCodeBuilder.js:9-14 | two calls from one registry name the same function exactly when their indices agree |
| UserCode.Signature | utils/UserCodeBuilder.js:15-21 | the return type, a space, the registry name with the index and `(`, ending with `)` |
| UserCode.Render | utils/UserCodeBuilder.js:22-23 | an entry is non-empty and ends with `;` when declared, with `}` when defined |
| UserCode.RenderShape | utils/UserCodeBuilder.js:22-23 | an entry is the signature followed by `;` alone, or by ` {`, the body and `}` |
| UserCode.FunctionBuilder.constructor | utils/UserCodeBuilder.js:8-46 | a builder starts with empty storage under its name prefix |
| UserCode.FunctionBuilder.FindIndex | utils/UserCodeBuilder.js:59-64 | the index of the first entry equal in namespace, type, body and params, or −1 |
| UserCode.FunctionBuilder.Add | utils/UserCodeBuilder.js:56-75 | storage gains the function only if no equal entry exists and never holds duplicates; the call text names the index of the first equal entry; a TypeError from `zip` changes nothing |
| UserCode.SelectedSpec | utils/UserCodeBuilder.js:78-106 | the listed indices are exactly the entries in the namespace (all, with no namespace), in storage order |
| UserCode.SelectedAll | utils/UserCodeBuilder.js:79-97 | with no namespace every index is listed |
| UserCode.ListingSpec | utils/UserCodeBuilder.js:15-106 | entry k renders the k-th selected function under its global index |
| UserCode.ListingAll | utils/UserCodeBuilder.js:79-97 | with no namespace the listing is the whole storage mapped |
| UserCode.FunctionBuilder.Collect | utils/UserCodeBuilder.js:82-105 | the filtering loop yields `Listing` |
| UserCode.FunctionBuilder.Declares | utils/UserCodeBuilder.js:78-90 | the forward declarations `T is<i>(T1 a1, …);` of the namespace |
| UserCode.FunctionBuilder.Defines | utils/UserCodeBuilder.js:94-106 | the definitions `T is<i>(…) {body}` of the namespace |
| UserCode.Registry.constructor | utils/UserCodeBuilder.js:5-112 | no namespaces; separate empty builders `is` and `f` |
| UserCode.Registry.AddInitializer | utils/UserCodeBuilder.js:115-119 | sets the namespace's initializer, overwriting any earlier one |
| UserCode.Registry.Touch | utils/UserCodeBuilder.js:121-125 | creates an empty namespace entry unless one exists |
| UserCode.Registry.AddPredicate | utils/UserCodeBuilder.js:120-123 | registers a `boolean` function with the predicates only; actions are untouched; the node's namespace gets an empty entry only when it had none, so an existing initializer and every other namespace are kept |
| UserCode.Registry.AddAction | utils/UserCodeBuilder.js:124-127 | registers a function of the node's return type with the actions only; predicates are untouched; the node's namespace gets an empty entry only when it had none, so an existing initializer and every other namespace are kept |
| Basics.IndexOf | passes/generate-java.js:24 | the first index holding the value, or −1 exactly when it is absent |
| Basics.AddedKeepsNoDuplicates | passes/generate-java.js:24-26 | adding keeps a registry duplicate-free, and the value then sits at its old index or at the end |
| Basics.AddedIdempotent | passes/generate-java.js:24-26 | adding the same value twice is adding it once, at the same index |
| Basics.AddedKeepsEarlier | passes/generate-java.js:24-26 | adding never moves a value already stored |
| Basics.NatToStringDecodes | passes/generate-java.js:17 | a printed index is a non-empty string of digits that reads back as the index |
| Basics.NatToStringInjective | passes/generate-java.js:17 | different indices print differently |
| ConstantPools.ConstantBuilder.constructor | passes/generate-java.js:16-20 | an empty pool with the given type and prefix |
| ConstantPools.ConstantBuilder.Add | passes/generate-java.js:22-27 | the pool gains the value only if absent and stays duplicate-free; the name is `prefix + i`, for the old index or the new last one |
| ConstantPools.ConstantBuilder.Defines | passes/generate-java.js:28 | one `private static final T p<i> = v;` per pooled value, in pooling order |
| ConstantPools.ConstName | passes/generate-java.js:17 | the prefix followed by decimal digits that read back as the index |
| ConstantPools.Definition | passes/generate-java.js:18 | a `private static final` field of the pool's type, named by `ConstName` right after the type and followed by ` = `, whose initialiser is the value, closed by `;` |
| ConstantPools.ConstNameInjective | passes/generate-java.js:17 | different constants of one pool have different names |
| ConstantPools.SameNameSameValue | passes/generate-java.js:17-27 | two pooled values get the same name exactly when they are equal |
| JavaEscapes.HexDigit | passes/generate-java.js:32 | a digit value prints as an upper-case hex digit that reads back as the value |
| JavaEscapes.Hex4 | passes/generate-java.js:42-45 | a code unit in exactly four hex digits |
| JavaEscapes.Hex4Decodes | passes/generate-java.js:42-45 | the four digits read back as the code |
| JavaEscapes.Hex | passes/generate-java.js:32 | `hex` prints a non-empty string of upper-case hex digits that reads back as the code |
| JavaEscapes.HexPadding | passes/generate-java.js:42-45 | each of the four ranges pads `hex` with exactly the zeros that make four digits |
| JavaEscapes.RunFromChar | passes/generate-java.js:33-55 | on one character, a chain whose replacements later stages leave alone yields the first matching stage's replacement |
| JavaEscapes.StringLiteralSettled | passes/generate-java.js:33-46 | no stage of `escape` rewrites what an earlier stage produced |
| JavaEscapes.FirstMatchEscapes | passes/generate-java.js:35-45 | the first matching stage of `escape` gives exactly the reference escape of the character |
| JavaEscapes.Escape | passes/generate-java.js:33-46 | the chain of replacements equals escaping each character on its own |
| JavaEscapes.EscapeIsPerChar | passes/generate-java.js:33-46 | `escape` maps each character independently to its reference escape: the seven named escapes, `\uXXXX` for other controls and for 0x80 on, the character itself otherwise |
| JavaEscapes.EscapeAsciiNoC0 | passes/generate-java.js:33-46 | the output is ASCII with no C0 control character: nothing below 0x20 and nothing from 0x80 on (DEL, U+007F, passes through raw) |
| JavaEscapes.UnescapeEscape | passes/generate-java.js:33-46 | reading the literal back gives the original string |
| JavaEscapes.UnescapeStep | passes/generate-java.js:33-46 | reading back one escaped character and the rest gives that character and the rest read back |
| JavaEscapes.CharClassSettled | passes/generate-java.js:47-55 | no stage of `regexEscape` rewrites an earlier stage's output |
| JavaEscapes.RegexEscape | passes/generate-java.js:47-55 | the chain of replacements equals escaping each character on its own |
| JavaEscapes.RegexEscapeIsPerChar | passes/generate-java.js:47-55 | `regexEscape` puts a backslash before each of `\ [ ] ^ -` and keeps every other character, so a backslash is doubled exactly once |
| JavaEscapes.RegexUnescapeEscape | passes/generate-java.js:47-55 | dropping the escaping backslashes gives the original text back |
| JavaEscapes.RegexEscapeEachCarets | passes/generate-java.js:52 | every caret in escaped text stands behind a backslash |
| JavaEscapes.PartText | passes/generate-java.js:64-67 | a part's text, a range written `low-high`, has no bare caret |
| JavaEscapes.PartsText | passes/generate-java.js:64-68 | the joined parts have no bare caret |
| JavaEscapes.MakeRegexString | passes/generate-java.js:60-71 | `[`, then `^` exactly when inverted, then the joined parts, then `]` |
| RuleNames.CapitalRun | passes/generate-java.js:58 | the greedy `[A-Z]+` run at the front: all capitals, and not followed by one |
| RuleNames.MatchLength | passes/generate-java.js:58 | a match of `\.?[A-Z]+` starts exactly at a capital or at a dot followed by a capital, stays inside the input, and holds no underscore |
| RuleNames.ToUpperSnakeCase | passes/generate-java.js:57-59 | the constant name has no lower-case letter |
| RuleNames.MarkRunsStrip | passes/generate-java.js:58 | the run replacement only inserts underscores and changes case |
| RuleNames.OnlyUnderscoresAndCase | passes/generate-java.js:57-59 | without its underscores, the constant name is the rule name without underscores, upper-cased |
| RuleNames.CamelCaseExample | passes/generate-java.js:57-59 | `aBc` becomes `A_BC`: an underscore goes in before the capital |
| RuleNames.DotExample | passes/generate-java.js:57-59 | `a.B` becomes `A_.B`: the dot is kept behind the new underscore |
| RuleNames.LeadingCapitalExample | passes/generate-java.js:57-59 | the leading underscore that `Ab` gains is dropped again: `AB` |
| ImportTables.LastIndexOf | utils/Imports.js:8 | the last index of the character, or −1, with no later occurrence |
| ImportTables.SimpleName | utils/Imports.js:8-9 | the simple name has no dot, is a tail of the full name, and is the whole name or follows a dot |
| ImportTables.Imports.constructor | utils/Imports.js:3-13 | the loop builds the table and its key order: each name registered under its simple name, `*` skipped |
| ImportTables.TableDomain | utils/Imports.js:6-13 | the keys are exactly the simple names other than `*` |
| ImportTables.LatestWins | utils/Imports.js:11 | a later full name with the same simple name overwrites the earlier one |
| ImportTables.KeysSpec | utils/Imports.js:11-25 | the key order lists each table key exactly once |
| ImportTables.Lookup | utils/Imports.js:15-21 | with full names, the registered full name, failing for unknown or empty ones; without, the local name, failing only for the empty one; the error names the local name |
| ImportTables.Imports.Resolve | utils/Imports.js:15-21 | on the table's own flag and map: with full names, the registered non-empty full name; without, the non-empty local name; otherwise the error naming the local name |
| ImportTables.ResolvesImported | utils/Imports.js:15-21 | an imported simple name resolves to its latest full name |
| ImportTables.UnknownNameFails | utils/Imports.js:15-21 | a never-imported name fails with full names on |
| ImportTables.Imports.Declares | utils/Imports.js:23-30 | one `import F;` per key, in key order |
| JavaTypes.ResolveWrappersSpec | utils/Boxed.js:7-19 | the table exists exactly when every wrapper resolves; its keys are the nine primitives, each mapped to its resolved wrapper; otherwise the first wrapper that fails gives the error |
| JavaTypes.MakeBoxed | utils/Boxed.js:5-19 | the table exists exactly when all nine wrappers resolve; it then maps each primitive, and nothing else, to its resolved wrapper; otherwise the first failing wrapper gives the fault |
| JavaTypes.Box | utils/Boxed.js:20-23 | a primitive with a non-empty wrapper boxes to it, an unknown name stays itself, and a non-empty name never boxes to the empty one |
| JavaTypes.BoxSpec | utils/Boxed.js:20-23 | a primitive boxes to its resolved wrapper, any other name to itself |
| JavaTypes.BoxIdempotent | utils/Boxed.js:20-23 | boxing twice is boxing once when no wrapper is itself a primitive name |
| JavaTypes.IdentityBoxed | utils/Boxed.js:7-19 | with names kept as they are, the table exists and maps each of the nine primitives to its wrapper name, and nothing else |
| JavaTypes.IdentityBoxingExamples | utils/Boxed.js:9-14 | with names kept as they are, `char` boxes to `Character` and `int` to `Integer` |
| JavaTypes.IdentityBoxingIdempotent | utils/Boxed.js:7-23 | with names kept as they are, boxing is idempotent |
| JavaTypes.TypesOver | utils/Types.js:13-33 | `none` and `def` are the resolved `Object`, `unit` is `char`, `range` the resolved `CharSequence`; the first failing resolution is the error |
| JavaTypes.MakeTypes | utils/Types.js:7-11 | the wrappers resolve first, and their failure is the error |
| JavaTypes.MakeTypesSpec | utils/Types.js:7-35 | the types exist exactly when all wrappers, `Object` and `CharSequence` resolve |
| JavaTypes.ReduceSpec | utils/Types.js:21 | the fold keeps the first type when all equal it, and is `Object` otherwise |
| JavaTypes.Enum | utils/Types.js:20-22 | an empty list is a TypeError; one type throughout gives that type; two different ones give the resolved `Object` |
| JavaTypes.Tuple | utils/Types.js:26 | an empty tuple is a TypeError; one repeated type gives a list of it; mixed types give a list of `Object` |
| JavaTypes.List | utils/Types.js:24 | the resolved `List` class, `<`, the boxed element type, `>`; a failure to resolve `List` is the error |
| JavaTypes.ListOfInt | utils/Types.js:24 | `list('int')` is the resolved `List` over the boxed `int` |
| JavaTypes.SelfTypeInjective | utils/Types.js:31 | different rules get different phantom types |
| JavaTypes.OptionOf | utils/Types.js:28 | a primitive with a non-empty wrapper becomes the wrapper, an unknown name stays itself |
| JavaTypes.SelfType | utils/Types.js:31 | `?` followed by the rule name, so no Java identifier |

## Left out

- `ByteBufferAsCharSequence` (java/pegjs-java-core/src/org/pegjs/java/State.java:98-113) and `init(ByteBuffer)` are not modelled. They are a thin wrapper over `java.nio.ByteBuffer`, whose position and limit state is outside this model.
- States.State.ParsePattern: `java.util.regex.Pattern` matching is a parameter, a test on one character, because Java's regular-expression engine is not modelled.
- States.State.ParseLiteral: Java's Unicode `equalsIgnoreCase` is a parameter, because Unicode case folding is not modelled.
- States.ToStringOf: the identity hash code that `Object.toString` prints is a parameter (`hashText`), because object identity is not modelled.
- Characters are UTF-16 code units other than surrogates. Dafny characters cannot be surrogate halves, so input containing surrogates and the `escape` of surrogates are not modelled.
- Serialization, `toString` (Position, Expected, VarStack) and the exception class hierarchy are not modelled. Thrown exceptions become `Err` values.
- The `IParser` and `IBaseParser` interfaces are not modelled: they declare behaviour without defining any. The FAILED sentinel is the `Failed` case of `States.Match`.
- `NoSuchRuleException`, the `Rule` annotation, and `parseRule` reflection are not part of this model.
- The AST visitor that emits the parser code (passes/generate-java.js:72-633) is not part of this model. It depends on the PEG.js visitor and AST modules.
- `passes/inference-type.js` and `generate-java-plugin.js` are not part of this model.
- `UserCodeBuilder.defines(b, ns)` (utils/UserCodeBuilder.js:131-142) is not modelled. It logs the namespace table to the console.
- Keys of JavaScript objects are modelled as a finite map. Names inherited from `Object.prototype` (such as `toString`) are not modelled: `Imports.resolve`, `Boxed` and `RuleBuilder.local` would find them in the source.
- JavaScript enumerates integer-like keys before other keys. For the import table the model keeps first-registration order instead.
- ConstantPools.ConstantBuilder.Add takes the already stringified value; the optional `stringify` callback is applied by the caller.
- RuleNames.ToUpperSnakeCase is stated for ASCII rule names only, because `toLowerCase`/`toUpperCase` on other letters need Unicode case tables.
- Positions, States: Java's 32-bit `int` for the offset, line and column (java/pegjs-java-core/src/org/pegjs/java/Position.java:38-40) and the sum `current.offset + literal.length()` (java/pegjs-java-core/src/org/pegjs/java/State.java:224) are unbounded integers, so their wrap-around on inputs longer than 2^31 − 1 characters is not modelled.
- CodeBuilders.CodeBuilder: the `code` array given to the constructor is modelled as a value. The caller keeping and mutating the same array is not modelled.

## Findings

| source | as written | input that shows it | evidently intended | confidence | as-written member | corrected member |
|---|---|---|---|---|---|---|
| java/pegjs-java-core/src/org/pegjs/java/State.java:174-176 | `error(message, location)` passes a null `SortedSet` to the `SyntaxError` constructor, which wraps it with `Collections.unmodifiableSortedSet` (exceptions/SyntaxError.java:51); that throws `NullPointerException`, so a user's `error("...")` never produces a `SyntaxError` | any call, e.g. `error("bad", loc)` | a `SyntaxError` carrying the user's message, no candidates, the location and the found character | not executed | States.State.ErrorAsWritten, SyntaxErrors.NullSetAlwaysFails | States.State.Error, SyntaxErrors.UserError |
| java/pegjs-java-core/src/org/pegjs/java/State.java:226-233 | `parseLiteral` compares `result.toString()` with the literal; on byte input `result` is a `ByteArrayAsCharSequence`, which does not override `toString` (java/pegjs-java-core/src/org/pegjs/java/State.java:64-93), so its text is the inherited `Object.toString` and no ordinary literal matches | the byte array `[0x61]` with the literal `a` | compare the characters of the slice, as `contentEquals` does for a string | not executed | States.State.ParseLiteralAsWritten, States.State.ByteInputRejectsLiteral, States.ByteLiteralExample | States.State.ParseLiteral |

=== FILE: basics.dfy ===
/**
 * Shared vocabulary of the model: optional values and results (Java's
 * null and thrown exceptions, JavaScript's undefined and `throw`), the
 * 16-bit character of Java and JavaScript strings, the decimal rendering
 * both languages use for numbers, and the first-equal-entry lookup the
 * de-duplicating registries of the generator share.
 */
module Basics {

  datatype Option<+T> = None | Some(value: T)

  /** What a Java method throws or a JavaScript function throws, as a value. */
  datatype Fault =
    | IllegalArgument          // java.lang.IllegalArgumentException
    | IndexOutOfBounds         // java.lang.IndexOutOfBoundsException and its subclasses
    | NullPointer              // java.lang.NullPointerException
    | NoSuchElement            // java.util.NoSuchElementException
    | TypeError                // a JavaScript TypeError
    | Error(message: string)   // a JavaScript `new Error(message)`

  datatype Result<+T> = Ok(value: T) | Err(fault: Fault)

  /** One UTF-16 code unit: a Java `char`, or one element of a JavaScript string. */
  type CodeUnit = c: char | c as int < 0x1_0000 witness 'a'

  /** A Java `String` or JavaScript string: a sequence of code units. */
  type JString = seq<CodeUnit>

  // ---------------------------------------------------------------------
  // Decimal numbers, as `"" + n` prints a non-negative int in Java and JS
  // ---------------------------------------------------------------------

  predicate IsDigit(c: CodeUnit) { '0' <= c <= '9' }

  function DigitChar(d: nat): (c: CodeUnit)
    requires d < 10
    ensures IsDigit(c) && c as int - '0' as int == d
  {
    ('0' as int + d) as char
  }

  function NatToString(n: nat): (r: JString)
    decreases n
  {
    if n < 10 then [DigitChar(n)] else NatToString(n / 10) + [DigitChar(n % 10)]
  }

  /** Java's and JavaScript's decimal rendering of any integer. */
  function IntToString(n: int): JString
  {
    if n >= 0 then NatToString(n) else "-" + NatToString(-n)
  }

  /** Reads back a string of decimal digits. */
  function DecimalValue(s: JString): nat
    requires forall i :: 0 <= i < |s| ==> IsDigit(s[i])
  {
    if s == [] then 0
    else
      assert IsDigit(s[|s| - 1]);
      10 * DecimalValue(s[..|s| - 1]) + (s[|s| - 1] as int - '0' as int)
  }

  /** The decimal rendering is made of digits only, never empty, and reads back as `n`. */
  lemma {:induction false} NatToStringDecodes(n: nat)
    ensures |NatToString(n)| > 0
    ensures forall i :: 0 <= i < |NatToString(n)| ==> IsDigit(NatToString(n)[i])
    ensures DecimalValue(NatToString(n)) == n
    decreases n
  {
    if n >= 10 {
      NatToStringDecodes(n / 10);
      var s := NatToString(n);
      assert s[..|s| - 1] == NatToString(n / 10);
    }
  }

  /** Different numbers print differently (so generated variable names never clash). */
  lemma NatToStringInjective(m: nat, n: nat)
    ensures NatToString(m) == NatToString(n) ==> m == n
  {
    NatToStringDecodes(m);
    NatToStringDecodes(n);
  }

  // ---------------------------------------------------------------------
  // Small sequence helpers
  // ---------------------------------------------------------------------

  /** JavaScript's `Array.prototype.join(sep)` on an array of strings. */
  function Join(parts: seq<JString>, sep: JString): JString
  {
    if |parts| == 0 then ""
    else if |parts| == 1 then parts[0]
    else parts[0] + sep + Join(parts[1..], sep)
  }

  /** Concatenation of a sequence of strings (`join('')`). */
  function Concat(parts: seq<JString>): JString
  {
    if parts == [] then "" else parts[0] + Concat(parts[1..])
  }

  lemma {:induction false} ConcatAppend(a: seq<JString>, b: seq<JString>)
    ensures Concat(a + b) == Concat(a) + Concat(b)
  {
    if a == [] {
      assert a + b == b;
    } else {
      assert (a + b)[0] == a[0] && (a + b)[1..] == a[1..] + b;
      assert Concat(a + b) == a[0] + Concat(a[1..] + b);
      ConcatAppend(a[1..], b);
      ConcatAssoc(a[0], Concat(a[1..]), Concat(b));
    }
  }

  /** Regrouping a concatenation, for proofs whose operands are long expressions. */
  lemma ConcatAssoc(a: JString, b: JString, c: JString)
    ensures a + b + c == a + (b + c)
  {
  }

  /** `s` repeated `n` times. */
  function Repeat(s: JString, n: nat): JString
  {
    if n == 0 then "" else Repeat(s, n - 1) + s
  }

  // ---------------------------------------------------------------------
  // De-duplicating storage: `indexOf` / `findIndex`, and append-if-absent
  // ---------------------------------------------------------------------

  predicate NoDuplicates<T(==)>(s: seq<T>)
  {
    forall i, j :: 0 <= i < j < |s| ==> s[i] != s[j]
  }

  /** The index of the first entry equal to `x`, or -1. */
  function IndexOf<T(==)>(s: seq<T>, x: T): (k: int)
    ensures -1 <= k < |s|
    ensures k >= 0 ==> s[k] == x && forall j :: 0 <= j < k ==> s[j] != x
    ensures k == -1 <==> x !in s
  {
    if s == [] then -1
    else if s[0] == x then 0
    else
      var k := IndexOf(s[1..], x);
      if k < 0 then -1 else k + 1
  }

  /** The storage after registering `x`: unchanged if an equal entry exists, else `x` appended. */
  function Added<T(==)>(s: seq<T>, x: T): seq<T>
  {
    if x in s then s else s + [x]
  }

  /** Registration keeps the storage free of duplicates, and `x` is then found at its first place. */
  lemma AddedKeepsNoDuplicates<T>(s: seq<T>, x: T)
    requires NoDuplicates(s)
    ensures NoDuplicates(Added(s, x))
    ensures IndexOf(Added(s, x), x) == (if x in s then IndexOf(s, x) else |s|)
  {
    if x !in s {
      var t := s + [x];
      assert t[|s|] == x;
      forall j | 0 <= j < |s| ensures t[j] != x {
        assert t[j] == s[j];
      }
    }
  }

  /** Registering the same value twice is registering it once: same storage, same index. */
  lemma AddedIdempotent<T>(s: seq<T>, x: T)
    ensures Added(Added(s, x), x) == Added(s, x)
    ensures IndexOf(Added(Added(s, x), x), x) == IndexOf(Added(s, x), x)
  {
    assert x in Added(s, x) by {
      if x !in s { assert (s + [x])[|s|] == x; }
    }
  }

  /** Registration never moves or changes an entry already stored. */
  lemma AddedKeepsEarlier<T>(s: seq<T>, x: T, y: T)
    requires y in s
    ensures IndexOf(Added(s, x), y) == IndexOf(s, y)
  {
    if x !in s {
      var t := s + [x];
      var k := IndexOf(s, y);
      assert t[k] == y;
      forall j | 0 <= j < k ensures t[j] != y {
        assert t[j] == s[j];
      }
    }
  }
}

=== FILE: byte_view.dfy ===
/**
 * The view of a byte array as a character sequence (the nested class
 * ByteArrayAsCharSequence of State.java): `length` bytes of `content`
 * from `offset`, each byte read as one `char` by Java's widening cast.
 */
module ByteViews {
  import opened Basics

  /** A Java `byte`: signed, eight bits. */
  newtype Byte = b: int | -128 <= b < 128

  /**
   * Java's `(char) b`: the byte is sign-extended to an int, then its low 16
   * bits are kept, so the bytes 0x80..0xFF become U+FF80..U+FFFF.
   */
  function ToChar(b: Byte): (c: CodeUnit)
    ensures b >= 0 ==> c as int == b as int
    ensures b < 0 ==> c as int == b as int + 0x1_0000 && 0xFF80 <= c as int
  {
    if b >= 0 then b as int as char else (b as int + 0x1_0000) as char
  }

  /** Byte 0xFF (Java's -1) reads as U+FFFF, not as U+00FF; byte 0x00 reads as U+0000. */
  lemma HighByteSignExtends()
    ensures ToChar(-1) == '\U{FFFF}' && ToChar(0) == '\0'
  {
  }

  datatype ByteView = ByteView(content: seq<Byte>, offset: int, length: int)

  /** What the constructor checks. */
  predicate Valid(v: ByteView)
  {
    0 <= v.length && 0 <= v.offset <= |v.content| - v.length
  }

  /** The three-argument constructor: a negative length, then an out-of-range offset, are refused. */
  function NewView(content: seq<Byte>, offset: int, length: int): (r: Result<ByteView>)
    ensures r.Ok? <==> 0 <= length && 0 <= offset <= |content| - length
    ensures r.Ok? ==> r.value == ByteView(content, offset, length) && Valid(r.value)
    ensures length < 0 ==> r == Err(IllegalArgument)
    ensures 0 <= length && r.Err? ==> r == Err(IndexOutOfBounds)
  {
    if length < 0 then Err(IllegalArgument)
    else if offset < 0 || offset > |content| - length then Err(IndexOutOfBounds)
    else Ok(ByteView(content, offset, length))
  }

  /** The one-argument constructor: the whole array, which never fails. */
  function Whole(content: seq<Byte>): (v: ByteView)
    ensures Valid(v) && v.length == |content| && v.content == content
  {
    NewView(content, 0, |content|).value
  }

  /** `charAt(index)`, for the indices a CharSequence promises to accept. */
  function CharAt(v: ByteView, index: int): CodeUnit
    requires Valid(v) && 0 <= index < v.length
  {
    ToChar(v.content[v.offset + index])
  }

  /** The characters the view presents. */
  function Chars(v: ByteView): (r: JString)
    requires Valid(v)
    ensures |r| == v.length
    ensures forall i :: 0 <= i < v.length ==> r[i] == CharAt(v, i)
  {
    seq(v.length, i requires 0 <= i < v.length => CharAt(v, i))
  }

  /**
   * `subSequence(start, end)`: a view over the same array. The bounds are
   * checked against the backing array, not against this view, so a slice
   * may reach past the end of the view it was taken from.
   */
  function SubSequence(v: ByteView, start: int, end: int): (r: Result<ByteView>)
    ensures r.Ok? <==> start <= end && 0 <= v.offset + start && v.offset + end <= |v.content|
    ensures r.Ok? ==> Valid(r.value) && r.value.content == v.content
    ensures r.Ok? ==> r.value.offset == v.offset + start && r.value.length == end - start
    ensures end < start ==> r == Err(IllegalArgument)
    ensures start <= end && r.Err? ==> r.fault == IndexOutOfBounds
  {
    NewView(v.content, v.offset + start, end - start)
  }

  /** Inside the view, a slice shows exactly the characters of that range, without copying. */
  lemma SubSequenceInRange(v: ByteView, start: int, end: int)
    requires Valid(v) && 0 <= start <= end <= v.length
    ensures SubSequence(v, start, end).Ok?
    ensures Chars(SubSequence(v, start, end).value) == Chars(v)[start..end]
  {
    var w := SubSequence(v, start, end).value;
    forall i | 0 <= i < end - start ensures Chars(w)[i] == Chars(v)[start..end][i] {
      assert CharAt(w, i) == CharAt(v, start + i);
    }
  }

  /** A one-byte view of a three-byte array yields a three-character slice. */
  lemma SubSequenceOverrunsView()
    ensures var v := ByteView([1, 2, 3], 0, 1);
      Valid(v) && SubSequence(v, 0, 3).Ok? && SubSequence(v, 0, 3).value.length == 3
  {
  }

  /** `clone()` copies exactly the viewed bytes into a fresh array. */
  function Clone(v: ByteView): (r: ByteView)
    requires Valid(v)
    ensures Valid(r) && r.offset == 0 && Chars(r) == Chars(v)
  {
    var w := Whole(v.content[v.offset..v.offset + v.length]);
    assert forall i :: 0 <= i < v.length ==> CharAt(w, i) == CharAt(v, i);
    w
  }
}

=== FILE: code_builder.dfy ===
/**
 * The line emitter of the code generator (utils/CodeBuilder.js): an array
 * of lines, and a stack of indentation units whose concatenation prefixes
 * every non-empty line pushed.
 */
module CodeBuilders {
  import opened Basics

  /** The unit used when none (or an empty one) is given. */
  const DefaultIndent: JString := "  "

  /** `indentSequence || '  '`: an absent or empty unit falls back to two spaces. */
  function IndentUnit(indentSequence: Option<JString>): (u: JString)
    ensures |u| > 0
    ensures indentSequence.Some? && indentSequence.value != [] ==> u == indentSequence.value
  {
    if indentSequence.None? || indentSequence.value == [] then DefaultIndent else indentSequence.value
  }

  /**
   * The line one argument of `push` becomes: a non-empty string is indented,
   * an empty string is kept as it is, and `null` (a placeholder for code
   * inserted later) becomes the bare prefix.
   */
  function Line(prefix: JString, arg: Option<JString>): JString
  {
    match arg
    case None => prefix
    case Some(a) => if |a| > 0 then prefix + a else a
  }

  /** The lines a list of arguments becomes, in order. */
  function Lines(prefix: JString, args: seq<Option<JString>>): seq<JString>
  {
    if args == [] then [] else Lines(prefix, args[..|args| - 1]) + [Line(prefix, args[|args| - 1])]
  }

  /** Exactly one line per argument, each the line of its own argument. */
  lemma {:induction false} LinesSpec(prefix: JString, args: seq<Option<JString>>)
    ensures |Lines(prefix, args)| == |args|
    ensures forall k :: 0 <= k < |args| ==> Lines(prefix, args)[k] == Line(prefix, args[k])
  {
    if args != [] {
      LinesSpec(prefix, args[..|args| - 1]);
    }
  }

  /** Pushing two lists one after the other is pushing their concatenation (`pushAll` of both). */
  lemma {:induction false} LinesAppend(prefix: JString, a: seq<Option<JString>>, b: seq<Option<JString>>)
    ensures Lines(prefix, a + b) == Lines(prefix, a) + Lines(prefix, b)
  {
    if b == [] {
      assert a + b == a;
    } else {
      assert (a + b)[..|a + b| - 1] == a + b[..|b| - 1];
      LinesAppend(prefix, a, b[..|b| - 1]);
    }
  }

  /** An indented line gives back its argument once the prefix is removed. */
  lemma IndentedLineKeepsText(prefix: JString, a: JString)
    requires |a| > 0
    ensures |Line(prefix, Some(a))| == |prefix| + |a|
    ensures Line(prefix, Some(a))[..|prefix|] == prefix && Line(prefix, Some(a))[|prefix|..] == a
  {
  }

  /** Joining `n` copies of one unit is the unit repeated `n` times. */
  lemma {:induction false} UniformConcat(parts: seq<JString>, unit: JString)
    requires forall k :: 0 <= k < |parts| ==> parts[k] == unit
    ensures Concat(parts) == Repeat(unit, |parts|)
  {
    if parts != [] {
      UniformConcat(parts[1..], unit);
      RepeatFront(unit, |parts| - 1);
    }
  }

  lemma {:induction false} RepeatFront(s: JString, n: nat)
    ensures Repeat(s, n + 1) == s + Repeat(s, n)
  {
    if n > 0 {
      RepeatFront(s, n - 1);
      ConcatAssoc(s, Repeat(s, n - 1), s);
    }
  }

  class CodeBuilder {
    var code: seq<JString>
    const indentSequence: JString
    var indents: seq<JString>
    var cache: JString

    /** The stack holds only copies of the unit, and the cache is their concatenation. */
    predicate Valid()
      reads this
    {
      cache == Concat(indents) && forall k :: 0 <= k < |indents| ==> indents[k] == indentSequence
    }

    /** The current prefix: the unit once per level. */
    function Prefix(): JString
      reads this
    {
      Repeat(indentSequence, |indents|)
    }

    /** `new CodeBuilder(code, indentSequence)`; an absent array starts empty. */
    constructor (code: Option<seq<JString>>, indentSequence: Option<JString>)
      ensures Valid() && indents == [] && Prefix() == []
      ensures this.code == (if code.Some? then code.value else [])
      ensures this.indentSequence == IndentUnit(indentSequence)
    {
      this.code := if code.Some? then code.value else [];
      this.indentSequence := IndentUnit(indentSequence);
      indents := [];
      cache := [];
    }

    /**
     * `push(...args)`: appends one line per argument, leaving earlier lines
     * alone, and returns the indentation level.
     */
    method Push(args: seq<Option<JString>>) returns (level: nat)
      requires Valid()
      modifies this
      ensures Valid() && indents == old(indents)
      ensures code == old(code) + Lines(Prefix(), args)
      ensures level == |indents|
    {
      UniformConcat(indents, indentSequence);
      var i := 0;
      while i < |args|
        invariant 0 <= i <= |args|
        invariant code == old(code) + Lines(cache, args[..i])
        invariant indents == old(indents) && cache == old(cache)
      {
        assert args[..i + 1][..i] == args[..i];
        var arg := args[i];
        if arg.Some? {
          code := code + [if |arg.value| > 0 then cache + arg.value else arg.value];
        } else {
          code := code + [cache];
        }
        i := i + 1;
      }
      assert args[..i] == args;
      level := |indents|;
    }

    /** `pushAll(arr)`: the same as `push(...arr)`. */
    method PushAll(arr: seq<Option<JString>>) returns (level: nat)
      requires Valid()
      modifies this
      ensures Valid() && indents == old(indents)
      ensures code == old(code) + Lines(Prefix(), arr)
      ensures level == |indents|
    {
      level := Push(arr);
    }

    /** `indent(...args)`: pushes the arguments at the old level, then goes one level deeper. */
    method Indent(args: seq<Option<JString>>) returns (level: nat)
      requires Valid()
      modifies this
      ensures Valid() && indents == old(indents) + [indentSequence]
      ensures code == old(code) + Lines(old(Prefix()), args)
      ensures level == |indents| == old(|indents|) + 1
      ensures Prefix() == old(Prefix()) + indentSequence
    {
      var _ := Push(args);
      indents := indents + [indentSequence];
      cache := Concat(indents);
      level := |indents|;
    }

    /**
     * `dedent(...args)`: goes one level back (staying at 0 when already
     * there), then pushes the arguments at the new level.
     */
    method Dedent(args: seq<Option<JString>>) returns (level: nat)
      requires Valid()
      modifies this
      ensures Valid()
      ensures indents == if old(indents) == [] then [] else old(indents)[..|old(indents)| - 1]
      ensures code == old(code) + Lines(Prefix(), args)
      ensures level == |indents|
    {
      if indents != [] {
        indents := indents[..|indents| - 1];
      }
      cache := Concat(indents);
      level := Push(args);
    }
  }

  /** `indent` then `dedent`, with no arguments, comes back to the same level and prefix. */
  method IndentThenDedent(b: CodeBuilder)
    requires b.Valid()
    modifies b
    ensures b.Valid() && b.indents == old(b.indents) && b.Prefix() == old(b.Prefix())
    ensures b.code == old(b.code)
  {
    var _ := b.Indent([]);
    var _ := b.Dedent([]);
  }
}

=== FILE: constants.dfy ===
/**
 * The constant pools of a generated parser (`makeConstantBuilder` in
 * passes/generate-java.js): each distinct value becomes one
 * `private static final` field named `<prefix><index>`, and adding a value
 * already pooled hands back the name of the existing field.
 */
module ConstantPools {
  import opened Basics

  /** `n1(i)`: the name of constant `i`, the prefix followed by the decimal digits of `i`. */
  function ConstName(prefix: JString, i: nat): (r: JString)
    ensures |r| > |prefix| && r[..|prefix|] == prefix
    ensures forall k :: |prefix| <= k < |r| ==> IsDigit(r[k])
    ensures DecimalValue(r[|prefix|..]) == i
  {
    NatToStringDecodes(i);
    var r := prefix + NatToString(i);
    assert r[|prefix|..] == NatToString(i);
    r
  }

  const FieldModifiers: JString := "private static final "

  /**
   * `n2(v, i)`: the field declaration of constant `i` holding `v`: a
   * `private static final` field of the pool's type, initialised with the
   * value and closed by `;`.
   */
  function Definition(typeName: JString, prefix: JString, v: JString, i: nat): (r: JString)
    ensures |r| > |FieldModifiers| + |typeName| + |v|
    ensures r[..|FieldModifiers| + |typeName| + 1] == FieldModifiers + typeName + " "
    ensures var head, name := FieldModifiers + typeName + " ", ConstName(prefix, i);
      |r| > |head| + |name| + 3 && r[|head|..|head| + |name| + 3] == name + " = "
    ensures r[|r| - |v| - 1..] == v + ";"
  {
    var head, name := FieldModifiers + typeName + " ", ConstName(prefix, i);
    var r := head + name + " = " + v + ";";
    assert r[..|head|] == head;
    assert r[|head|..|head| + |name| + 3] == name + " = ";
    assert r[|r| - |v| - 1..] == v + ";";
    r
  }

  /** Different constants of one pool have different names. */
  lemma ConstNameInjective(prefix: JString, i: nat, j: nat)
    ensures ConstName(prefix, i) == ConstName(prefix, j) ==> i == j
  {
    if ConstName(prefix, i) == ConstName(prefix, j) {
      assert NatToString(i) == ConstName(prefix, i)[|prefix|..];
      assert NatToString(j) == ConstName(prefix, j)[|prefix|..];
      NatToStringInjective(i, j);
    }
  }

  /**
   * In a pool without duplicates, two pooled values get the same constant
   * exactly when they are the same value.
   */
  lemma SameNameSameValue(prefix: JString, storage: seq<JString>, v: JString, w: JString)
    requires NoDuplicates(storage) && v in storage && w in storage
    ensures ConstName(prefix, IndexOf(storage, v)) == ConstName(prefix, IndexOf(storage, w)) <==> v == w
  {
    ConstNameInjective(prefix, IndexOf(storage, v), IndexOf(storage, w));
  }

  class ConstantBuilder {
    const typeName: JString
    const prefix: JString
    var storage: seq<JString>

    ghost predicate Valid()
      reads this
    {
      NoDuplicates(storage)
    }

    /** `makeConstantBuilder(type, prefix, stringify)`: an empty pool. */
    constructor (typeName: JString, prefix: JString)
      ensures this.typeName == typeName && this.prefix == prefix
      ensures storage == [] && Valid()
    {
      this.typeName := typeName;
      this.prefix := prefix;
      storage := [];
    }

    /**
     * `add(value)`: the name of the constant holding `value`, pooling it
     * first if no equal value is pooled.
     */
    method Add(value: JString) returns (name: JString)
      requires Valid()
      modifies this
      ensures Valid() && storage == Added(old(storage), value)
      ensures 0 <= IndexOf(storage, value) && name == ConstName(prefix, IndexOf(storage, value))
      ensures value in old(storage) ==> name == ConstName(prefix, IndexOf(old(storage), value))
      ensures value !in old(storage) ==> name == ConstName(prefix, |old(storage)|)
    {
      var index := IndexOf(storage, value);
      AddedKeepsNoDuplicates(storage, value);
      if index < 0 {
        storage := storage + [value];
        index := |storage| - 1;
      }
      name := prefix + NatToString(index);
    }

    /** `defines()`: one declaration per pooled value, in pooling order. */
    function Defines(): (r: seq<JString>)
      reads this
      ensures |r| == |storage|
      ensures forall v :: v in storage ==> r[IndexOf(storage, v)] == Definition(typeName, prefix, v, IndexOf(storage, v))
    {
      var values := storage;
      seq(|values|, i requires 0 <= i < |values| => Definition(typeName, prefix, values[i], i))
    }
  }
}

=== FILE: escapes.dfy ===
/**
 * The string helpers at the top of passes/generate-java.js that put grammar
 * text into generated Java source: `hex`, `escape` (the body of a Java
 * string literal), `regexEscape` (text inside a regular-expression
 * character class) and `makeRegexString` (a whole character class).
 *
 * `escape` and `regexEscape` are chains of global `replace` calls, each
 * rewriting the characters one character class selects. The chains are
 * modelled stage by stage, exactly as written, and then proved equal to a
 * rewriting of each input character on its own.
 */
module JavaEscapes {
  import opened Basics

  // ---------------------------------------------------------------------
  // Hexadecimal digits
  // ---------------------------------------------------------------------

  predicate IsHexDigit(c: CodeUnit) { '0' <= c <= '9' || 'A' <= c <= 'F' }

  /** An upper-case hexadecimal digit, as `toString(16).toUpperCase()` prints it. */
  function HexDigit(d: nat): (c: CodeUnit)
    requires d < 16
    ensures IsHexDigit(c) && HexDigitValue(c) == d
  {
    if d < 10 then ('0' as int + d) as char else ('A' as int + d - 10) as char
  }

  function HexDigitValue(c: CodeUnit): (d: nat)
    requires IsHexDigit(c)
    ensures d < 16
  {
    if c <= '9' then c as int - '0' as int else c as int - 'A' as int + 10
  }

  /**
   * `hex(ch)`: the code of a character in upper-case hexadecimal, without
   * leading zeros: a non-empty string of digits that reads back as the code.
   */
  function Hex(n: nat): (r: JString)
    ensures |r| > 0 && forall i :: 0 <= i < |r| ==> IsHexDigit(r[i])
    ensures HexValue(r) == n
    decreases n
  {
    if n < 16 then [HexDigit(n)]
    else
      var r := Hex(n / 16) + [HexDigit(n % 16)];
      assert r[..|r| - 1] == Hex(n / 16);
      r
  }

  /** Exactly four hexadecimal digits, zero-padded, as a Java `\uXXXX` escape needs. */
  function Hex4(n: nat): (r: JString)
    requires n < 0x1_0000
    ensures |r| == 4 && forall i :: 0 <= i < 4 ==> IsHexDigit(r[i])
  {
    var a := n / 16;
    var b := a / 16;
    [HexDigit(b / 16), HexDigit(b % 16), HexDigit(a % 16), HexDigit(n % 16)]
  }

  /** The largest number `k` hexadecimal digits can hold, plus one. */
  function HexBound(k: nat): nat
  {
    if k == 0 then 1 else 16 * HexBound(k - 1)
  }

  /** Reads back a string of hexadecimal digits. */
  function HexValue(s: JString): (v: nat)
    requires forall i :: 0 <= i < |s| ==> IsHexDigit(s[i])
    ensures v < HexBound(|s|)
  {
    if s == [] then 0 else 16 * HexValue(s[..|s| - 1]) + HexDigitValue(s[|s| - 1])
  }

  /** Four padded digits read back as the number they print. */
  lemma Hex4Decodes(n: nat)
    requires n < 0x1_0000
    ensures HexValue(Hex4(n)) == n
  {
    var h := Hex4(n);
    var a := n / 16;
    var b := a / 16;
    assert h[..1][..0] == [];
    assert h[..2][..1] == h[..1];
    assert h[..3][..2] == h[..2];
    assert h[..4] == h;
    assert HexValue(h[..1]) == b / 16;
    assert HexValue(h[..2]) == 16 * (b / 16) + b % 16 == b;
    assert HexValue(h[..3]) == 16 * b + a % 16 == a;
    assert HexValue(h) == 16 * a + n % 16 == n;
  }

  /**
   * `hex` prints one to four digits for a 16-bit code; the fixed prefixes
   * `\u000`, `\u00`, `\u0` the four ranges of `escape` put before it make
   * up exactly the zero padding of four digits.
   */
  lemma HexPadding(n: nat)
    requires n < 0x1_0000
    ensures n < 0x10 ==> "000" + Hex(n) == Hex4(n)
    ensures 0x10 <= n < 0x100 ==> "00" + Hex(n) == Hex4(n)
    ensures 0x100 <= n < 0x1000 ==> "0" + Hex(n) == Hex4(n)
    ensures 0x1000 <= n ==> Hex(n) == Hex4(n)
  {
    if n < 0x10 {
      assert Hex(n) == [HexDigit(n)];
    } else if n < 0x100 {
      TwoHexDigits(n);
    } else if n < 0x1000 {
      ThreeHexDigits(n);
    } else {
      FourHexDigits(n);
    }
  }

  lemma TwoHexDigits(n: nat)
    requires 0x10 <= n < 0x100
    ensures "00" + Hex(n) == Hex4(n)
  {
    assert n / 16 < 16;
    assert Hex(n) == [HexDigit(n / 16)] + [HexDigit(n % 16)];
  }

  lemma ThreeHexDigits(n: nat)
    requires 0x100 <= n < 0x1000
    ensures "0" + Hex(n) == Hex4(n)
  {
    var a := n / 16;
    assert 0x10 <= a < 0x100;
    assert Hex(a) == [HexDigit(a / 16)] + [HexDigit(a % 16)];
    assert Hex(n) == Hex(a) + [HexDigit(n % 16)];
  }

  lemma FourHexDigits(n: nat)
    requires 0x1000 <= n < 0x1_0000
    ensures Hex(n) == Hex4(n)
  {
    var a := n / 16;
    var b := a / 16;
    assert 0x100 <= a < 0x1000 && 0x10 <= b < 0x100;
    assert Hex(b) == [HexDigit(b / 16)] + [HexDigit(b % 16)];
    assert Hex(a) == Hex(b) + [HexDigit(a % 16)];
    assert Hex(n) == Hex(a) + [HexDigit(n % 16)];
  }

  // ---------------------------------------------------------------------
  // Chains of global replacements
  // ---------------------------------------------------------------------

  /** The two chains of `replace` calls: `escape` and `regexEscape`. */
  datatype Chain = StringLiteral | CharClass

  /** How many `replace` stages the chain has. */
  function StageCount(t: Chain): nat
  {
    match t
    case StringLiteral => 11
    case CharClass => 5
  }

  /** The character class of stage `k`. */
  predicate Selects(t: Chain, k: nat, c: CodeUnit)
  {
    var n := c as int;
    match t
    case StringLiteral =>
      if k == 0 then c == '\\'
      else if k == 1 then c == '"'
      else if k == 2 then n == 0x08
      else if k == 3 then n == 0x09
      else if k == 4 then n == 0x0A
      else if k == 5 then n == 0x0C
      else if k == 6 then n == 0x0D
      else if k == 7 then n <= 0x07 || n == 0x0B || n == 0x0E || n == 0x0F
      else if k == 8 then 0x10 <= n <= 0x1F || 0x80 <= n <= 0xFF
      else if k == 9 then 0x100 <= n <= 0xFFF
      else k == 10 && 0x1000 <= n <= 0xFFFF
    case CharClass =>
      if k == 0 then c == '\\'
      else if k == 1 then c == '['
      else if k == 2 then c == ']'
      else if k == 3 then c == '^'
      else k == 4 && c == '-'
  }

  /** What stage `k` writes for a character it selects. */
  function Replacement(t: Chain, k: nat, c: CodeUnit): JString
  {
    match t
    case StringLiteral =>
      if k == 0 then "\\\\"
      else if k == 1 then "\\\""
      else if k == 2 then "\\b"
      else if k == 3 then "\\t"
      else if k == 4 then "\\n"
      else if k == 5 then "\\f"
      else if k == 6 then "\\r"
      else if k == 7 then "\\u000" + Hex(c as int)
      else if k == 8 then "\\u00" + Hex(c as int)
      else if k == 9 then "\\u0" + Hex(c as int)
      else "\\u" + Hex(c as int)
    case CharClass => ['\\', c]
  }

  /** `s.replace(/[...]/g, ...)` for stage `k`: each selected character rewritten, the others kept. */
  function ReplaceAll(t: Chain, k: nat, s: JString): JString
  {
    if s == [] then []
    else
      var c := s[|s| - 1];
      ReplaceAll(t, k, s[..|s| - 1]) + (if Selects(t, k, c) then Replacement(t, k, c) else [c])
  }

  /** Stages `k`, `k + 1`, ... applied in turn, as the chained calls do. */
  function RunFrom(t: Chain, k: nat, s: JString): JString
    decreases StageCount(t) - k
  {
    if k >= StageCount(t) then s else RunFrom(t, k + 1, ReplaceAll(t, k, s))
  }

  /**
   * `escape(s)`: the chain of replacements, which comes to escaping each
   * character on its own (EscapeChar, below).
   */
  function Escape(s: JString): (r: JString)
    ensures r == EscapeEach(s)
  {
    EscapeIsPerChar(s);
    RunFrom(StringLiteral, 0, s)
  }

  /**
   * `regexEscape(s)`: the chain of replacements, which comes to a backslash
   * before each of `\ [ ] ^ -` and every other character kept.
   */
  function RegexEscape(s: JString): (r: JString)
    ensures r == RegexEscapeEach(s)
  {
    RegexEscapeIsPerChar(s);
    RunFrom(CharClass, 0, s)
  }

  lemma {:induction false} ReplaceAllAppend(t: Chain, k: nat, a: JString, b: JString)
    ensures ReplaceAll(t, k, a + b) == ReplaceAll(t, k, a) + ReplaceAll(t, k, b)
  {
    if b == [] {
      assert a + b == a;
    } else {
      var init, c := b[..|b| - 1], b[|b| - 1];
      var piece := if Selects(t, k, c) then Replacement(t, k, c) else [c];
      assert (a + b)[..|a + b| - 1] == a + init && (a + b)[|a + b| - 1] == c;
      assert ReplaceAll(t, k, a + b) == ReplaceAll(t, k, a + init) + piece;
      ReplaceAllAppend(t, k, a, init);
    }
  }

  /** A replacement stage rewrites the characters of a string independently of each other. */
  lemma {:induction false} RunFromAppend(t: Chain, k: nat, a: JString, b: JString)
    ensures RunFrom(t, k, a + b) == RunFrom(t, k, a) + RunFrom(t, k, b)
    decreases StageCount(t) - k
  {
    if k < StageCount(t) {
      ReplaceAllAppend(t, k, a, b);
      RunFromAppend(t, k + 1, ReplaceAll(t, k, a), ReplaceAll(t, k, b));
    }
  }

  lemma {:induction false} ReplaceAllKeeps(t: Chain, k: nat, s: JString)
    requires forall i :: 0 <= i < |s| ==> !Selects(t, k, s[i])
    ensures ReplaceAll(t, k, s) == s
  {
    if s != [] {
      ReplaceAllKeeps(t, k, s[..|s| - 1]);
    }
  }

  /** Text no later stage selects comes out of the rest of the chain unchanged. */
  lemma {:induction false} RunFromKeeps(t: Chain, k: nat, s: JString)
    requires forall j, i :: k <= j < StageCount(t) && 0 <= i < |s| ==> !Selects(t, j, s[i])
    ensures RunFrom(t, k, s) == s
    decreases StageCount(t) - k
  {
    if k < StageCount(t) {
      ReplaceAllKeeps(t, k, s);
      RunFromKeeps(t, k + 1, s);
    }
  }

  /** No stage rewrites again what an earlier stage wrote. */
  ghost predicate Settled(t: Chain)
  {
    forall k, j, c, i :: 0 <= k < j < StageCount(t) && Selects(t, k, c) && 0 <= i < |Replacement(t, k, c)|
      ==> !Selects(t, j, Replacement(t, k, c)[i])
  }

  /** What the chain makes of one character: the replacement of the first stage selecting it. */
  function FirstMatch(t: Chain, k: nat, c: CodeUnit): JString
    decreases StageCount(t) - k
  {
    if k >= StageCount(t) then [c]
    else if Selects(t, k, c) then Replacement(t, k, c)
    else FirstMatch(t, k + 1, c)
  }

  lemma ReplaceAllOne(t: Chain, k: nat, c: CodeUnit)
    ensures ReplaceAll(t, k, [c]) == if Selects(t, k, c) then Replacement(t, k, c) else [c]
  {
    assert [c][..0] == [];
  }

  lemma {:induction false} RunFromChar(t: Chain, k: nat, c: CodeUnit)
    requires Settled(t)
    ensures RunFrom(t, k, [c]) == FirstMatch(t, k, c)
    decreases StageCount(t) - k
  {
    if k < StageCount(t) {
      ReplaceAllOne(t, k, c);
      if Selects(t, k, c) {
        var r := Replacement(t, k, c);
        assert forall j, i :: k + 1 <= j < StageCount(t) && 0 <= i < |r| ==> !Selects(t, j, r[i]);
        RunFromKeeps(t, k + 1, r);
      } else {
        RunFromChar(t, k + 1, c);
      }
    }
  }

  // ---------------------------------------------------------------------
  // escape
  // ---------------------------------------------------------------------

  /**
   * A character that may appear in the output of `escape`: ASCII with no C0
   * control character (DEL, U+007F, passes through raw).
   */
  predicate AsciiNoC0(c: CodeUnit) { 0x20 <= c as int < 0x80 }

  /**
   * The escape of one character, as Java defines string-literal escapes:
   * the seven named escapes, `\uXXXX` with four upper-case digits for every
   * other control character and everything from 0x80 on, and the character
   * itself otherwise (DEL, 0x7F, included).
   */
  function EscapeChar(c: CodeUnit): JString
  {
    var n := c as int;
    if c == '\\' then "\\\\"
    else if c == '"' then "\\\""
    else if n == 0x08 then "\\b"
    else if n == 0x09 then "\\t"
    else if n == 0x0A then "\\n"
    else if n == 0x0C then "\\f"
    else if n == 0x0D then "\\r"
    else if n < 0x20 || 0x80 <= n then "\\u" + Hex4(n)
    else [c]
  }

  /** Every character escaped on its own, in order. */
  function EscapeEach(s: JString): JString
  {
    if s == [] then [] else EscapeChar(s[0]) + EscapeEach(s[1..])
  }

  lemma ReplacementAsciiNoC0(k: nat, c: CodeUnit)
    ensures forall i :: 0 <= i < |Replacement(StringLiteral, k, c)| ==> AsciiNoC0(Replacement(StringLiteral, k, c)[i])
    ensures '"' !in Replacement(StringLiteral, 0, c)
  {
  }

  lemma StringLiteralSettled()
    ensures Settled(StringLiteral)
  {
    forall k, j, c, i | 0 <= k < j < StageCount(StringLiteral) && Selects(StringLiteral, k, c)
      && 0 <= i < |Replacement(StringLiteral, k, c)|
      ensures !Selects(StringLiteral, j, Replacement(StringLiteral, k, c)[i])
    {
      ReplacementAsciiNoC0(k, c);
    }
  }

  /** Stages that do not select a character pass it on to the next. */
  lemma {:induction false} SkipStages(t: Chain, k: nat, c: CodeUnit)
    requires k <= StageCount(t)
    requires forall j :: 0 <= j < k ==> !Selects(t, j, c)
    ensures FirstMatch(t, 0, c) == FirstMatch(t, k, c)
  {
    if k > 0 {
      SkipStages(t, k - 1, c);
    }
  }

  /** The first stage that selects a character writes exactly its Java escape. */
  lemma FirstMatchEscapes(c: CodeUnit)
    ensures FirstMatch(StringLiteral, 0, c) == EscapeChar(c)
  {
    var n := c as int;
    var t := StringLiteral;
    HexPadding(n);
    if n < 0x20 && !(n == 0x08 || n == 0x09 || n == 0x0A || n == 0x0C || n == 0x0D) {
      if n <= 0x07 || n == 0x0B || n == 0x0E || n == 0x0F {
        SkipStages(t, 7, c);
        assert "\\u000" + Hex(n) == "\\u" + ("000" + Hex(n));
      } else {
        SkipStages(t, 8, c);
        assert "\\u00" + Hex(n) == "\\u" + ("00" + Hex(n));
      }
    } else if 0x80 <= n {
      if n <= 0xFF {
        SkipStages(t, 8, c);
        assert "\\u00" + Hex(n) == "\\u" + ("00" + Hex(n));
      } else if n <= 0xFFF {
        SkipStages(t, 9, c);
        assert "\\u0" + Hex(n) == "\\u" + ("0" + Hex(n));
      } else {
        SkipStages(t, 10, c);
      }
    } else if !(c == '\\' || c == '"' || n == 0x08 || n == 0x09 || n == 0x0A || n == 0x0C || n == 0x0D) {
      SkipStages(t, 11, c);
    }
  }

  /** The chain of replacements escapes each character independently. */
  lemma {:induction false} EscapeIsPerChar(s: JString)
    ensures RunFrom(StringLiteral, 0, s) == EscapeEach(s)
  {
    if s != [] {
      var c, rest := s[0], s[1..];
      assert s == [c] + rest;
      EscapeAppend([c], rest);
      EscapeOne(c);
      EscapeIsPerChar(rest);
      assert EscapeEach(s) == EscapeChar(c) + EscapeEach(rest);
    }
  }

  lemma EscapeAppend(a: JString, b: JString)
    ensures RunFrom(StringLiteral, 0, a + b) == RunFrom(StringLiteral, 0, a) + RunFrom(StringLiteral, 0, b)
  {
    RunFromAppend(StringLiteral, 0, a, b);
  }

  /** The chain run on a single character writes its Java escape. */
  lemma EscapeOne(c: CodeUnit)
    ensures RunFrom(StringLiteral, 0, [c]) == EscapeChar(c)
  {
    StringLiteralSettled();
    RunFromChar(StringLiteral, 0, c);
    FirstMatchEscapes(c);
  }

  /** The output is ASCII with no C0 control character: nothing below 0x20 and nothing from 0x80 on. */
  lemma {:induction false} EscapeAsciiNoC0(s: JString)
    ensures forall i :: 0 <= i < |Escape(s)| ==> AsciiNoC0(Escape(s)[i])
  {
    EscapeEachAsciiNoC0(s);
  }

  lemma {:induction false} EscapeEachAsciiNoC0(s: JString)
    ensures forall i :: 0 <= i < |EscapeEach(s)| ==> AsciiNoC0(EscapeEach(s)[i])
  {
    if s != [] {
      EscapeEachAsciiNoC0(s[1..]);
      var e := EscapeChar(s[0]);
      assert forall i :: 0 <= i < |e| ==> AsciiNoC0(e[i]);
      assert forall i :: |e| <= i < |EscapeEach(s)| ==> EscapeEach(s)[i] == EscapeEach(s[1..])[i - |e|];
    }
  }

  /** The character a named escape letter stands for. */
  function NamedEscape(e: CodeUnit): Option<CodeUnit>
  {
    if e == 'b' then Some(0x08 as char)
    else if e == 't' then Some('\t')
    else if e == 'n' then Some('\n')
    else if e == 'f' then Some(0x0C as char)
    else if e == 'r' then Some('\r')
    else if e == '\\' || e == '"' then Some(e)
    else None
  }

  /** Reads a Java string-literal body back (no octal escapes; anything unknown stands for itself). */
  function Unescape(s: JString): JString
    decreases |s|
  {
    if s == [] then []
    else if s[0] == '\\' && |s| >= 6 && s[1] == 'u' && (forall i :: 2 <= i < 6 ==> IsHexDigit(s[i]))
         && !(0xD800 <= HexValue(s[2..6]) < 0xE000) then
      assert HexBound(4) == 0x1_0000;
      var u: CodeUnit := HexValue(s[2..6]) as char;
      [u] + Unescape(s[6..])
    else if s[0] == '\\' && |s| >= 2 && NamedEscape(s[1]).Some? then
      [NamedEscape(s[1]).value] + Unescape(s[2..])
    else [s[0]] + Unescape(s[1..])
  }

  lemma UnescapeStep(c: CodeUnit, rest: JString)
    ensures Unescape(EscapeChar(c) + rest) == [c] + Unescape(rest)
  {
    var n := c as int;
    var s := EscapeChar(c) + rest;
    if (n < 0x20 || 0x80 <= n) && !(n == 0x08 || n == 0x09 || n == 0x0A || n == 0x0C || n == 0x0D) {
      UnescapeHexStep(c, rest);
    } else if c == '\\' || c == '"' || n == 0x08 || n == 0x09 || n == 0x0A || n == 0x0C || n == 0x0D {
      assert s[2..] == rest;
    } else {
      assert s[1..] == rest;
    }
  }

  /** A `\uXXXX` escape reads back as the character it encodes. */
  lemma UnescapeHexStep(c: CodeUnit, rest: JString)
    requires c as int < 0x20 || 0x80 <= c as int
    requires c as int != 0x08 && c as int != 0x09 && c as int != 0x0A && c as int != 0x0C && c as int != 0x0D
    ensures Unescape(EscapeChar(c) + rest) == [c] + Unescape(rest)
  {
    var n := c as int;
    var s := EscapeChar(c) + rest;
    assert EscapeChar(c) == "\\u" + Hex4(n);
    Hex4Decodes(n);
    assert s[2..6] == Hex4(n);
    assert s[6..] == rest;
  }

  /** Reading the escaped text back gives the original string: `escape` loses nothing. */
  lemma {:induction false} UnescapeEscape(s: JString)
    ensures Unescape(Escape(s)) == s
  {
    UnescapeEach(s);
  }

  lemma {:induction false} UnescapeEach(s: JString)
    ensures Unescape(EscapeEach(s)) == s
  {
    if s != [] {
      UnescapeStep(s[0], EscapeEach(s[1..]));
      UnescapeEach(s[1..]);
    }
  }

  // ---------------------------------------------------------------------
  // regexEscape and makeRegexString
  // ---------------------------------------------------------------------

  /** The characters with a meaning inside a character class. */
  predicate ClassSpecial(c: CodeUnit) { c == '\\' || c == '[' || c == ']' || c == '^' || c == '-' }

  /** One character of a class: the special ones behind a backslash, the rest as they are. */
  function RegexEscapeChar(c: CodeUnit): JString
  {
    if ClassSpecial(c) then ['\\', c] else [c]
  }

  function RegexEscapeEach(s: JString): JString
  {
    if s == [] then [] else RegexEscapeChar(s[0]) + RegexEscapeEach(s[1..])
  }

  lemma CharClassSettled()
    ensures Settled(CharClass)
  {
  }

  /** The chain puts one backslash before each special character, the backslash included. */
  lemma {:induction false} RegexEscapeIsPerChar(s: JString)
    ensures RunFrom(CharClass, 0, s) == RegexEscapeEach(s)
  {
    if s != [] {
      var c, rest := s[0], s[1..];
      assert s == [c] + rest;
      RegexEscapeAppend([c], rest);
      RegexEscapeOne(c);
      RegexEscapeIsPerChar(rest);
      assert RegexEscapeEach(s) == RegexEscapeChar(c) + RegexEscapeEach(rest);
    }
  }

  lemma RegexEscapeAppend(a: JString, b: JString)
    ensures RunFrom(CharClass, 0, a + b) == RunFrom(CharClass, 0, a) + RunFrom(CharClass, 0, b)
  {
    RunFromAppend(CharClass, 0, a, b);
  }

  /** The chain run on a single character escapes it when it is special. */
  lemma RegexEscapeOne(c: CodeUnit)
    ensures RunFrom(CharClass, 0, [c]) == RegexEscapeChar(c)
  {
    CharClassSettled();
    RunFromChar(CharClass, 0, c);
  }

  /** Reads escaped class text back: a backslash stands for the character after it. */
  function RegexUnescape(s: JString): JString
    decreases |s|
  {
    if s == [] then []
    else if s[0] == '\\' && |s| >= 2 then [s[1]] + RegexUnescape(s[2..])
    else [s[0]] + RegexUnescape(s[1..])
  }

  lemma {:induction false} RegexUnescapeEach(s: JString)
    ensures RegexUnescape(RegexEscapeEach(s)) == s
  {
    if s != [] {
      var t := RegexEscapeEach(s);
      if ClassSpecial(s[0]) {
        assert t[2..] == RegexEscapeEach(s[1..]);
      } else {
        assert t[1..] == RegexEscapeEach(s[1..]);
      }
      RegexUnescapeEach(s[1..]);
    }
  }

  /** `regexEscape` loses nothing: every backslash it adds is read back as an escape, and only those. */
  lemma RegexUnescapeEscape(s: JString)
    ensures RegexUnescape(RegexEscape(s)) == s
  {
    RegexUnescapeEach(s);
  }

  /**
   * Every `^` stands right behind a backslash, so none can open a negated
   * class: the text does not start with `^`, and the character before each
   * later `^` is a backslash.
   */
  ghost predicate CaretsEscaped(s: JString)
  {
    (|s| > 0 ==> s[0] != '^')
    && forall i, j {:trigger s[i], s[j]} :: 0 <= i < j < |s| && j == i + 1 && s[j] == '^' ==> s[i] == '\\'
  }

  lemma CaretsEscapedAppend(a: JString, b: JString)
    requires CaretsEscaped(a) && CaretsEscaped(b)
    ensures CaretsEscaped(a + b)
  {
    var ab := a + b;
    if |a| > 0 {
      assert ab[0] == a[0];
    }
    if |b| > 0 {
      assert ab[|a|] == b[0];
    }
    forall i, j | 0 <= i < j < |ab| && j == i + 1 && ab[j] == '^'
      ensures ab[i] == '\\'
    {
      if j < |a| {
        assert ab[i] == a[i] && ab[j] == a[j];
      } else if j > |a| {
        assert ab[i] == b[i - |a|] && ab[j] == b[j - |a|];
      }
    }
  }

  lemma {:induction false} RegexEscapeEachCarets(s: JString)
    ensures CaretsEscaped(RegexEscapeEach(s))
  {
    if s != [] {
      RegexEscapeEachCarets(s[1..]);
      CaretsEscapedAppend(RegexEscapeChar(s[0]), RegexEscapeEach(s[1..]));
    }
  }

  /** One element of `node.parts`: a string of characters, or a two-element array for a range. */
  datatype ClassPart = Chars(text: JString) | Range(low: JString, high: JString)

  /** A part as it appears in the class: escaped text, or `low-high` with both ends escaped. */
  function PartText(p: ClassPart): (r: JString)
    ensures CaretsEscaped(r)
  {
    match p
    case Chars(text) =>
      RegexEscapeEachCarets(text);
      RegexEscape(text)
    case Range(low, high) =>
      RegexEscapeEachCarets(low);
      RegexEscapeEachCarets(high);
      CaretsEscapedAppend(RegexEscape(low), "-");
      CaretsEscapedAppend(RegexEscape(low) + "-", RegexEscape(high));
      RegexEscape(low) + "-" + RegexEscape(high)
  }

  /** The parts' texts joined with no separator. */
  function PartsText(parts: seq<ClassPart>): (r: JString)
    ensures CaretsEscaped(r)
  {
    if parts == [] then []
    else
      CaretsEscapedAppend(PartText(parts[0]), PartsText(parts[1..]));
      PartText(parts[0]) + PartsText(parts[1..])
  }

  /**
   * `makeRegexString(node)`: a bracketed class, negated exactly when the
   * node is inverted, since no escaped part can start with a bare `^`.
   */
  function MakeRegexString(inverted: bool, parts: seq<ClassPart>): (r: JString)
    ensures |r| >= 2 && r[0] == '[' && r[|r| - 1] == ']'
    ensures r[1] == '^' <==> inverted
    ensures |r| == |PartsText(parts)| + (if inverted then 3 else 2)
    ensures r[|r| - 1 - |PartsText(parts)|..|r| - 1] == PartsText(parts)
  {
    var body := PartsText(parts);
    "[" + (if inverted then "^" else "") + body + "]"
  }
}

=== FILE: expect.dfy ===
/**
 * The farthest-failure tracker (Expect.java). It keeps the position of the
 * deepest failure seen so far and every descriptor recorded at exactly that
 * offset, in the order they were recorded; while `silent` is positive it
 * records nothing.
 */
module Tracker {
  import opened Positions
  import opened Expectations

  /** A snapshot of the tracker's fields: `pos`, `silent`, `candidates`. */
  datatype Farthest = Farthest(pos: Cursor, silent: int, candidates: seq<Expected>)

  /** The field initialisers: a fresh position, not silenced, no candidates. */
  const Initial := Farthest(Start, 0, [])

  /** What `add(currentPos, expected)` does to the fields. */
  function Record(t: Farthest, at: Cursor, e: Expected): Farthest
  {
    if t.silent > 0 || at.offset < t.pos.offset then t
    else if at.offset > t.pos.offset then Farthest(at, t.silent, [e])
    else t.(candidates := t.candidates + [e])
  }

  /** One call of `add`: where the failure happened and what was expected there. */
  datatype Failure = Failure(at: Cursor, expected: Expected)

  /** The tracker after `add` was called for each failure of `fs`, first to last. */
  function RecordAll(t: Farthest, fs: seq<Failure>): Farthest
  {
    if fs == [] then t
    else Record(RecordAll(t, fs[..|fs| - 1]), fs[|fs| - 1].at, fs[|fs| - 1].expected)
  }

  /** The larger of `base` and every offset in `fs`. */
  function MaxOffset(base: int, fs: seq<Failure>): int
  {
    if fs == [] then base
    else
      var m := MaxOffset(base, fs[..|fs| - 1]);
      if fs[|fs| - 1].at.offset > m then fs[|fs| - 1].at.offset else m
  }

  /** The descriptors of the failures of `fs` at offset `off`, in order. */
  function At(fs: seq<Failure>, off: int): seq<Expected>
  {
    if fs == [] then []
    else At(fs[..|fs| - 1], off) + (if fs[|fs| - 1].at.offset == off then [fs[|fs| - 1].expected] else [])
  }

  // ---------------------------------------------------------------------
  // Properties of the tracker over any sequence of failures
  // ---------------------------------------------------------------------

  /** While silenced, no sequence of failures changes anything. */
  lemma {:induction false} RecordAllSilenced(t: Farthest, fs: seq<Failure>)
    requires t.silent > 0
    ensures RecordAll(t, fs) == t
  {
    if fs != [] { RecordAllSilenced(t, fs[..|fs| - 1]); }
  }

  /** The farthest offset never decreases, and `add` never touches `silent`. */
  lemma {:induction false} RecordAllMonotone(t: Farthest, fs: seq<Failure>)
    ensures RecordAll(t, fs).pos.offset >= t.pos.offset
    ensures RecordAll(t, fs).silent == t.silent
  {
    if fs != [] { RecordAllMonotone(t, fs[..|fs| - 1]); }
  }

  /** Every offset in `fs` is at most `MaxOffset(base, fs)`, which is at least `base`. */
  lemma {:induction false} MaxOffsetBounds(base: int, fs: seq<Failure>)
    ensures MaxOffset(base, fs) >= base
    ensures forall i :: 0 <= i < |fs| ==> fs[i].at.offset <= MaxOffset(base, fs)
  {
    if fs != [] { MaxOffsetBounds(base, fs[..|fs| - 1]); }
  }

  /** No failure of `fs` lies beyond `off`, so none is recorded at it. */
  lemma {:induction false} AtBeyondMax(fs: seq<Failure>, off: int)
    requires forall i :: 0 <= i < |fs| ==> fs[i].at.offset < off
    ensures At(fs, off) == []
  {
    if fs != [] { AtBeyondMax(fs[..|fs| - 1], off); }
  }

  /**
   * The farthest-failure law: after any sequence of failures on an active
   * tracker, the tracker sits at the largest offset reached, and its
   * candidates are exactly the descriptors recorded at that offset, in
   * order; the old candidates survive only if no failure went further.
   */
  lemma {:induction false} RecordAllFarthest(t: Farthest, fs: seq<Failure>)
    requires t.silent <= 0
    ensures RecordAll(t, fs).silent == t.silent
    ensures RecordAll(t, fs).pos.offset == MaxOffset(t.pos.offset, fs)
    ensures RecordAll(t, fs).candidates ==
      (if MaxOffset(t.pos.offset, fs) == t.pos.offset then t.candidates else [])
      + At(fs, MaxOffset(t.pos.offset, fs))
  {
    if fs != [] {
      var init, f := fs[..|fs| - 1], fs[|fs| - 1];
      RecordAllFarthest(t, init);
      var m0 := MaxOffset(t.pos.offset, init);
      MaxOffsetBounds(t.pos.offset, init);
      if f.at.offset > m0 {
        forall i | 0 <= i < |init| ensures init[i].at.offset < f.at.offset { }
        AtBeyondMax(init, f.at.offset);
      }
    }
  }

  /**
   * From a fresh tracker, every candidate held was recorded at exactly the
   * offset the tracker now sits at, and every failure recorded there is held.
   */
  lemma CandidatesAtFarthest(fs: seq<Failure>)
    ensures RecordAll(Initial, fs).candidates == At(fs, RecordAll(Initial, fs).pos.offset)
  {
    RecordAllFarthest(Initial, fs);
  }

  /**
   * Two failures, at offsets 2 and 4, leave only the descriptor of the one at
   * offset 4, whichever came first.
   */
  lemma DeeperFailureWins(a: Cursor, b: Cursor, ea: Expected, eb: Expected)
    requires a.offset == 2 && b.offset == 4
    ensures RecordAll(Initial, [Failure(a, ea), Failure(b, eb)]) == Farthest(b, 0, [eb])
    ensures RecordAll(Initial, [Failure(b, eb), Failure(a, ea)]) == Farthest(b, 0, [eb])
  {
    var ab, ba := [Failure(a, ea), Failure(b, eb)], [Failure(b, eb), Failure(a, ea)];
    assert ab[..1] == [Failure(a, ea)] && ba[..1] == [Failure(b, eb)];
    assert ab[..1][..0] == [] && ba[..1][..0] == [];
    assert RecordAll(Initial, ab[..1]) == Farthest(a, 0, [ea]);
    assert RecordAll(Initial, ba[..1]) == Farthest(b, 0, [eb]);
  }

  // ---------------------------------------------------------------------
  // The mutable tracker
  // ---------------------------------------------------------------------

  class Expect {
    var pos: Position
    var silent: int
    var candidates: seq<Expected>

    function Value(): Farthest
      reads this, pos
    {
      Farthest(pos.Value(), silent, candidates)
    }

    constructor ()
      ensures Value() == Initial && fresh(pos)
    {
      pos := new Position();
      silent := 0;
      candidates := [];
    }

    /**
     * Records `expected` as failing at `currentPos`. A deeper failure stores
     * a clone of `currentPos`, so moving the caller's cursor later does not
     * move the tracker.
     */
    method Add(currentPos: Position, expected: Expected)
      modifies this
      ensures Value() == Record(old(Value()), currentPos.Value(), expected)
      ensures pos == old(pos) || fresh(pos)
      ensures old(pos) != currentPos ==> pos != currentPos
    {
      if silent > 0 || currentPos.CompareTo(pos) < 0 {
        return;
      }
      if currentPos.CompareTo(pos) > 0 {
        pos := currentPos.Clone();
        candidates := [];
      }
      candidates := candidates + [expected];
    }
  }
}

=== FILE: expected.dfy ===
/**
 * The descriptor of one grammar element that was expected at a position
 * (Expected.java): an immutable value of a kind, an optional literal value
 * and a human-readable description, ordered by description alone.
 */
module Expectations {
  import opened Basics

  /** The six kinds of expected element. */
  datatype Kind = Any | Pattern | Literal | Rule | Eof | Custom

  datatype Expected = Expected(kind: Kind, value: Option<JString>, description: JString)

  /**
   * `String.compareTo`: the difference of the first pair of code units that
   * differ, or else the difference of the lengths.
   */
  function CompareStrings(a: JString, b: JString): int
  {
    if a == [] || b == [] then |a| - |b|
    else if a[0] != b[0] then a[0] as int - b[0] as int
    else CompareStrings(a[1..], b[1..])
  }

  /**
   * The definition `String.compareTo` documents: at the first index where
   * the strings differ, the difference of those code units; when one is a
   * prefix of the other, the difference of the lengths.
   */
  lemma {:induction false} CompareStringsSpec(a: JString, b: JString)
    ensures forall k :: DiffersFirstAt(a, b, k) ==> CompareStrings(a, b) == a[k] as int - b[k] as int
    ensures OnePrefix(a, b) ==> CompareStrings(a, b) == |a| - |b|
  {
    if a != [] && b != [] {
      if a[0] != b[0] {
        assert forall k :: DiffersFirstAt(a, b, k) ==> k == 0;
      } else {
        CompareStringsSpec(a[1..], b[1..]);
        CompareTail(a, b, CompareStrings(a, b));
      }
    }
  }

  /** `a` and `b` agree before index `k` and differ at it. */
  predicate DiffersFirstAt(a: JString, b: JString, k: int)
  {
    0 <= k < |a| && k < |b| && a[..k] == b[..k] && a[k] != b[k]
  }

  /** One of the strings is a prefix of the other. */
  predicate OnePrefix(a: JString, b: JString)
  {
    (|a| <= |b| && a == b[..|a|]) || (|b| <= |a| && b == a[..|b|])
  }

  /** Strings with the same first character compare like their tails. */
  lemma CompareTail(a: JString, b: JString, r: int)
    requires a != [] && b != [] && a[0] == b[0]
    requires forall k :: DiffersFirstAt(a[1..], b[1..], k) ==> r == a[1..][k] as int - b[1..][k] as int
    requires OnePrefix(a[1..], b[1..]) ==> r == |a| - |b|
    ensures forall k :: DiffersFirstAt(a, b, k) ==> r == a[k] as int - b[k] as int
    ensures OnePrefix(a, b) ==> r == |a| - |b|
  {
    forall k | DiffersFirstAt(a, b, k)
      ensures r == a[k] as int - b[k] as int
    {
      assert k > 0;
      assert a[1..][..k - 1] == a[..k][1..] && b[1..][..k - 1] == b[..k][1..];
      assert DiffersFirstAt(a[1..], b[1..], k - 1);
    }
    if |a| <= |b| && a == b[..|a|] {
      assert a[1..] == b[1..][..|a| - 1];
    }
    if |b| <= |a| && b == a[..|b|] {
      assert b[1..] == a[1..][..|b| - 1];
    }
  }

  /** `Expected.compareTo`: the descriptions compared, nothing else; 0 exactly for equal descriptions. */
  function CompareTo(x: Expected, y: Expected): (r: int)
    ensures r == 0 <==> x.description == y.description
  {
    CompareStringsZero(x.description, y.description);
    CompareStrings(x.description, y.description)
  }

  /** `x` sorts strictly before `y`. */
  predicate Before(x: Expected, y: Expected)
  {
    CompareTo(x, y) < 0
  }

  // ---------------------------------------------------------------------
  // The order is a strict total order on descriptions
  // ---------------------------------------------------------------------

  /** Comparing two strings gives 0 exactly when they are equal. */
  lemma {:induction false} CompareStringsZero(a: JString, b: JString)
    ensures CompareStrings(a, b) == 0 <==> a == b
  {
    if a != [] && b != [] && a[0] == b[0] {
      CompareStringsZero(a[1..], b[1..]);
      assert a == [a[0]] + a[1..] && b == [b[0]] + b[1..];
    }
  }

  /** Swapping the arguments negates the result. */
  lemma {:induction false} CompareStringsAntisymmetric(a: JString, b: JString)
    ensures CompareStrings(a, b) == -CompareStrings(b, a)
  {
    if a != [] && b != [] && a[0] == b[0] {
      CompareStringsAntisymmetric(a[1..], b[1..]);
    }
  }

  lemma {:induction false} CompareStringsTransitive(a: JString, b: JString, c: JString)
    requires CompareStrings(a, b) < 0 && CompareStrings(b, c) < 0
    ensures CompareStrings(a, c) < 0
  {
    if a != [] && b != [] && c != [] && a[0] == b[0] && b[0] == c[0] {
      CompareStringsTransitive(a[1..], b[1..], c[1..]);
    }
  }

  /** Descriptors compare equal exactly when their descriptions are equal, whatever their kind and value. */
  lemma CompareToZero(x: Expected, y: Expected)
    ensures CompareTo(x, y) == 0 <==> x.description == y.description
  {
    CompareStringsZero(x.description, y.description);
  }

  /** `Before` is a strict total order on descriptions. */
  lemma BeforeIsStrictTotalOrder(x: Expected, y: Expected, z: Expected)
    ensures !Before(x, x)
    ensures Before(x, y) ==> !Before(y, x)
    ensures Before(x, y) && Before(y, z) ==> Before(x, z)
    ensures x.description != y.description ==> Before(x, y) || Before(y, x)
  {
    CompareStringsZero(x.description, x.description);
    CompareStringsZero(x.description, y.description);
    CompareStringsAntisymmetric(x.description, y.description);
    if Before(x, y) && Before(y, z) {
      CompareStringsTransitive(x.description, y.description, z.description);
    }
  }
}

=== FILE: imports.dfy ===
/**
 * The import table of a generated parser (utils/Imports.js): full class
 * names keyed by their simple name. A resolver either hands back the full
 * name of an imported class or keeps the simple name, and the table prints
 * the `import` lines of the generated file.
 */
module ImportTables {
  import opened Basics

  /** `s.lastIndexOf(c)`: the last index holding `c`, or -1. */
  function LastIndexOf(s: JString, c: CodeUnit): (j: int)
    ensures -1 <= j < |s|
    ensures j >= 0 ==> s[j] == c
    ensures forall k :: j < k < |s| ==> s[k] != c
  {
    if s == [] then -1
    else if s[|s| - 1] == c then |s| - 1
    else LastIndexOf(s[..|s| - 1], c)
  }

  /**
   * `fullName.substring(fullName.lastIndexOf('.') + 1)`: the part after the
   * last dot, which is the whole name when there is no dot.
   */
  function SimpleName(fullName: JString): (name: JString)
    ensures '.' !in name
    ensures |name| <= |fullName|
    ensures |name| == |fullName| ==> name == fullName
    ensures |name| < |fullName| ==> fullName[|fullName| - |name| - 1..] == ['.'] + name
  {
    fullName[LastIndexOf(fullName, '.') + 1..]
  }

  /** The table after the given full names were registered in order; `*` imports are skipped. */
  function Table(names: seq<JString>): map<JString, JString>
  {
    if names == [] then map[]
    else
      var last := names[|names| - 1];
      var name := SimpleName(last);
      if name == "*" then Table(names[..|names| - 1]) else Table(names[..|names| - 1])[name := last]
  }

  /** The enumeration order of the table's keys: first registration order. */
  function Keys(names: seq<JString>): seq<JString>
  {
    if names == [] then []
    else
      var init := names[..|names| - 1];
      var name := SimpleName(names[|names| - 1]);
      if name == "*" || name in Table(init) then Keys(init) else Keys(init) + [name]
  }

  /** The name of the `i`-th registration is not registered again later. */
  ghost predicate Latest(names: seq<JString>, i: int)
    requires 0 <= i < |names|
  {
    forall j :: i < j < |names| ==> SimpleName(names[j]) != SimpleName(names[i])
  }

  /** Some registration has simple name `k`. */
  ghost predicate Registered(names: seq<JString>, k: JString)
  {
    exists i :: 0 <= i < |names| && SimpleName(names[i]) == k
  }

  lemma RegisteredStep(names: seq<JString>, k: JString)
    requires names != []
    ensures Registered(names, k) <==> Registered(names[..|names| - 1], k) || SimpleName(names[|names| - 1]) == k
  {
    var n := |names| - 1;
    if Registered(names, k) && SimpleName(names[n]) != k {
      var i :| 0 <= i < |names| && SimpleName(names[i]) == k;
      RegisteredInInit(names, i);
    }
    if Registered(names[..n], k) {
      var i :| 0 <= i < n && SimpleName(names[..n][i]) == k;
      RegisteredFromInit(names, i);
    }
  }

  lemma RegisteredInInit(names: seq<JString>, i: int)
    requires 0 <= i < |names| - 1
    ensures Registered(names[..|names| - 1], SimpleName(names[i]))
  {
    assert names[..|names| - 1][i] == names[i];
  }

  lemma RegisteredFromInit(names: seq<JString>, i: int)
    requires 0 <= i < |names| - 1
    ensures Registered(names, SimpleName(names[..|names| - 1][i]))
  {
    assert names[..|names| - 1][i] == names[i];
  }

  /** The table has a key for every simple name other than `*`, and nothing else. */
  lemma {:induction false} TableDomain(names: seq<JString>)
    ensures forall k :: k in Table(names) <==> k != "*" && Registered(names, k)
  {
    if names != [] {
      var init := names[..|names| - 1];
      var name := SimpleName(names[|names| - 1]);
      TableDomain(init);
      assert forall k :: k in Table(names) <==> k in Table(init) || (name != "*" && k == name);
      forall k
        ensures k in Table(names) <==> k != "*" && Registered(names, k)
      {
        RegisteredStep(names, k);
      }
    }
  }

  /** The latest registration of a simple name is the full name the table keeps. */
  lemma {:induction false} LatestWins(names: seq<JString>, i: int)
    requires 0 <= i < |names| && SimpleName(names[i]) != "*" && Latest(names, i)
    ensures SimpleName(names[i]) in Table(names) && Table(names)[SimpleName(names[i])] == names[i]
  {
    var n := |names| - 1;
    var init := names[..n];
    if i < n {
      assert init[i] == names[i];
      assert Latest(init, i) by {
        forall j | i < j < |init| ensures SimpleName(init[j]) != SimpleName(init[i]) {
          assert init[j] == names[j];
        }
      }
      LatestWins(init, i);
    }
  }

  /** The key order lists every key of the table exactly once. */
  lemma {:induction false} KeysSpec(names: seq<JString>)
    ensures forall k :: k in Keys(names) <==> k in Table(names)
    ensures forall a, b :: 0 <= a < b < |Keys(names)| ==> Keys(names)[a] != Keys(names)[b]
  {
    if names != [] {
      var init, last := names[..|names| - 1], names[|names| - 1];
      var name := SimpleName(last);
      KeysSpec(init);
      if name == "*" || name in Table(init) {
        assert Keys(names) == Keys(init);
        assert Table(names).Keys == Table(init).Keys;
      } else {
        var ks := Keys(init);
        var all := ks + [name];
        assert Keys(names) == all;
        assert Table(names).Keys == Table(init).Keys + {name};
        assert name !in ks;
        forall a, b | 0 <= a < b < |all| ensures all[a] != all[b] {
          if b == |ks| {
            assert all[a] == ks[a];
          } else {
            assert all[a] == ks[a] && all[b] == ks[b];
          }
        }
      }
    }
  }

  /**
   * `resolve(localName)` on a table: the full name when full names are
   * used, the local name itself otherwise; a missing or empty result is an
   * error naming the local name.
   */
  function Lookup(useFullNames: bool, table: map<JString, JString>, localName: JString): (r: Result<JString>)
    ensures r.Ok? <==> (if useFullNames then localName in table && table[localName] != [] else localName != [])
    ensures r.Ok? ==> r.value == (if useFullNames then table[localName] else localName)
    ensures r.Err? ==> r.fault == Error("Unknown import class with local name \"" + localName + "\"")
  {
    var name := if useFullNames then (if localName in table then table[localName] else []) else localName;
    if name == [] then Err(Error("Unknown import class with local name \"" + localName + "\""))
    else Ok(name)
  }

  /** With full names, the simple name of an imported class resolves to its latest full name. */
  lemma ResolvesImported(names: seq<JString>, i: int)
    requires 0 <= i < |names| && SimpleName(names[i]) != "*" && names[i] != [] && Latest(names, i)
    ensures Lookup(true, Table(names), SimpleName(names[i])) == Ok(names[i])
  {
    LatestWins(names, i);
  }

  /** With full names, a simple name that was never imported is an error. */
  lemma UnknownNameFails(names: seq<JString>, localName: JString)
    requires forall i :: 0 <= i < |names| ==> SimpleName(names[i]) != localName
    ensures Lookup(true, Table(names), localName).Err?
  {
    TableDomain(names);
    assert !Registered(names, localName);
  }

  /** Registering one more full name, as the constructor's loop does. */
  lemma RegisterStep(names: seq<JString>, i: int)
    requires 0 <= i < |names|
    ensures var name := SimpleName(names[i]);
      Table(names[..i + 1]) == (if name == "*" then Table(names[..i]) else Table(names[..i])[name := names[i]])
      && Keys(names[..i + 1]) == (if name == "*" || name in Table(names[..i]) then Keys(names[..i]) else Keys(names[..i]) + [name])
  {
    assert names[..i + 1][..i] == names[..i];
  }

  class Imports {
    const useFullNames: bool
    var keys: seq<JString>
    var table: map<JString, JString>

    /** Every key once, and exactly the keys of the table. */
    ghost predicate Valid()
      reads this
    {
      (forall k :: k in keys <==> k in table)
      && forall a, b :: 0 <= a < b < |keys| ==> keys[a] != keys[b]
    }

    /** `new Imports(useFullNames, ...names)`. */
    constructor (useFullNames: bool, names: seq<JString>)
      ensures this.useFullNames == useFullNames
      ensures table == Table(names) && keys == Keys(names)
      ensures Valid()
    {
      var keys: seq<JString>, table: map<JString, JString> := [], map[];
      var i := 0;
      assert names[..0] == [];
      while i < |names|
        invariant 0 <= i <= |names|
        invariant table == Table(names[..i])
        invariant keys == Keys(names[..i])
      {
        RegisterStep(names, i);
        var fullName := names[i];
        var name := SimpleName(fullName);
        if name != "*" {
          if name !in table {
            keys := keys + [name];
          }
          table := table[name := fullName];
        }
        i := i + 1;
      }
      assert names[..i] == names;
      KeysSpec(names);
      this.useFullNames := useFullNames;
      this.keys := keys;
      this.table := table;
    }

    /**
     * `resolve(localName)`: with full names, the full name registered under
     * the local name; otherwise the local name itself. A missing or empty
     * result is an error naming the local name.
     */
    function Resolve(localName: JString): (r: Result<JString>)
      reads this
      ensures useFullNames ==> (r.Ok? <==> localName in table && table[localName] != [])
      ensures !useFullNames ==> (r.Ok? <==> localName != [])
      ensures r.Ok? ==> r.value == (if useFullNames then table[localName] else localName)
      ensures r.Err? ==> r.fault == Error("Unknown import class with local name \"" + localName + "\"")
    {
      Lookup(useFullNames, table, localName)
    }

    /** `declares()`: one `import <full name>;` line per key, in key order. */
    method Declares() returns (r: seq<JString>)
      requires Valid()
      ensures |r| == |keys|
      ensures forall i :: 0 <= i < |keys| ==> keys[i] in table && r[i] == "import " + table[keys[i]] + ";"
    {
      r := [];
      var i := 0;
      while i < |keys|
        invariant 0 <= i <= |keys| && |r| == i
        invariant forall k :: 0 <= k < i ==> keys[k] in table && r[k] == "import " + table[keys[k]] + ";"
      {
        r := r + ["import " + table[keys[i]] + ";"];
        i := i + 1;
      }
    }
  }
}

=== FILE: java_types.dfy ===
/**
 * Java type names for the generated code (utils/Boxed.js, utils/Types.js).
 * Both are parameterised by the generator's resolver `_`, which turns a
 * simple class name into the name to print (see ImportTables) and may fail.
 * Every resolution the sources perform eagerly is performed here in the
 * same order, so the first failing one is the error reported.
 */
module JavaTypes {
  import opened Basics

  /** The resolver `_`. */
  type Resolver = JString -> Result<JString>

  /** The primitive types and their wrapper classes, in table order. */
  const Primitives: seq<(JString, JString)> := [
    ("boolean", "Boolean"), ("char", "Character"), ("void", "Void"),
    ("byte", "Byte"), ("short", "Short"), ("int", "Integer"), ("long", "Long"),
    ("float", "Float"), ("double", "Double")]

  /** Resolves the wrapper of every pair in order; the first failure is the result. */
  function ResolveWrappers(resolve: Resolver, pairs: seq<(JString, JString)>): Result<map<JString, JString>>
  {
    if pairs == [] then Ok(map[])
    else match resolve(pairs[0].1)
      case Err(f) => Err(f)
      case Ok(w) =>
        match ResolveWrappers(resolve, pairs[1..])
        case Err(f) => Err(f)
        case Ok(m) => Ok(m[pairs[0].0 := w])
  }

  /** The wrapper of pair `k` is the first that does not resolve. */
  ghost predicate FirstFailure(resolve: Resolver, pairs: seq<(JString, JString)>, k: int)
    requires 0 <= k < |pairs|
  {
    resolve(pairs[k].1).Err? && forall j :: 0 <= j < k ==> resolve(pairs[j].1).Ok?
  }

  /**
   * Resolving succeeds exactly when every wrapper resolves; it then maps
   * each primitive to its resolved wrapper and has no other key, and it
   * fails otherwise with the fault of the first wrapper that does not resolve.
   */
  lemma {:induction false} ResolveWrappersSpec(resolve: Resolver, pairs: seq<(JString, JString)>)
    requires forall a, b :: 0 <= a < b < |pairs| ==> pairs[a].0 != pairs[b].0
    ensures ResolveWrappers(resolve, pairs).Ok? <==> forall k :: 0 <= k < |pairs| ==> resolve(pairs[k].1).Ok?
    ensures ResolveWrappers(resolve, pairs).Ok? ==>
      (forall key :: key in ResolveWrappers(resolve, pairs).value <==> exists k :: 0 <= k < |pairs| && pairs[k].0 == key)
      && forall k :: 0 <= k < |pairs| ==> ResolveWrappers(resolve, pairs).value[pairs[k].0] == resolve(pairs[k].1).value
    ensures ResolveWrappers(resolve, pairs).Err? ==>
      exists k :: 0 <= k < |pairs| && FirstFailure(resolve, pairs, k)
        && ResolveWrappers(resolve, pairs).fault == resolve(pairs[k].1).fault
  {
    if pairs != [] {
      var rest := pairs[1..];
      ResolveWrappersSpec(resolve, rest);
      assert forall k :: 0 <= k < |rest| ==> rest[k] == pairs[k + 1];
      var r := ResolveWrappers(resolve, pairs);
      if resolve(pairs[0].1).Ok? && ResolveWrappers(resolve, rest).Ok? {
        forall key
          ensures key in r.value <==> exists k :: 0 <= k < |pairs| && pairs[k].0 == key
        {
          if key in r.value && key != pairs[0].0 {
            var k :| 0 <= k < |rest| && rest[k].0 == key;
            assert pairs[k + 1].0 == key;
          }
        }
      } else if resolve(pairs[0].1).Ok? {
        var k :| 0 <= k < |rest| && FirstFailure(resolve, rest, k) && r.fault == resolve(rest[k].1).fault;
        assert resolve(pairs[k + 1].1).Err?;
        assert forall j :: 1 <= j < k + 1 ==> resolve(pairs[j].1).Ok? by {
          forall j | 1 <= j < k + 1 ensures resolve(pairs[j].1).Ok? {
            assert pairs[j] == rest[j - 1];
          }
        }
        assert FirstFailure(resolve, pairs, k + 1);
      } else {
        assert FirstFailure(resolve, pairs, 0);
      }
    }
  }

  /** No primitive is listed twice. */
  lemma PrimitivesDistinct()
    ensures forall a, b :: 0 <= a < b < |Primitives| ==> Primitives[a].0 != Primitives[b].0
  {
  }

  /** Every wrapper name starts with a capital letter. */
  lemma WrappersCapitalised()
    ensures forall a :: 0 <= a < |Primitives| ==> |Primitives[a].1| > 0 && 'A' <= Primitives[a].1[0] <= 'Z'
  {
  }

  /** No wrapper class is itself named like a primitive. */
  lemma WrappersAreNotPrimitives()
    ensures forall a, b :: 0 <= a < |Primitives| && 0 <= b < |Primitives| ==> Primitives[a].1 != Primitives[b].0
  {
    forall a, b | 0 <= a < |Primitives| && 0 <= b < |Primitives|
      ensures Primitives[a].1 != Primitives[b].0
    {
      assert 'A' <= Primitives[a].1[0] <= 'Z' && 'a' <= Primitives[b].0[0] <= 'z';
    }
  }

  /**
   * `makeBoxed(_)`: the primitive table, with every wrapper resolved up
   * front. It exists exactly when all nine wrappers resolve, and then maps
   * each primitive, and nothing else, to its resolved wrapper; otherwise the
   * first wrapper that does not resolve gives the fault.
   */
  function MakeBoxed(resolve: Resolver): (r: Result<map<JString, JString>>)
    ensures r.Ok? <==> forall k :: 0 <= k < |Primitives| ==> resolve(Primitives[k].1).Ok?
    ensures r.Ok? ==>
      (forall key :: key in r.value <==> exists k :: 0 <= k < |Primitives| && Primitives[k].0 == key)
      && forall k :: 0 <= k < |Primitives| ==> r.value[Primitives[k].0] == resolve(Primitives[k].1).value
    ensures r.Err? ==>
      exists k :: 0 <= k < |Primitives| && FirstFailure(resolve, Primitives, k) && r.fault == resolve(Primitives[k].1).fault
  {
    PrimitivesDistinct();
    ResolveWrappersSpec(resolve, Primitives);
    ResolveWrappers(resolve, Primitives)
  }

  /**
   * The function `makeBoxed` returns: the wrapper of a primitive, any other
   * name (or a name whose wrapper is empty) unchanged; a non-empty name
   * never boxes to the empty one.
   */
  function Box(primitives: map<JString, JString>, typeName: JString): (r: JString)
    ensures r == typeName || (typeName in primitives && r == primitives[typeName])
    ensures typeName in primitives && primitives[typeName] != [] ==> r == primitives[typeName]
    ensures typeName !in primitives ==> r == typeName
    ensures typeName != [] ==> r != []
  {
    if typeName in primitives && primitives[typeName] != [] then primitives[typeName] else typeName
  }

  /** The nine primitives box to their resolved wrappers and every other name stays as it is. */
  lemma BoxSpec(resolve: Resolver, typeName: JString)
    requires MakeBoxed(resolve).Ok?
    ensures forall k :: 0 <= k < |Primitives| && resolve(Primitives[k].1).value != [] ==>
      Box(MakeBoxed(resolve).value, Primitives[k].0) == resolve(Primitives[k].1).value
    ensures (forall k :: 0 <= k < |Primitives| ==> Primitives[k].0 != typeName) ==>
      Box(MakeBoxed(resolve).value, typeName) == typeName
  {
  }

  /** Boxing twice is boxing once, unless a wrapper resolves to a primitive's own name. */
  lemma BoxIdempotent(primitives: map<JString, JString>, typeName: JString)
    requires forall p :: p in primitives ==> primitives[p] !in primitives
    ensures Box(primitives, Box(primitives, typeName)) == Box(primitives, typeName)
  {
  }

  /** With a resolver that keeps every wrapper name, each primitive maps to its own wrapper name. */
  lemma IdentityBoxed(resolve: Resolver)
    requires forall k :: 0 <= k < |Primitives| ==> resolve(Primitives[k].1) == Ok(Primitives[k].1)
    ensures MakeBoxed(resolve).Ok?
    ensures forall k :: 0 <= k < |Primitives| ==>
      Primitives[k].0 in MakeBoxed(resolve).value && MakeBoxed(resolve).value[Primitives[k].0] == Primitives[k].1
    ensures forall p :: p in MakeBoxed(resolve).value ==> exists k :: 0 <= k < |Primitives| && Primitives[k].0 == p
  {
    KeptWrappers(resolve, Primitives, MakeBoxed(resolve));
  }

  /** A table whose every wrapper resolved to itself maps each key to its own wrapper name. */
  lemma KeptWrappers(resolve: Resolver, pairs: seq<(JString, JString)>, r: Result<map<JString, JString>>)
    requires forall k :: 0 <= k < |pairs| ==> resolve(pairs[k].1) == Ok(pairs[k].1)
    requires r.Ok? <==> forall k :: 0 <= k < |pairs| ==> resolve(pairs[k].1).Ok?
    requires r.Ok? ==>
      (forall key :: key in r.value <==> exists k :: 0 <= k < |pairs| && pairs[k].0 == key)
      && forall k :: 0 <= k < |pairs| ==> r.value[pairs[k].0] == resolve(pairs[k].1).value
    ensures r.Ok?
    ensures forall k :: 0 <= k < |pairs| ==> pairs[k].0 in r.value && r.value[pairs[k].0] == pairs[k].1
    ensures forall p :: p in r.value ==> exists k :: 0 <= k < |pairs| && pairs[k].0 == p
  {
  }

  /** With a resolver that keeps every wrapper name, `char` boxes to `Character` and `int` to `Integer`. */
  lemma IdentityBoxingExamples(resolve: Resolver)
    requires forall k :: 0 <= k < |Primitives| ==> resolve(Primitives[k].1) == Ok(Primitives[k].1)
    ensures MakeBoxed(resolve).Ok?
    ensures Box(MakeBoxed(resolve).value, "char") == "Character"
    ensures Box(MakeBoxed(resolve).value, "int") == "Integer"
  {
    IdentityBoxedAt(resolve, 1);
    IdentityBoxedAt(resolve, 5);
  }

  lemma IdentityBoxedAt(resolve: Resolver, k: nat)
    requires forall k :: 0 <= k < |Primitives| ==> resolve(Primitives[k].1) == Ok(Primitives[k].1)
    requires k < |Primitives|
    ensures MakeBoxed(resolve).Ok?
    ensures Box(MakeBoxed(resolve).value, Primitives[k].0) == Primitives[k].1
  {
    IdentityBoxed(resolve);
    WrappersCapitalised();
    var m, p := MakeBoxed(resolve).value, Primitives[k];
    assert p.0 in m && m[p.0] == p.1 && p.1 != [];
  }

  /** With a resolver that keeps every wrapper name, boxing twice is boxing once. */
  lemma IdentityBoxingIdempotent(resolve: Resolver, typeName: JString)
    requires forall k :: 0 <= k < |Primitives| ==> resolve(Primitives[k].1) == Ok(Primitives[k].1)
    ensures MakeBoxed(resolve).Ok?
    ensures Box(MakeBoxed(resolve).value, Box(MakeBoxed(resolve).value, typeName))
      == Box(MakeBoxed(resolve).value, typeName)
  {
    IdentityBoxed(resolve);
    var m := MakeBoxed(resolve).value;
    WrappersAreNotPrimitives();
    forall p | p in m
      ensures m[p] !in m
    {
      var k :| 0 <= k < |Primitives| && Primitives[k].0 == p;
      assert m[p] == Primitives[k].1;
      assert forall j :: 0 <= j < |Primitives| ==> Primitives[j].0 != m[p];
    }
    BoxIdempotent(m, typeName);
  }

  /** The record `makeTypes(_)` returns, with the resolver kept for the methods that call it. */
  datatype Types = Types(
    resolve: Resolver,
    boxed: map<JString, JString>,
    none: JString,
    unit: JString,
    range: JString,
    def: JString)

  /** The scalar fields of `makeTypes(_)`, resolved after the wrappers: `none`, `range`, then `def`. */
  function TypesOver(resolve: Resolver, boxed: map<JString, JString>): (r: Result<Types>)
    ensures r.Ok? <==> resolve("Object").Ok? && resolve("CharSequence").Ok?
    ensures r.Ok? ==> r.value == Types(resolve, boxed, resolve("Object").value, "char",
      resolve("CharSequence").value, resolve("Object").value)
    ensures r.Err? ==> r.fault == (if resolve("Object").Err? then resolve("Object").fault else resolve("CharSequence").fault)
  {
    match resolve("Object")
    case Err(f) => Err(f)
    case Ok(none) =>
      match resolve("CharSequence")
      case Err(f) => Err(f)
      case Ok(range) =>
        match resolve("Object")
        case Err(f) => Err(f)
        case Ok(def) => Ok(Types(resolve, boxed, none, "char", range, def))
  }

  /** `makeTypes(_)`: the wrappers first, then the scalar fields; the first failure is thrown. */
  function MakeTypes(resolve: Resolver): (r: Result<Types>)
    ensures MakeBoxed(resolve).Err? ==> r == Err(MakeBoxed(resolve).fault)
    ensures MakeBoxed(resolve).Ok? ==> r == TypesOver(resolve, MakeBoxed(resolve).value)
  {
    match MakeBoxed(resolve)
    case Err(f) => Err(f)
    case Ok(boxed) => TypesOver(resolve, boxed)
  }

  /** The types exist exactly when all nine wrappers, `Object` and `CharSequence` resolve. */
  lemma MakeTypesSpec(resolve: Resolver)
    ensures MakeTypes(resolve).Ok? <==>
      (forall k :: 0 <= k < |Primitives| ==> resolve(Primitives[k].1).Ok?)
      && resolve("Object").Ok? && resolve("CharSequence").Ok?
  {
  }

  /** `types.reduce((t1, t2) => t1 === t2 ? t1 : _('Object'))` from the accumulator `acc` on. */
  function Reduce(resolve: Resolver, acc: JString, rest: seq<JString>): Result<JString>
    decreases |rest|
  {
    if rest == [] then Ok(acc)
    else if acc == rest[0] then Reduce(resolve, acc, rest[1..])
    else match resolve("Object")
      case Err(f) => Err(f)
      case Ok(o) => Reduce(resolve, o, rest[1..])
  }

  /** Folding keeps the accumulator when every type equals it, and is `Object` otherwise. */
  lemma {:induction false} ReduceSpec(resolve: Resolver, acc: JString, rest: seq<JString>)
    ensures Reduce(resolve, acc, rest) ==
      if forall k :: 0 <= k < |rest| ==> rest[k] == acc then Ok(acc) else resolve("Object")
    decreases |rest|
  {
    if rest != [] {
      if acc == rest[0] {
        ReduceSpec(resolve, acc, rest[1..]);
        assert forall k :: 1 <= k < |rest| ==> rest[k] == rest[1..][k - 1];
      } else if resolve("Object").Ok? {
        ReduceSpec(resolve, resolve("Object").value, rest[1..]);
      }
    }
  }

  /**
   * `enum(types)`: the common type of a list. Reducing an empty list throws
   * a `TypeError`; one type throughout gives that type; two different ones
   * give `Object` (or the fault of resolving it).
   */
  function Enum(t: Types, types: seq<JString>): (r: Result<JString>)
    ensures types == [] ==> r == Err(TypeError)
    ensures types != [] && (forall k :: 0 <= k < |types| ==> types[k] == types[0]) ==> r == Ok(types[0])
    ensures (exists k :: 0 <= k < |types| && types[k] != types[0]) ==> r == t.resolve("Object")
  {
    if types == [] then Err(TypeError)
    else
      ReduceSpec(t.resolve, types[0], types[1..]);
      assert forall k :: 1 <= k < |types| ==> types[k] == types[1..][k - 1];
      Reduce(t.resolve, types[0], types[1..])
  }

  /**
   * `list(type)`: the resolved `List` class over the boxed element type, or
   * the fault of resolving `List`.
   */
  function List(t: Types, typeName: JString): (r: Result<JString>)
    ensures r.Ok? <==> t.resolve("List").Ok?
    ensures r.Err? ==> r.fault == t.resolve("List").fault
    ensures r.Ok? ==> var list := t.resolve("List").value;
      |r.value| == |list| + |Box(t.boxed, typeName)| + 2
      && r.value[..|list| + 1] == list + "<" && r.value[|r.value| - 1] == '>'
      && r.value[|list| + 1..|r.value| - 1] == Box(t.boxed, typeName)
  {
    match t.resolve("List")
    case Err(f) => Err(f)
    case Ok(list) =>
      var r := list + "<" + Box(t.boxed, typeName) + ">";
      assert r[..|list| + 1] == list + "<";
      assert r[|list| + 1..|r| - 1] == Box(t.boxed, typeName);
      Ok(r)
  }

  /**
   * `tuple(types)`: a list of the common type. An empty tuple is a
   * `TypeError`, a tuple of one repeated type is a list of that type, and
   * one of mixed types a list of `Object`.
   */
  function Tuple(t: Types, types: seq<JString>): (r: Result<JString>)
    ensures types == [] ==> r == Err(TypeError)
    ensures types != [] && (forall k :: 0 <= k < |types| ==> types[k] == types[0]) ==> r == List(t, types[0])
    ensures (exists k :: 0 <= k < |types| && types[k] != types[0]) ==>
      r == (match t.resolve("Object") case Err(f) => Err(f) case Ok(o) => List(t, o))
  {
    match Enum(t, types)
    case Err(f) => Err(f)
    case Ok(e) => List(t, e)
  }

  /** A list of a primitive holds its wrapper: `list('int')` is `List<Integer>` with both names resolved. */
  lemma ListOfInt(t: Types)
    requires t.resolve("List").Ok? && "int" in t.boxed && t.boxed["int"] != []
    ensures List(t, "int") == Ok(t.resolve("List").value + "<" + t.boxed["int"] + ">")
  {
  }

  /**
   * `option(type)`: a nullable value, so the boxed type: a primitive becomes
   * its wrapper and a class name stays as it is.
   */
  function OptionOf(t: Types, typeName: JString): (r: JString)
    ensures typeName in t.boxed && t.boxed[typeName] != [] ==> r == t.boxed[typeName]
    ensures typeName !in t.boxed ==> r == typeName
  {
    Box(t.boxed, typeName)
  }

  /**
   * `self(node)`: the phantom type of a rule, its name after a `?`, which
   * no Java identifier starts with.
   */
  function SelfType(ruleName: JString): (r: JString)
    ensures |r| == |ruleName| + 1 && r[0] == '?' && r[1..] == ruleName
  {
    "?" + ruleName
  }

  /** Different rules get different phantom types. */
  lemma SelfTypeInjective(a: JString, b: JString)
    ensures SelfType(a) == SelfType(b) ==> a == b
  {
  }
}

=== FILE: location.dfy ===
/**
 * A span of the input bounded by two positions (Location.java). The span
 * keeps references to the two Position objects it was built from; it does
 * not check that the start comes before the end.
 */
module Locations {
  import opened Basics
  import opened Positions
  import ByteViews

  datatype Location = Location(start: Position, end: Position)

  /** The constructor: both ends must be present. */
  function NewLocation(start: Position?, end: Position?): (r: Result<Location>)
    ensures r.Ok? <==> start != null && end != null
    ensures r.Ok? ==> r.value.start == start && r.value.end == end
    ensures r.Err? ==> r.fault == IllegalArgument
  {
    if start == null || end == null then Err(IllegalArgument) else Ok(Location(start, end))
  }

  /** `String.subSequence(begin, end)`: the code units in `[begin, end)`, or a bounds failure. */
  function SubSequence(input: JString, begin: int, end: int): (r: Result<JString>)
    ensures r.Ok? <==> 0 <= begin <= end <= |input|
    ensures r.Ok? ==> |r.value| == end - begin
    ensures r.Ok? ==> forall i :: 0 <= i < end - begin ==> r.value[i] == input[begin + i]
    ensures r.Err? ==> r.fault == IndexOutOfBounds
  {
    if 0 <= begin <= end <= |input| then Ok(input[begin..end]) else Err(IndexOutOfBounds)
  }

  /**
   * The two kinds of `CharSequence` a parser reads: a Java string, or a byte
   * array seen through ByteArrayAsCharSequence.
   */
  datatype CharSequence = Str(s: JString) | Bytes(view: ByteViews.ByteView)

  /** What the sequence presents through `length()` and `charAt(i)`; a view its constructor would refuse presents nothing. */
  function CharsOf(cs: CharSequence): JString
  {
    match cs
    case Str(s) => s
    case Bytes(v) => if ByteViews.Valid(v) then ByteViews.Chars(v) else []
  }

  /** A sequence over all of its backing store: any string, or a view of a whole byte array. */
  predicate Whole(cs: CharSequence)
  {
    cs.Bytes? ==> cs.view == ByteViews.Whole(cs.view.content)
  }

  /**
   * `cs.subSequence(begin, end)`, by its characters: `String.subSequence` for
   * a string, and for bytes a new view whose bounds are checked against the
   * backing array, a reversed range being refused as a negative length first.
   */
  function SubSequenceOf(cs: CharSequence, begin: int, end: int): (r: Result<JString>)
    ensures cs.Str? ==> (r.Ok? <==> 0 <= begin <= end <= |cs.s|)
    ensures cs.Bytes? ==>
      (r.Ok? <==> begin <= end && 0 <= cs.view.offset + begin && cs.view.offset + end <= |cs.view.content|)
    ensures Whole(cs) ==> (r.Ok? <==> 0 <= begin <= end <= |CharsOf(cs)|)
    ensures r.Ok? ==> |r.value| == end - begin
    ensures (cs.Str? || ByteViews.Valid(cs.view)) && 0 <= begin <= end <= |CharsOf(cs)| ==>
      r == Ok(CharsOf(cs)[begin..end])
    ensures r.Err? ==> r.fault == if cs.Bytes? && end < begin then IllegalArgument else IndexOutOfBounds
  {
    match cs
    case Str(s) => SubSequence(s, begin, end)
    case Bytes(v) =>
      match ByteViews.SubSequence(v, begin, end)
      case Err(f) => Err(f)
      case Ok(w) =>
        assert ByteViews.Valid(v) && 0 <= begin <= end <= v.length ==>
          ByteViews.Chars(w) == ByteViews.Chars(v)[begin..end] by {
          if ByteViews.Valid(v) && 0 <= begin <= end <= v.length {
            ByteViews.SubSequenceInRange(v, begin, end);
          }
        }
        Ok(ByteViews.Chars(w))
  }

  /**
   * A reversed range fails differently on the two kinds of input: a string
   * throws IndexOutOfBounds, a byte view IllegalArgument.
   */
  lemma ReversedRange()
    ensures SubSequenceOf(Str("ab"), 2, 1) == Err(IndexOutOfBounds)
    ensures SubSequenceOf(Bytes(ByteViews.Whole([97, 98])), 2, 1) == Err(IllegalArgument)
  {
  }

  /** `region(input)`: the characters between the offsets of the two ends; no order between them is assumed. */
  function Region(loc: Location, input: CharSequence): (r: Result<JString>)
    reads loc.start, loc.end
    ensures Whole(input) ==> (r.Ok? <==> 0 <= loc.start.offset <= loc.end.offset <= |CharsOf(input)|)
    ensures Whole(input) && r.Ok? ==> r.value == CharsOf(input)[loc.start.offset..loc.end.offset]
    ensures r.Err? ==>
      r.fault == if input.Bytes? && loc.end.offset < loc.start.offset then IllegalArgument else IndexOutOfBounds
  {
    SubSequenceOf(input, loc.start.offset, loc.end.offset)
  }

  /** `clone()` builds a new span over the very same two Position objects. */
  function Clone(loc: Location): (r: Location)
    ensures r.start == loc.start && r.end == loc.end
  {
    var c := NewLocation(loc.start, loc.end);
    c.value
  }

  /** A span whose ends coincide bounds the empty text, wherever it lies in the input. */
  lemma EmptySpan(p: Position, input: CharSequence)
    requires Whole(input) && 0 <= p.offset <= |CharsOf(input)|
    ensures Region(Location(p, p), input) == Ok([])
  {
  }
}

=== FILE: position.dfy ===
/**
 * The parser's cursor (Position.java): an offset into the input together
 * with the line and column it corresponds to, advanced one character at a
 * time. CR, LF, CR LF, U+2028 and U+2029 end a line; a LF right after a
 * CR (or after U+2028 / U+2029) belongs to the same line break.
 */
module Positions {
  import opened Basics

  /** A snapshot of the four fields of a Position. */
  datatype Cursor = Cursor(offset: int, line: int, column: int, seenCR: bool)

  /** The field initialisers of a fresh Position. */
  const Start := Cursor(0, 1, 1, false)

  predicate WellFormed(c: Cursor) { c.offset >= 0 && c.line >= 1 && c.column >= 1 }

  /** The characters after which a LF does not start another line. */
  predicate SetsCR(ch: CodeUnit) { ch == '\r' || ch == '\U{2028}' || ch == '\U{2029}' }

  /** Every character that ends a line. */
  predicate IsLineTerminator(ch: CodeUnit) { ch == '\n' || SetsCR(ch) }

  /** What `next(char)` does to the fields. */
  function Step(c: Cursor, ch: CodeUnit): Cursor
  {
    if ch == '\n' then
      Cursor(c.offset + 1, if c.seenCR then c.line else c.line + 1, 1, false)
    else if SetsCR(ch) then
      Cursor(c.offset + 1, c.line + 1, 1, true)
    else
      Cursor(c.offset + 1, c.line, c.column + 1, false)
  }

  /** `Step` over every character of `s`, first to last. */
  function Feed(c: Cursor, s: seq<CodeUnit>): Cursor
  {
    if s == [] then c else Step(Feed(c, s[..|s| - 1]), s[|s| - 1])
  }

  // ---------------------------------------------------------------------
  // Laws of the cursor
  // ---------------------------------------------------------------------

  /** Consuming `s` moves the offset by exactly `|s|`. */
  lemma {:induction false} FeedOffset(c: Cursor, s: seq<CodeUnit>)
    ensures Feed(c, s).offset == c.offset + |s|
  {
    if s != [] { FeedOffset(c, s[..|s| - 1]); }
  }

  /** Line and column stay at least 1, and the line number never goes down. */
  lemma {:induction false} FeedKeepsWellFormed(c: Cursor, s: seq<CodeUnit>)
    requires WellFormed(c)
    ensures WellFormed(Feed(c, s))
    ensures Feed(c, s).line >= c.line
  {
    if s != [] { FeedKeepsWellFormed(c, s[..|s| - 1]); }
  }

  /** Advancing over `a + b` is advancing over `a`, then over `b`. */
  lemma {:induction false} FeedAppend(c: Cursor, a: seq<CodeUnit>, b: seq<CodeUnit>)
    ensures Feed(c, a + b) == Feed(Feed(c, a), b)
  {
    if b == [] {
      assert a + b == a;
    } else {
      assert (a + b)[..|a + b| - 1] == a + b[..|b| - 1];
      FeedAppend(c, a, b[..|b| - 1]);
    }
  }

  /** Whether the character at `i` starts a new line when read from a fresh position. */
  predicate BreaksAt(s: seq<CodeUnit>, i: int)
    requires 0 <= i < |s|
  {
    SetsCR(s[i]) || (s[i] == '\n' && (i == 0 || !SetsCR(s[i - 1])))
  }

  /** The number of line breaks in `s`, a CR LF pair (or U+2028 LF, U+2029 LF) counting once. */
  function LineBreaks(s: seq<CodeUnit>): nat
  {
    if s == [] then 0
    else LineBreaks(s[..|s| - 1]) + (if BreaksAt(s, |s| - 1) then 1 else 0)
  }

  /** The index of the last line terminator in `s`, or -1. */
  function LastTerminator(s: seq<CodeUnit>): (k: int)
    ensures -1 <= k < |s|
    ensures k >= 0 ==> IsLineTerminator(s[k])
    ensures forall j :: k < j < |s| ==> !IsLineTerminator(s[j])
  {
    if s == [] then -1
    else if IsLineTerminator(s[|s| - 1]) then |s| - 1
    else LastTerminator(s[..|s| - 1])
  }

  /**
   * Line and column are functions of the text consumed since creation: the
   * line is one more than the number of line breaks, the column one more than
   * the number of characters after the last line terminator.
   */
  lemma {:induction false} FeedFromStart(s: seq<CodeUnit>)
    ensures Feed(Start, s) ==
      Cursor(|s|, 1 + LineBreaks(s), |s| - LastTerminator(s), |s| > 0 && SetsCR(s[|s| - 1]))
  {
    if s != [] {
      var init := s[..|s| - 1];
      FeedFromStart(init);
      if |init| > 0 {
        assert init[|init| - 1] == s[|s| - 2];
      }
    }
  }

  /** "\r\n" is one line break; "\n\r" and "\r\r" are two. */
  lemma CrLfLaw(c: Cursor)
    requires !c.seenCR
    ensures Feed(c, "\r\n").line == c.line + 1
    ensures Feed(c, "\n\r").line == c.line + 2
    ensures Feed(c, "\r\r").line == c.line + 2
  {
    FeedPair(c, '\r', '\n');
    FeedPair(c, '\n', '\r');
    FeedPair(c, '\r', '\r');
  }

  lemma FeedPair(c: Cursor, x: CodeUnit, y: CodeUnit)
    ensures Feed(c, [x, y]) == Step(Step(c, x), y)
  {
    var one, two := [x], [x, y];
    assert two[..|two| - 1] == one;
    assert one[..|one| - 1] == [];
    assert Feed(c, one) == Step(Feed(c, []), x);
  }

  /** Consuming "a\r\nb" ends at line 2, column 2; "a\r\rb" at line 3, column 2. */
  lemma CrLfExamples()
    ensures Feed(Start, "a\r\nb").line == 2 && Feed(Start, "a\r\nb").column == 2
    ensures Feed(Start, "a\r\rb").line == 3 && Feed(Start, "a\r\rb").column == 2
  {
    FeedFromStart("a\r\nb");
    FeedFromStart("a\r\rb");
    assert "a\r\nb"[..3] == "a\r\n" && "a\r\n"[..2] == "a\r" && "a\r"[..1] == "a";
    assert "a\r\rb"[..3] == "a\r\r" && "a\r\r"[..2] == "a\r";
    assert "a"[..0] == [];
  }

  // ---------------------------------------------------------------------
  // The mutable Position object
  // ---------------------------------------------------------------------

  class Position {
    var offset: int
    var line: int
    var column: int
    var seenCR: bool

    function Value(): Cursor
      reads this
    {
      Cursor(offset, line, column, seenCR)
    }

    /** A fresh Position: offset 0, line 1, column 1, no pending CR. */
    constructor ()
      ensures Value() == Start
    {
      offset, line, column, seenCR := 0, 1, 1, false;
    }

    /** Consumes one character. */
    method Next(ch: CodeUnit)
      modifies this
      ensures Value() == Step(old(Value()), ch)
    {
      offset := offset + 1;
      if ch == '\n' {
        if !seenCR {
          line := line + 1;
        }
        column := 1;
        seenCR := false;
      } else if ch == '\r' || ch == '\U{2028}' || ch == '\U{2029}' {
        line := line + 1;
        column := 1;
        seenCR := true;
      } else {
        column := column + 1;
        seenCR := false;
      }
    }

    /**
     * Consumes `input[offset..to)` character by character; when `to` is not
     * beyond the offset nothing happens. Reading a character demands a valid
     * index, hence the bounds whenever there is something to read.
     */
    method NextTo(input: seq<CodeUnit>, to: int)
      requires offset < to ==> 0 <= offset && to <= |input|
      modifies this
      ensures to <= old(offset) ==> Value() == old(Value())
      ensures old(offset) < to ==> Value() == Feed(old(Value()), input[old(offset)..to])
      ensures old(offset) < to ==> offset == to
    {
      if offset < to {
        var i := offset;
        ghost var from := offset;
        while i < to
          invariant from <= i <= to
          invariant Value() == Feed(old(Value()), input[from..i])
        {
          assert input[from..i + 1][..i - from] == input[from..i];
          Next(input[i]);
          i := i + 1;
        }
        FeedOffset(old(Value()), input[from..to]);
      }
    }

    /** Positions compare by offset alone; every position is greater than null. */
    function CompareTo(o: Position?): (r: int)
      reads this, o
      ensures o == null ==> r > 0
      ensures o != null ==> (r < 0 <==> offset < o.offset) && (r == 0 <==> offset == o.offset)
      ensures -1 <= r <= 1
    {
      if o == null then 1
      else if offset < o.offset then -1
      else if offset == o.offset then 0
      else 1
    }

    /** A field-by-field copy that shares nothing with this object. */
    method Clone() returns (p: Position)
      ensures fresh(p) && p.Value() == Value()
    {
      p := new Position();
      p.offset, p.line, p.column, p.seenCR := offset, line, column, seenCR;
    }
  }

  /** Advancing a clone leaves the original where it was. */
  method CloneIsIndependent(p: Position, ch: CodeUnit) returns (q: Position)
    ensures fresh(q) && q.Value() == Step(p.Value(), ch)
    ensures p.Value() == old(p.Value())
  {
    q := p.Clone();
    q.Next(ch);
  }
}

=== FILE: rule_builder.dfy ===
/**
 * The per-rule generation context (utils/RuleBuilder.js): a stack of result
 * variables `r<i>`, a stack of saved positions `l<i>`, and one line emitter,
 * all three shared by every child context; a context adds its own first
 * result slot `sp`, its label environment and the enclosing action.
 */
module RuleBuilders {
  import opened Basics
  import opened VarStacks
  import opened CodeBuilders

  /** A context record; `A` stands for the action node handed down to children. */
  datatype Context<A> = Context(
    sp: int,
    env: map<JString, int>,
    action: Option<A>,
    resultStack: VarStack,
    locationStack: VarStack,
    builder: CodeBuilder)

  /** `child(sp, env, action)`: a new record over the very same stacks and emitter. */
  function Child<A>(ctx: Context<A>, sp: int, env: map<JString, int>, action: Option<A>): (c: Context<A>)
    ensures c.sp == sp && c.env == env && c.action == action
    ensures c.resultStack == ctx.resultStack && c.locationStack == ctx.locationStack && c.builder == ctx.builder
  {
    ctx.(sp := sp, env := env, action := action)
  }

  /** Every descendant of a context shares its stacks and emitter, however deep. */
  lemma {:induction false} DescendantsShare<A>(ctx: Context<A>, path: seq<(int, map<JString, int>, Option<A>)>)
    ensures Descend(ctx, path).resultStack == ctx.resultStack
    ensures Descend(ctx, path).locationStack == ctx.locationStack
    ensures Descend(ctx, path).builder == ctx.builder
  {
    if path != [] {
      DescendantsShare(ctx, path[..|path| - 1]);
    }
  }

  /** The context reached by a chain of `child` calls. */
  function Descend<A>(ctx: Context<A>, path: seq<(int, map<JString, int>, Option<A>)>): Context<A>
  {
    if path == [] then ctx
    else
      var last := path[|path| - 1];
      Child(Descend(ctx, path[..|path| - 1]), last.0, last.1, last.2)
  }

  /**
   * `makeRuleBuilder(resultType, locationType, code, indentSequence)`: the
   * root context, with no first slot (-1), no labels and no action.
   */
  method MakeRuleBuilder<A>(resultType: JString, locationType: JString, code: Option<seq<JString>>,
                            indentSequence: Option<JString>) returns (ctx: Context<A>)
    ensures ctx.sp == -1 && ctx.env == map[] && ctx.action == None
    ensures fresh(ctx.resultStack) && fresh(ctx.locationStack) && fresh(ctx.builder)
    ensures ctx.resultStack != ctx.locationStack
    ensures ctx.resultStack.varName == "r" && ctx.resultStack.typeName == resultType
    ensures ctx.locationStack.varName == "l" && ctx.locationStack.typeName == locationType
    ensures ctx.resultStack.Value() == Empty && ctx.locationStack.Value() == Empty
    ensures ctx.builder.Valid() && ctx.builder.indents == []
    ensures ctx.builder.code == (if code.Some? then code.value else [])
  {
    var results := new VarStack(resultType, "r");
    var locations := new VarStack(locationType, "l");
    var builder := new CodeBuilder(code, indentSequence);
    ctx := Context(-1, map[], None, results, locations, builder);
  }

  /** `locPush()`: saves a copy of the cursor in a new position variable. */
  method LocPush<A>(ctx: Context<A>) returns (r: Result<JString>)
    modifies ctx.locationStack
    ensures ctx.locationStack.Value() == Apply(old(ctx.locationStack.Value()), PushOp)
    ensures r.Ok? <==> ctx.locationStack.sp >= 0
    ensures r.Ok? ==> (r.value ==
      ctx.locationStack.varName + NatToString(ctx.locationStack.sp) + " = super.current.clone();")
  {
    r := ctx.locationStack.Push("super.current.clone()");
    if r.Ok? {
      ConcatAssoc(ctx.locationStack.varName + NatToString(ctx.locationStack.sp) + " = ",
        "super.current.clone()", ";");
    }
  }

  /** `locPop()`: moves the cursor back to the position saved on top, releasing it. */
  method LocPop<A>(ctx: Context<A>) returns (r: Result<JString>)
    modifies ctx.locationStack
    ensures ctx.locationStack.Value() == Apply(old(ctx.locationStack.Value()), PopOp)
    ensures r.Ok? <==> old(ctx.locationStack.sp) >= 0
    ensures r.Ok? ==> (r.value ==
      "super.current = " + ctx.locationStack.varName + NatToString(old(ctx.locationStack.sp)) + ";")
  {
    var name := ctx.locationStack.Pop();
    if name.Err? {
      return Err(name.fault);
    }
    r := Ok("super.current = " + name.value + ";");
  }

  /** `locMark()`: makes the position saved on top the mark, releasing it. */
  method LocMark<A>(ctx: Context<A>) returns (r: Result<JString>)
    modifies ctx.locationStack
    ensures ctx.locationStack.Value() == Apply(old(ctx.locationStack.Value()), PopOp)
    ensures r.Ok? <==> old(ctx.locationStack.sp) >= 0
    ensures r.Ok? ==> (r.value ==
      "super.mark = " + ctx.locationStack.varName + NatToString(old(ctx.locationStack.sp)) + ";")
  {
    var name := ctx.locationStack.Pop();
    if name.Err? {
      return Err(name.fault);
    }
    r := Ok("super.mark = " + name.value + ";");
  }

  /**
   * A save followed by a restore (or a mark) uses the same position
   * variable and leaves the location stack pointer where it was.
   */
  lemma SaveRestorePairs(c: Counters)
    requires Sane(c)
    ensures Apply(Apply(c, PushOp), PopOp).sp == c.sp
    ensures Apply(Apply(c, PushOp), PopOp).maxSp == (if c.sp + 1 > c.maxSp then c.sp + 1 else c.maxSp)
    ensures Sane(Apply(Apply(c, PushOp), PopOp))
  {
  }

  /**
   * `local(label)`: the result variable a label is bound to. A label missing
   * from the environment reads `undefined`, which the name concatenation
   * turns into the text "undefined".
   */
  function Local<A>(ctx: Context<A>, lbl: JString): (r: Result<JString>)
    ensures lbl in ctx.env ==> r == Slot(ctx.resultStack.varName, ctx.env[lbl])
    ensures lbl !in ctx.env ==> r == Ok(ctx.resultStack.varName + "undefined")
  {
    if lbl in ctx.env then Slot(ctx.resultStack.varName, ctx.env[lbl])
    else Ok(ctx.resultStack.varName + "undefined")
  }

  /** `result()`: the first result variable. */
  function ResultName<A>(ctx: Context<A>): (r: Result<JString>)
    reads ctx.resultStack
    ensures r == Ok(ctx.resultStack.varName + "0")
  {
    ctx.resultStack.ResultName()
  }
}

=== FILE: rule_names.dfy ===
/**
 * `toUpperSnakeCase` in passes/generate-java.js, which turns a grammar rule
 * name into the name of its Java constant: each run of capitals, together
 * with a dot right before it, is replaced by `_` and the run in lower case;
 * then one leading `_` is removed and everything is put in upper case.
 */
module RuleNames {
  import opened Basics

  predicate IsAscii(s: JString) { forall i :: 0 <= i < |s| ==> s[i] as int < 0x80 }

  predicate IsUpper(c: CodeUnit) { 'A' <= c <= 'Z' }
  predicate IsLower(c: CodeUnit) { 'a' <= c <= 'z' }

  function LowerChar(c: CodeUnit): CodeUnit
  {
    if IsUpper(c) then (c as int - 'A' as int + 'a' as int) as char else c
  }

  function UpperChar(c: CodeUnit): CodeUnit
  {
    if IsLower(c) then (c as int - 'a' as int + 'A' as int) as char else c
  }

  /** `toLowerCase()` on ASCII text. */
  function Lower(s: JString): JString
  {
    seq(|s|, i requires 0 <= i < |s| => LowerChar(s[i]))
  }

  /** `toUpperCase()` on ASCII text. */
  function Upper(s: JString): JString
  {
    seq(|s|, i requires 0 <= i < |s| => UpperChar(s[i]))
  }

  predicate NoUnderscore(s: JString) { forall i :: 0 <= i < |s| ==> s[i] != '_' }

  /** The length of the run of capitals `[A-Z]+` matches greedily at the front. */
  function CapitalRun(s: JString): (n: nat)
    ensures n <= |s|
    ensures forall i :: 0 <= i < n ==> IsUpper(s[i])
    ensures n < |s| ==> !IsUpper(s[n])
  {
    if s == [] || !IsUpper(s[0]) then 0 else 1 + CapitalRun(s[1..])
  }

  /**
   * The length of the match of `\.?[A-Z]+` at the front of `s`, or 0 when
   * none starts there: a capital, or a dot followed by a capital, and then
   * the whole run of capitals. A match never holds an underscore.
   */
  function MatchLength(s: JString): (n: nat)
    ensures n <= |s|
    ensures n > 0 <==> s != [] && (IsUpper(s[0]) || (s[0] == '.' && |s| >= 2 && IsUpper(s[1])))
    ensures n > 0 ==> NoUnderscore(s[..n])
  {
    if s == [] then 0
    else if IsUpper(s[0]) then CapitalRun(s)
    else if s[0] == '.' && |s| >= 2 && IsUpper(s[1]) then
      var r := s[1..];
      var n := 1 + CapitalRun(r);
      assert NoUnderscore(s[..n]) by {
        forall i | 0 <= i < n ensures s[..n][i] != '_' {
          if i > 0 {
            assert s[..n][i] == r[i - 1] && IsUpper(r[i - 1]);
          }
        }
      }
      n
    else 0
  }

  /**
   * `s.replace(/\.?([A-Z]+)/g, x => '_' + x.toLowerCase())`: scanning left
   * to right, each match is replaced by `_` and the match in lower case.
   */
  function MarkRuns(s: JString): JString
    decreases |s|
  {
    if s == [] then []
    else
      var n := MatchLength(s);
      if n > 0 then "_" + Lower(s[..n]) + MarkRuns(s[n..])
      else [s[0]] + MarkRuns(s[1..])
  }

  /** `replace(/^_/, '')`. */
  function DropLeadingUnderscore(s: JString): JString
  {
    if s != [] && s[0] == '_' then s[1..] else s
  }

  /**
   * `toUpperSnakeCase(s)`, for names made of ASCII characters: the constant
   * name has no lower-case letter.
   */
  function ToUpperSnakeCase(s: JString): (r: JString)
    requires IsAscii(s)
    ensures forall i :: 0 <= i < |r| ==> !IsLower(r[i])
  {
    Upper(DropLeadingUnderscore(MarkRuns(s)))
  }

  /** The text without its underscores. */
  function Strip(s: JString): JString
  {
    if s == [] then [] else (if s[0] == '_' then [] else [s[0]]) + Strip(s[1..])
  }

  lemma {:induction false} StripAppend(a: JString, b: JString)
    ensures Strip(a + b) == Strip(a) + Strip(b)
  {
    if a == [] {
      assert a + b == b;
    } else {
      var x := if a[0] == '_' then [] else [a[0]];
      assert (a + b)[0] == a[0];
      assert (a + b)[1..] == a[1..] + b;
      assert Strip(a + b) == x + Strip(a[1..] + b);
      StripAppend(a[1..], b);
      ConcatAssoc(x, Strip(a[1..]), Strip(b));
    }
  }

  lemma {:induction false} StripNoUnderscore(s: JString)
    requires NoUnderscore(s)
    ensures Strip(s) == s
  {
    if s != [] {
      StripNoUnderscore(s[1..]);
    }
  }

  lemma {:induction false} StripUpper(s: JString)
    ensures Strip(Upper(s)) == Upper(Strip(s))
  {
    if s != [] {
      assert Upper(s)[1..] == Upper(s[1..]);
      StripUpper(s[1..]);
    }
  }

  /** Lower-casing a run and upper-casing it again gives the run upper-cased. */
  lemma UpperLower(s: JString)
    ensures Upper(Lower(s)) == Upper(s)
  {
  }

  lemma UpperAppend(a: JString, b: JString)
    ensures Upper(a + b) == Upper(a) + Upper(b)
  {
  }

  /** One replaced run: the inserted `_` disappears and the run's letters come back upper-cased. */
  lemma MarkedRunStrip(head: JString)
    requires NoUnderscore(head)
    ensures Upper(Strip("_" + Lower(head))) == Upper(Strip(head))
  {
    var l := Lower(head);
    assert NoUnderscore(l);
    StripNoUnderscore(l);
    StripNoUnderscore(head);
    StripAppend("_", l);
    assert Strip("_") == [];
    assert Strip("_" + l) == l;
    UpperLower(head);
  }

  /** Pieces that agree without underscores and case still agree once joined. */
  lemma StripUpperJoin(x: JString, y: JString, a: JString, b: JString)
    requires Upper(Strip(x)) == Upper(Strip(y)) && Upper(Strip(a)) == Upper(Strip(b))
    ensures Upper(Strip(x + a)) == Upper(Strip(y + b))
  {
    StripAppend(x, a);
    StripAppend(y, b);
    UpperAppend(Strip(x), Strip(a));
    UpperAppend(Strip(y), Strip(b));
  }

  lemma {:induction false} MarkRunsStrip(s: JString)
    ensures Upper(Strip(MarkRuns(s))) == Upper(Strip(s))
    decreases |s|
  {
    if s != [] {
      var n := MatchLength(s);
      if n > 0 {
        MarkRunsStrip(s[n..]);
        MatchStrip(s);
      } else {
        MarkRunsStrip(s[1..]);
        KeptStrip(s);
      }
    }
  }

  /** The step of MarkRunsStrip for a match at the front. */
  lemma MatchStrip(s: JString)
    requires MatchLength(s) > 0
    requires Upper(Strip(MarkRuns(s[MatchLength(s)..]))) == Upper(Strip(s[MatchLength(s)..]))
    ensures Upper(Strip(MarkRuns(s))) == Upper(Strip(s))
  {
    MarkRunsMatch(s);
    RunStrip(s, MatchLength(s), MarkRuns(s[MatchLength(s)..]), MarkRuns(s));
  }

  /** MarkRuns on a string that starts with a match. */
  lemma MarkRunsMatch(s: JString)
    requires MatchLength(s) > 0
    ensures MarkRuns(s) == "_" + Lower(s[..MatchLength(s)]) + MarkRuns(s[MatchLength(s)..])
  {
  }

  /** The step of MarkRunsStrip for a character kept as it is. */
  lemma KeptStrip(s: JString)
    requires s != [] && MatchLength(s) == 0
    requires Upper(Strip(MarkRuns(s[1..]))) == Upper(Strip(s[1..]))
    ensures Upper(Strip(MarkRuns(s))) == Upper(Strip(s))
  {
    var head, tail := s[..1], s[1..];
    assert MarkRuns(s) == head + MarkRuns(tail);
    assert s == head + tail;
    StripUpperJoin(head, head, MarkRuns(tail), tail);
  }

  /**
   * A replaced run, the first `n` characters of `s`, followed by a tail that
   * already agrees without underscores and case.
   */
  lemma RunStrip(s: JString, n: nat, markedTail: JString, marked: JString)
    requires 0 < n <= |s| && NoUnderscore(s[..n])
    requires Upper(Strip(markedTail)) == Upper(Strip(s[n..]))
    requires marked == "_" + Lower(s[..n]) + markedTail
    ensures Upper(Strip(marked)) == Upper(Strip(s))
  {
    var head, tail := s[..n], s[n..];
    assert s == head + tail;
    MarkedRunStrip(head);
    StripUpperJoin("_" + Lower(head), head, markedTail, tail);
  }

  /**
   * Apart from underscores, the conversion only changes case: removing every
   * `_` from the result gives the input without its `_`, upper-cased.
   */
  lemma OnlyUnderscoresAndCase(s: JString)
    requires IsAscii(s)
    ensures Strip(ToUpperSnakeCase(s)) == Upper(Strip(s))
  {
    var m := MarkRuns(s);
    var d := DropLeadingUnderscore(m);
    StripUpper(d);
    if m != [] && m[0] == '_' {
      assert m == "_" + d;
      StripAppend("_", d);
    }
    MarkRunsStrip(s);
  }

  /** Upper-casing a literal, one character at a time. */
  lemma UpperLetters(s: JString, t: JString)
    requires |s| == |t| && forall i :: 0 <= i < |s| ==> UpperChar(s[i]) == t[i]
    ensures Upper(s) == t
  {
  }

  /** A camel-case name gains an underscore before each capital. */
  lemma CamelCaseExample()
    ensures ToUpperSnakeCase("aBc") == "A_BC"
  {
    assert MarkRuns("aBc") == "a_bc" by {
      assert MarkRuns("Bc") == "_bc" by {
        assert CapitalRun("Bc") == 1 by {
          assert "Bc"[1..] == "c";
        }
        assert MatchLength("Bc") == 1;
        assert "Bc"[..1] == "B" && "Bc"[1..] == "c";
        assert MarkRuns("c") == "c" by {
          assert "c"[1..] == [];
        }
      }
      assert "aBc"[1..] == "Bc";
    }
    UpperLetters("a_bc", "A_BC");
  }

  /** A dot before a capital is kept, behind the new underscore. */
  lemma DotExample()
    ensures ToUpperSnakeCase("a.B") == "A_.B"
  {
    assert MarkRuns("a.B") == "a_.b" by {
      assert MarkRuns(".B") == "_.b" by {
        assert CapitalRun("B") == 1;
        assert ".B"[1..] == "B";
        assert MatchLength(".B") == 2;
        assert ".B"[..2] == ".B" && ".B"[2..] == [];
      }
      assert "a.B"[1..] == ".B";
    }
    UpperLetters("a_.b", "A_.B");
  }

  /** A leading capital's underscore is removed again. */
  lemma LeadingCapitalExample()
    ensures ToUpperSnakeCase("Ab") == "AB"
  {
    assert MarkRuns("Ab") == "_ab" by {
      assert CapitalRun("Ab") == 1 by {
        assert "Ab"[1..] == "b";
      }
      assert MatchLength("Ab") == 1;
      assert "Ab"[..1] == "A" && "Ab"[1..] == "b";
      assert MarkRuns("b") == "b" by {
        assert "b"[1..] == [];
      }
    }
    assert DropLeadingUnderscore("_ab") == "ab";
    UpperLetters("ab", "AB");
  }
}

=== FILE: state.dfy ===
/**
 * The parsing state every generated parser extends (State.java): the input,
 * the current cursor, the mark an action or predicate starts from, and the
 * farthest-failure tracker. It holds the leaf matchers (any character, a
 * character class, a literal), the end-of-parse check, and the aborts a user
 * action may raise.
 *
 * In Java, State extends Expect; here the tracker is a component object
 * `tracker`, whose fields play the role of the inherited ones.
 */
module States {
  import opened Basics
  import opened Positions
  import opened Expectations
  import opened Tracker
  import opened Locations
  import opened SyntaxErrors
  import ByteViews

  /** The descriptor recorded when no character is left for `.`. */
  const AnyExpected := Expected(Any, None, "any character")
  /** The descriptor recorded when input is left over after the start rule. */
  const EofExpected := Expected(Eof, None, "end of input")

  /** What a matcher returns: a value, or the FAILED sentinel. */
  datatype Match<+T> = Matched(value: T) | Failed

  /** How a whole parse ends: a value, a syntax error, or another exception. */
  datatype Outcome<+T> = Parsed(value: T) | Raised(error: SyntaxError) | Crashed(fault: Fault)

  /** An exception thrown while building a syntax error is what the parse ends with. */
  function Throw<T>(e: Result<SyntaxError>): (o: Outcome<T>)
    ensures e.Ok? ==> o == Raised(e.value)
    ensures e.Err? ==> o == Crashed(e.fault)
  {
    match e
    case Ok(err) => Raised(err)
    case Err(f) => Crashed(f)
  }

  /**
   * The tracker never holds a candidate without having recorded it: while
   * its list is empty, it still sits at offset 0, where it started.
   */
  predicate Consistent(t: Farthest)
  {
    0 <= t.pos.offset && (t.candidates == [] ==> t.pos.offset == 0)
  }

  /** Recording a failure at a valid offset keeps the tracker consistent. */
  lemma RecordKeepsConsistent(t: Farthest, at: Cursor, e: Expected)
    requires Consistent(t) && 0 <= at.offset
    ensures Consistent(Record(t, at, e))
  {
  }

  const PackagePrefix: JString := "org.pegjs.java."
  const ByteViewSimpleName: JString := "ByteArrayAsCharSequence"
  /** The runtime class name of a byte-array view, a class nested in State. */
  const ByteViewClassName: JString := PackagePrefix + "State$" + ByteViewSimpleName

  /**
   * `Object.toString()` of a byte-array view, which does not override it:
   * the class name, `@`, and the identity hash code in hexadecimal, which is
   * not modelled and comes in as `hashText`.
   */
  function ObjectToString(hashText: JString): (r: JString)
    ensures |r| > |ByteViewClassName| && r[..|ByteViewClassName|] == ByteViewClassName
  {
    ByteViewClassName + "@" + hashText
  }

  /** `result.toString()` for a slice of `input`: a string slice is its own text, a byte view prints as an object. */
  function ToStringOf(input: CharSequence, slice: JString, hashText: JString): (r: JString)
    ensures input.Str? ==> r == slice
    ensures input.Bytes? ==> r == ObjectToString(hashText)
  {
    if input.Str? then slice else ObjectToString(hashText)
  }

  /** No literal up to the length of the class name equals the text of a byte view, whatever its bytes. */
  lemma ByteViewTextIsNoLiteral(view: ByteViews.ByteView, slice: JString, literal: JString, hashText: JString)
    requires |literal| <= |ByteViewClassName|
    ensures ToStringOf(Bytes(view), slice, hashText) != literal
  {
    assert |ObjectToString(hashText)| > |literal|;
  }

  /** The byte `a` reads as the character `a`, yet the view of it prints as an object, not as `a`. */
  lemma ByteLiteralExample(hashText: JString)
    ensures CharsOf(Bytes(ByteViews.Whole([97]))) == "a"
    ensures ToStringOf(Bytes(ByteViews.Whole([97])), "a", hashText) != "a"
  {
    ByteViewTextIsNoLiteral(ByteViews.Whole([97]), "a", "a", hashText);
  }

  class State {
    var input: CharSequence
    var current: Position
    var mark: Position?
    const tracker: Expect

    /**
     * The cursor is never the tracker's own position object and lies within
     * the input, which is a whole string or byte array; the tracker is
     * consistent.
     */
    predicate Valid()
      reads this, current, tracker, tracker.pos
    {
      current != tracker.pos && Whole(input) && 0 <= current.offset <= |CharsOf(input)|
      && Consistent(tracker.Value())
    }

    /** A new parser over `input`: a fresh tracker, then `init(input)`. */
    constructor (input: JString)
      ensures Valid() && fresh(current) && fresh(tracker) && fresh(tracker.pos)
      ensures this.input == Str(input) && current.Value() == Start && mark == null
      ensures tracker.Value() == Initial
    {
      tracker := new Expect();
      this.input := Str(input);
      current := new Position();
      mark := null;
    }

    /** `init(input)`: a new input and a fresh cursor at its start; the tracker is kept. */
    method Init(input: CharSequence)
      requires Whole(input) && Consistent(tracker.Value())
      modifies this
      ensures Valid() && fresh(current) && current.Value() == Start
      ensures this.input == input && mark == old(mark)
    {
      this.input := input;
      current := new Position();
    }

    /** `init(byte[])`: a view of the whole array, each byte read as one character. */
    method InitBytes(content: seq<ByteViews.Byte>)
      requires Consistent(tracker.Value())
      modifies this
      ensures Valid() && fresh(current) && current.Value() == Start
      ensures input == Bytes(ByteViews.Whole(content)) && |CharsOf(input)| == |content| && mark == old(mark)
      ensures forall i :: 0 <= i < |content| ==> CharsOf(input)[i] == ByteViews.ToChar(content[i])
    {
      var view := ByteViews.Whole(content);
      Init(Bytes(view));
    }

    /** `fail(e)`: records `e` at the cursor and returns FAILED. */
    method Fail<T>(e: Expected) returns (r: Match<T>)
      requires Valid()
      modifies tracker
      ensures Valid() && r == Failed
      ensures tracker.Value() == Record(old(tracker.Value()), current.Value(), e)
    {
      RecordKeepsConsistent(tracker.Value(), current.Value(), e);
      tracker.Add(current, e);
      r := Failed;
    }

    /** `parseAny()`: the next character, or a failure at the end of the input. */
    method ParseAny() returns (r: Match<CodeUnit>)
      requires Valid()
      modifies current, tracker
      ensures Valid()
      ensures r.Matched? <==> old(current.offset) < |CharsOf(input)|
      ensures r.Matched? ==> (r.value == CharsOf(input)[old(current.offset)]
        && current.Value() == Step(old(current.Value()), r.value)
        && tracker.Value() == old(tracker.Value()))
      ensures r.Failed? ==> (current.Value() == old(current.Value())
        && tracker.Value() == Record(old(tracker.Value()), current.Value(), AnyExpected))
    {
      if current.offset < |CharsOf(input)| {
        var ch := CharsOf(input)[current.offset];
        current.Next(ch);
        return Matched(ch);
      }
      r := Fail(AnyExpected);
    }

    /**
     * `parsePattern(pattern, expected, inverse)`: the next character if the
     * character class accepts it (rejects it, when `inverse`). `matches`
     * stands for the compiled regular expression applied to that character.
     * At the end of the input it fails, inverted or not.
     */
    method ParsePattern(matches: CodeUnit -> bool, expected: Expected, inverse: bool) returns (r: Match<CodeUnit>)
      requires Valid()
      modifies current, tracker
      ensures Valid()
      ensures r.Matched? <==> old(current.offset) < |CharsOf(input)| && matches(CharsOf(input)[old(current.offset)]) != inverse
      ensures r.Matched? ==> (r.value == CharsOf(input)[old(current.offset)]
        && current.Value() == Step(old(current.Value()), r.value)
        && tracker.Value() == old(tracker.Value()))
      ensures r.Failed? ==> (current.Value() == old(current.Value())
        && tracker.Value() == Record(old(tracker.Value()), current.Value(), expected))
    {
      if current.offset < |CharsOf(input)| {
        var ch := CharsOf(input)[current.offset];
        if matches(ch) != inverse {
          current.Next(ch);
          return Matched(ch);
        }
      }
      r := Fail(expected);
    }

    /**
     * `parseLiteral(literal, expected, ignoreCase)` as evidently intended,
     * comparing the characters of the slice on either kind of input: the text at the cursor
     * if it spells `literal`, compared code unit by code unit, or by
     * `equalsIgnoreCase` (a parameter: Java's Unicode case folding) when
     * `ignoreCase`. The cursor then moves over the whole text at once, or
     * not at all.
     */
    method ParseLiteral(literal: JString, expected: Expected, ignoreCase: bool,
                        equalsIgnoreCase: (JString, JString) -> bool) returns (r: Match<JString>)
      requires Valid()
      modifies current, tracker
      ensures Valid()
      ensures r.Matched? <==> LiteralMatches(old(current.offset), literal, ignoreCase, equalsIgnoreCase)
      ensures r.Matched? ==> (r.value == CharsOf(input)[old(current.offset)..old(current.offset) + |literal|]
        && current.Value() == Feed(old(current.Value()), r.value)
        && current.offset == old(current.offset) + |literal|
        && tracker.Value() == old(tracker.Value()))
      ensures r.Failed? ==> (current.Value() == old(current.Value())
        && tracker.Value() == Record(old(tracker.Value()), current.Value(), expected))
    {
      var end := current.offset + |literal|;
      if end <= |CharsOf(input)| {
        var result := SubSequenceOf(input, current.offset, end).value;
        if (if ignoreCase then equalsIgnoreCase(result, literal) else result == literal) {
          ghost var before := current.Value();
          current.NextTo(CharsOf(input), end);
          FeedOffset(before, result);
          return Matched(result);
        }
      }
      r := Fail(expected);
    }

    /** Whether the text at `offset` spells `literal`, as `parseLiteral` compares it. */
    predicate LiteralMatches(offset: int, literal: JString, ignoreCase: bool,
                             equalsIgnoreCase: (JString, JString) -> bool)
      reads this
      requires 0 <= offset
    {
      offset + |literal| <= |CharsOf(input)| &&
      var text := CharsOf(input)[offset..offset + |literal|];
      if ignoreCase then equalsIgnoreCase(text, literal) else text == literal
    }

    /**
     * `parseLiteral(literal, expected, ignoreCase)` as written: the slice is
     * compared through `result.toString()`, which for a byte-array input is
     * the view's object text (`hashText` being its hash code), so on such
     * input only a literal spelling that text can match.
     */
    method ParseLiteralAsWritten(literal: JString, expected: Expected, ignoreCase: bool,
                                 equalsIgnoreCase: (JString, JString) -> bool, hashText: JString)
      returns (r: Match<JString>)
      requires Valid()
      modifies current, tracker
      ensures Valid()
      ensures r.Matched? <==> LiteralMatchesAsWritten(old(current.offset), literal, ignoreCase, equalsIgnoreCase, hashText)
      ensures r.Matched? ==> (r.value == CharsOf(input)[old(current.offset)..old(current.offset) + |literal|]
        && current.Value() == Feed(old(current.Value()), r.value)
        && tracker.Value() == old(tracker.Value()))
      ensures r.Failed? ==> (current.Value() == old(current.Value())
        && tracker.Value() == Record(old(tracker.Value()), current.Value(), expected))
    {
      var end := current.offset + |literal|;
      if end <= |CharsOf(input)| {
        var result := SubSequenceOf(input, current.offset, end).value;
        var shown := ToStringOf(input, result, hashText);
        if (if ignoreCase then equalsIgnoreCase(shown, literal) else shown == literal) {
          ghost var before := current.Value();
          current.NextTo(CharsOf(input), end);
          FeedOffset(before, result);
          return Matched(result);
        }
      }
      r := Fail(expected);
    }

    /** Whether `parseLiteral` as written accepts the text at `offset`: it compares `toString()` of the slice. */
    predicate LiteralMatchesAsWritten(offset: int, literal: JString, ignoreCase: bool,
                                      equalsIgnoreCase: (JString, JString) -> bool, hashText: JString)
      reads this
      requires 0 <= offset
    {
      offset + |literal| <= |CharsOf(input)| &&
      var shown := ToStringOf(input, CharsOf(input)[offset..offset + |literal|], hashText);
      if ignoreCase then equalsIgnoreCase(shown, literal) else shown == literal
    }

    /**
     * On byte-array input, `parseLiteral` as written fails wherever the
     * cursor is, for every literal no longer than the view's class name and
     * compared with case.
     */
    lemma ByteInputRejectsLiteral(offset: int, literal: JString, equalsIgnoreCase: (JString, JString) -> bool,
                                  hashText: JString)
      requires 0 <= offset && input.Bytes? && |literal| <= |ByteViewClassName|
      ensures !LiteralMatchesAsWritten(offset, literal, false, equalsIgnoreCase, hashText)
    {
      if offset + |literal| <= |CharsOf(input)| {
        ByteViewTextIsNoLiteral(input.view, CharsOf(input)[offset..offset + |literal|], literal, hashText);
      }
    }

    /** `found(location)`: the character at the start of the span, absent at the end of the input. */
    function Found(loc: Location): (r: Option<CodeUnit>)
      reads this, loc.start
      requires 0 <= loc.start.offset
      ensures r.Some? <==> loc.start.offset < |CharsOf(input)|
      ensures r.Some? ==> r.value == CharsOf(input)[loc.start.offset]
    {
      if loc.start.offset < |CharsOf(input)| then Some(CharsOf(input)[loc.start.offset]) else None
    }

    /**
     * The syntax error `finalize` throws: located at the tracker's farthest
     * position (both ends the tracker's own position object), listing the
     * tracker's candidates.
     */
    function Report(): (r: Result<SyntaxError>)
      reads this, tracker, tracker.pos
      requires Consistent(tracker.Value())
      ensures r.Ok? <==> tracker.candidates != []
      ensures r.Ok? ==> (r.value.location == Locations.Location(tracker.pos, tracker.pos)
        && r.value.found == Found(Locations.Location(tracker.pos, tracker.pos))
        && Descriptions(r.value.candidates) == Descriptions(tracker.candidates))
      ensures r.Err? ==> r.fault == NoSuchElement
    {
      var loc := Locations.Location(tracker.pos, tracker.pos);
      FromList(None, Some(tracker.candidates), loc, Found(loc))
    }

    /**
     * `finalize(result)`: a match that consumed all the input is the result.
     * Otherwise a match that stopped early first records that the end of the
     * input was expected at the cursor; then the parse ends with the error
     * built from the tracker.
     */
    method Finalize<T>(result: Match<T>) returns (r: Outcome<T>)
      requires Valid()
      modifies tracker
      ensures Valid()
      ensures result.Matched? && current.offset == |CharsOf(input)| ==>
        r == Parsed(result.value) && tracker.Value() == old(tracker.Value())
      ensures result.Matched? && current.offset < |CharsOf(input)| ==>
        tracker.Value() == Record(old(tracker.Value()), current.Value(), EofExpected)
      ensures result.Failed? ==> tracker.Value() == old(tracker.Value())
      ensures !(result.Matched? && current.offset == |CharsOf(input)|) ==> r == Throw(Report())
      ensures result.Matched? && current.offset < |CharsOf(input)| && tracker.silent <= 0 ==> r.Raised?
    {
      if result.Matched? {
        if current.offset == |CharsOf(input)| {
          return Parsed(result.value);
        }
        if current.offset < |CharsOf(input)| {
          if tracker.silent <= 0 {
            LeftoverInputIsSyntaxError(tracker.Value(), current.Value());
          }
          var _ := Fail<T>(EofExpected);
        }
      }
      var loc := Locations.Location(tracker.pos, tracker.pos);
      var e := FromList(None, Some(tracker.candidates), loc, Found(loc));
      r := Throw(e);
    }

    /**
     * `toText(from)`: the input from a saved position up to the cursor. A
     * saved position past the cursor is refused as IndexOutOfBounds by a
     * string and as IllegalArgument by a byte view.
     */
    function ToText(from: Position): (r: Result<JString>)
      reads this, from, current
      requires Whole(input)
      ensures r.Ok? <==> 0 <= from.offset <= current.offset <= |CharsOf(input)|
      ensures r.Ok? ==> r.value == CharsOf(input)[from.offset..current.offset]
      ensures r.Err? ==>
        r.fault == if input.Bytes? && current.offset < from.offset then IllegalArgument else IndexOutOfBounds
    {
      SubSequenceOf(input, from.offset, current.offset)
    }

    /**
     * `location()`: from the mark to a copy of the cursor; without a mark the
     * Location constructor refuses it.
     */
    method Location() returns (r: Result<Location>)
      ensures mark == null ==> r == Err(IllegalArgument)
      ensures mark != null ==> (r.Ok? && r.value.start == mark && fresh(r.value.end)
        && r.value.end.Value() == current.Value())
    {
      var end := current.Clone();
      r := NewLocation(mark, end);
    }

    /** `text()`: the input between the mark and the cursor, failing as `toText` does. */
    method Text() returns (r: Result<JString>)
      ensures mark == null ==> r == Err(IllegalArgument)
      ensures mark != null ==> r == SubSequenceOf(input, mark.offset, current.offset)
      ensures mark != null && Whole(input) ==> (r.Ok? <==> 0 <= mark.offset <= current.offset <= |CharsOf(input)|)
      ensures mark != null && Whole(input) && r.Ok? ==> r.value == CharsOf(input)[mark.offset..current.offset]
    {
      var loc := Location();
      if loc.Err? {
        return Err(loc.fault);
      }
      r := Region(loc.value, input);
    }

    /**
     * `expected(value, location)`: the error naming one custom candidate
     * whose value and description are both `value`.
     */
    function ExpectedAt(value: JString, loc: Location): (r: Result<SyntaxError>)
      reads this, loc.start
      requires 0 <= loc.start.offset
      ensures r.Ok?
      ensures r.value.candidates == [Expected(Custom, Some(value), value)]
      ensures r.value.location == loc && r.value.found == Found(loc)
      ensures Ok(r.value.message) ==
        MessageText([Expected(Custom, Some(value), value)], loc.start.line, loc.start.column, Found(loc))
    {
      var e := Expected(Custom, Some(value), value);
      assert [e][..0] == [];
      assert SortedSet([e]) == [e];
      FromList(None, Some([e]), loc, Found(loc))
    }

    /** `expected(value)`: the same, over `location()`. */
    method ExpectedHere(value: JString) returns (r: Result<SyntaxError>)
      requires 0 <= current.offset && (mark != null ==> 0 <= mark.offset)
      ensures mark == null ==> r == Err(IllegalArgument)
      ensures mark != null ==> (r.Ok? && r.value.candidates == [Expected(Custom, Some(value), value)]
        && r.value.location.start == mark && r.value.location.end.Value() == current.Value()
        && r.value.found == (if mark.offset < |CharsOf(input)| then Some(CharsOf(input)[mark.offset]) else None)
        && Ok(r.value.message) ==
          MessageText([Expected(Custom, Some(value), value)], mark.line, mark.column, r.value.found))
    {
      var loc := Location();
      if loc.Err? {
        return Err(loc.fault);
      }
      r := ExpectedAt(value, loc.value);
    }

    /**
     * `error(message, location)` as written: it passes a null candidate set,
     * which the SyntaxError constructor cannot wrap, so what is thrown is a
     * NullPointerException, never the syntax error.
     */
    function ErrorAsWritten(message: JString, loc: Location): (r: Result<SyntaxError>)
      reads this, loc.start
      requires 0 <= loc.start.offset
      ensures r == Err(NullPointer)
    {
      NullSetAlwaysFails(Some(message), loc, Found(loc));
      FromSet(Some(message), None, loc, Found(loc))
    }

    /**
     * `error(message, location)` as evidently intended: a syntax error
     * carrying the message verbatim, no candidates, and the character found.
     */
    function Error(message: JString, loc: Location): (r: SyntaxError)
      reads this, loc.start
      requires 0 <= loc.start.offset
      ensures r.message == message && r.candidates == [] && r.location == loc && r.found == Found(loc)
    {
      UserError(message, loc, Found(loc))
    }

    /** `error(message)`: the same, over `location()`. */
    method ErrorHere(message: JString) returns (r: Result<SyntaxError>)
      requires mark != null ==> 0 <= mark.offset
      ensures mark == null ==> r == Err(IllegalArgument)
      ensures mark != null ==> (r.Ok? && r.value.message == message && r.value.candidates == []
        && r.value.location.start == mark && r.value.location.end.Value() == current.Value()
        && r.value.found == (if mark.offset < |CharsOf(input)| then Some(CharsOf(input)[mark.offset]) else None))
    {
      var loc := Location();
      if loc.Err? {
        return Err(loc.fault);
      }
      r := Ok(Error(message, loc.value));
    }
  }

  /**
   * A parse whose start rule matched but stopped early is always reported as
   * a syntax error while nothing is silenced: the end-of-input candidate is
   * either recorded, or dropped because the tracker is farther still and so
   * already holds a candidate.
   */
  lemma LeftoverInputIsSyntaxError(t: Farthest, at: Cursor)
    requires Consistent(t) && 0 <= at.offset && t.silent <= 0
    ensures Record(t, at, EofExpected).candidates != []
  {
  }
}

=== FILE: syntax_error.dfy ===
/**
 * The syntax error a parse ends with (exceptions/SyntaxError.java): the
 * candidates sorted by description with duplicate descriptions collapsed
 * (a TreeSet), the location, the character found there, and the message
 * `Line L, column C: Expected A, B, or C but "x" found.`.
 */
module SyntaxErrors {
  import opened Basics
  import opened Expectations
  import opened Locations

  datatype SyntaxError = SyntaxError(
    message: JString,
    candidates: seq<Expected>,
    location: Location,
    found: Option<CodeUnit>)

  // ---------------------------------------------------------------------
  // The sorted set built by `new TreeSet(candidates)`
  // ---------------------------------------------------------------------

  predicate StrictlySorted(s: seq<Expected>)
  {
    forall i, j :: 0 <= i < j < |s| ==> Before(s[i], s[j])
  }

  function Elems(s: seq<Expected>): set<Expected>
  {
    set x | x in s
  }

  function Descriptions(s: seq<Expected>): set<JString>
  {
    set x | x in s :: x.description
  }

  /** `TreeSet.add`: an element whose description is already present is not added. */
  function Insert(s: seq<Expected>, e: Expected): seq<Expected>
  {
    if s == [] then [e]
    else if Before(e, s[0]) then [e] + s
    else if CompareTo(e, s[0]) == 0 then s
    else [s[0]] + Insert(s[1..], e)
  }

  /** The set built from a list: each element added in list order. */
  function SortedSet(list: seq<Expected>): seq<Expected>
  {
    if list == [] then [] else Insert(SortedSet(list[..|list| - 1]), list[|list| - 1])
  }

  /** The first element of `list` with description `d`, if any. */
  function FirstWith(list: seq<Expected>, d: JString): Option<Expected>
  {
    if list == [] then None
    else
      var f := FirstWith(list[..|list| - 1], d);
      if f.Some? then f
      else if list[|list| - 1].description == d then Some(list[|list| - 1])
      else None
  }

  /** Putting in front of a sorted sequence an element below all of it keeps it sorted. */
  lemma SortedCons(h: Expected, t: seq<Expected>)
    requires StrictlySorted(t)
    requires forall k :: 0 <= k < |t| ==> Before(h, t[k])
    ensures StrictlySorted([h] + t)
  {
    var r := [h] + t;
    forall i, j | 0 <= i < j < |r| ensures Before(r[i], r[j]) {
      if i > 0 { assert r[i] == t[i - 1] && r[j] == t[j - 1]; }
      else { assert r[j] == t[j - 1]; }
    }
  }

  lemma DescriptionsCons(h: Expected, t: seq<Expected>)
    ensures Descriptions([h] + t) == {h.description} + Descriptions(t)
  {
    var r := [h] + t;
    forall d | d in Descriptions(r) ensures d in {h.description} + Descriptions(t) {
      var x :| x in r && x.description == d;
      if x != h { assert x in t; }
    }
  }

  /** An element that sorts before the head of a sorted sequence sorts before all of it. */
  lemma InsertAtFront(s: seq<Expected>, e: Expected)
    requires StrictlySorted(s) && s != [] && Before(e, s[0])
    ensures StrictlySorted([e] + s)
    ensures e.description !in Descriptions(s)
  {
    forall k | 0 <= k < |s| ensures Before(e, s[k]) {
      if k > 0 { BeforeIsStrictTotalOrder(e, s[0], s[k]); }
    }
    SortedCons(e, s);
    forall x | x in s ensures x.description != e.description {
      BeforeIsStrictTotalOrder(e, x, x);
      CompareToZero(e, x);
    }
  }

  lemma {:induction false} InsertSpec(s: seq<Expected>, e: Expected)
    requires StrictlySorted(s)
    ensures StrictlySorted(Insert(s, e))
    ensures e.description in Descriptions(s) ==> Insert(s, e) == s
    ensures e.description !in Descriptions(s) ==> forall x :: x in Insert(s, e) <==> x in s || x == e
  {
    if s == [] {
    } else if Before(e, s[0]) {
      InsertAtFront(s, e);
    } else if CompareTo(e, s[0]) == 0 {
      CompareToZero(e, s[0]);
    } else {
      InsertSpec(s[1..], e);
      InsertTail(s, e, Insert(s[1..], e));
    }
  }

  /** The step of InsertSpec where `e` goes after the head. */
  lemma InsertTail(s: seq<Expected>, e: Expected, t: seq<Expected>)
    requires StrictlySorted(s) && s != [] && !Before(e, s[0]) && CompareTo(e, s[0]) != 0
    requires StrictlySorted(t)
    requires e.description in Descriptions(s[1..]) ==> t == s[1..]
    requires e.description !in Descriptions(s[1..]) ==> forall x :: x in t <==> x in s[1..] || x == e
    ensures StrictlySorted([s[0]] + t)
    ensures e.description in Descriptions(s) ==> [s[0]] + t == s
    ensures e.description !in Descriptions(s) ==> forall x :: x in [s[0]] + t <==> x in s || x == e
  {
    var h, rest := s[0], s[1..];
    assert s == [h] + rest;
    CompareToZero(e, h);
    BeforeIsStrictTotalOrder(e, h, h);
    assert Before(h, e);
    DescriptionsCons(h, rest);
    forall k | 0 <= k < |t| ensures Before(h, t[k]) {
      assert t[k] in t;
      if t[k] != e {
        var m :| 0 <= m < |rest| && rest[m] == t[k];
        assert rest[m] == s[m + 1];
      }
    }
    SortedCons(h, t);
  }

  /**
   * `new TreeSet(list)` is the strictly ascending sequence (by description)
   * of the first element of `list` with each description.
   */
  lemma SortedSetSpec(list: seq<Expected>)
    ensures StrictlySorted(SortedSet(list))
    ensures Descriptions(SortedSet(list)) == Descriptions(list)
    ensures forall x :: x in SortedSet(list) ==> FirstWith(list, x.description) == Some(x)
  {
    SortedSetShape(list);
    SortedSetFirst(list);
  }

  /** Adding an element adds its description, whether or not the element itself goes in. */
  lemma InsertDescriptions(s: seq<Expected>, e: Expected)
    requires StrictlySorted(s)
    ensures Descriptions(Insert(s, e)) == Descriptions(s) + {e.description}
  {
    InsertSpec(s, e);
    if e.description !in Descriptions(s) {
      forall d | d in Descriptions(Insert(s, e)) ensures d in Descriptions(s) + {e.description} {
        var x :| x in Insert(s, e) && x.description == d;
      }
      assert e in Insert(s, e);
    }
  }

  lemma DescriptionsSnoc(init: seq<Expected>, e: Expected)
    ensures Descriptions(init + [e]) == Descriptions(init) + {e.description}
  {
    forall d | d in Descriptions(init + [e]) ensures d in Descriptions(init) + {e.description} {
      var x :| x in init + [e] && x.description == d;
    }
    assert e in init + [e];
    forall d | d in Descriptions(init) ensures d in Descriptions(init + [e]) {
      var x :| x in init && x.description == d;
      assert x in init + [e];
    }
  }

  lemma {:induction false} SortedSetShape(list: seq<Expected>)
    ensures StrictlySorted(SortedSet(list))
    ensures Descriptions(SortedSet(list)) == Descriptions(list)
  {
    if list != [] {
      var init, e := list[..|list| - 1], list[|list| - 1];
      SortedSetShape(init);
      InsertSpec(SortedSet(init), e);
      InsertDescriptions(SortedSet(init), e);
      assert list == init + [e];
      DescriptionsSnoc(init, e);
    }
  }

  lemma {:induction false} SortedSetFirst(list: seq<Expected>)
    ensures forall x :: x in SortedSet(list) ==> FirstWith(list, x.description) == Some(x)
  {
    if list != [] {
      var init, e := list[..|list| - 1], list[|list| - 1];
      SortedSetFirst(init);
      SortedSetShape(init);
      FirstWithPresent(init);
      var s := SortedSet(init);
      InsertSpec(s, e);
      forall x | x in Insert(s, e) ensures FirstWith(list, x.description) == Some(x) {
        if x in s {
          assert FirstWith(init, x.description) == Some(x);
        } else {
          assert x == e && e.description !in Descriptions(init);
        }
      }
    }
  }

  lemma {:induction false} FirstWithPresent(list: seq<Expected>)
    ensures forall d :: FirstWith(list, d).Some? <==> d in Descriptions(list)
  {
    if list != [] {
      FirstWithPresent(list[..|list| - 1]);
      assert list == list[..|list| - 1] + [list[|list| - 1]];
    }
  }

  // ---------------------------------------------------------------------
  // The message
  // ---------------------------------------------------------------------

  /** Each description followed by ", ". */
  function Commas(ds: seq<Expected>): JString
  {
    if ds == [] then [] else Commas(ds[..|ds| - 1]) + ds[|ds| - 1].description + ", "
  }

  lemma CommasStep(cs: seq<Expected>, i: nat)
    requires i < |cs|
    ensures Commas(cs[..i + 1]) == Commas(cs[..i]) + cs[i].description + ", "
  {
    assert cs[..i + 1][..i] == cs[..i];
  }

  /** The list of candidates: `A`, `A, or B`, `A, B, or C`, ... */
  function ListText(cs: seq<Expected>): JString
    requires cs != []
  {
    if |cs| == 1 then cs[0].description
    else Commas(cs[..|cs| - 1]) + "or " + cs[|cs| - 1].description
  }

  /** What was found; `stringEscape` hands its character back unchanged. */
  function FoundText(found: Option<CodeUnit>): JString
  {
    match found
    case Some(c) => "\"" + [c] + "\""
    case None => "end of input"
  }

  /** The tail of every built message: what was found instead. */
  function Trailer(found: Option<CodeUnit>): JString
  {
    " but " + FoundText(found) + " found."
  }

  const LineWord: JString := "Line "
  const ColumnWord: JString := ", column "
  const ExpectedWord: JString := ": Expected "

  /** The head of every built message: `Line L, column C: Expected `. */
  function Header(line: int, column: int): JString
  {
    LineWord + IntToString(line) + ColumnWord + IntToString(column) + ExpectedWord
  }

  /** What `buildMessage` produces; an empty candidate set fails at `candidates.last()`. */
  function MessageText(cs: seq<Expected>, line: int, column: int, found: Option<CodeUnit>): (r: Result<JString>)
  {
    if cs == [] then Err(NoSuchElement)
    else Ok(Header(line, column) + ListText(cs) + Trailer(found))
  }

  /** With two candidates the list reads `A, or B`. */
  lemma TwoCandidates(a: Expected, b: Expected)
    ensures ListText([a, b]) == a.description + ", or " + b.description
  {
    var s := [a, b];
    assert s[..1] == [a] && [a][..0] == [];
    assert Commas([a]) == a.description + ", ";
    assert ", " + "or " == ", or ";
  }

  /**
   * The candidate part of `buildMessage`: the first n-1 descriptions each
   * followed by ", ", then "or " when there were any, then the last one.
   */
  method AppendCandidates(sb0: JString, cs: seq<Expected>) returns (sb: JString)
    requires cs != []
    ensures sb == sb0 + ListText(cs)
  {
    sb := sb0;
    var last := |cs| - 1;
    var i := 0;
    if last > 0 {
      while last > 0
        invariant 0 <= last && i + last == |cs| - 1
        invariant sb == sb0 + Commas(cs[..i])
      {
        CommasStep(cs, i);
        ConcatAssoc(sb0, Commas(cs[..i]), cs[i].description);
        ConcatAssoc(sb0, Commas(cs[..i]) + cs[i].description, ", ");
        sb := sb + cs[i].description + ", ";
        i := i + 1;
        last := last - 1;
      }
      ConcatAssoc(sb0, Commas(cs[..i]), "or ");
      sb := sb + "or ";
      ConcatAssoc(sb0, Commas(cs[..i]) + "or ", cs[|cs| - 1].description);
    }
    sb := sb + cs[|cs| - 1].description;
  }

  /** The end of `buildMessage`: ` but `, what was found, ` found.`. */
  method AppendTrailer(sb0: JString, found: Option<CodeUnit>) returns (sb: JString)
    ensures sb == sb0 + Trailer(found)
  {
    sb := sb0 + " but ";
    sb := sb + FoundText(found);
    sb := sb + " found.";
    ConcatAssoc(sb0, " but ", FoundText(found));
    ConcatAssoc(sb0, " but " + FoundText(found), " found.");
  }

  /** `buildMessage`, as the StringBuilder code that writes it. */
  method BuildMessage(cs: seq<Expected>, line: int, column: int, found: Option<CodeUnit>) returns (r: Result<JString>)
    ensures r == MessageText(cs, line, column, found)
  {
    var sb: JString := Header(line, column);
    if |cs| == 0 {
      // `candidates.last()` on an empty set
      return Err(NoSuchElement);
    }
    sb := AppendCandidates(sb, cs);
    sb := AppendTrailer(sb, found);
    r := Ok(sb);
  }

  // ---------------------------------------------------------------------
  // The two constructors
  // ---------------------------------------------------------------------

  /**
   * The constructor taking a sorted set. A given message is kept verbatim,
   * otherwise it is built from the set; the set is then wrapped as
   * unmodifiable, which refuses a null set.
   */
  function FromSet(message: Option<JString>, candidates: Option<seq<Expected>>, location: Location,
                   found: Option<CodeUnit>): (r: Result<SyntaxError>)
    reads location.start
    ensures candidates.None? ==> r == Err(NullPointer)
    ensures message.None? && candidates == Some([]) ==> r == Err(NoSuchElement)
    ensures message.Some? && candidates.Some? ==> r.Ok? && r.value.message == message.value
    ensures r.Ok? ==> (r.value.candidates == candidates.value && r.value.location == location
      && r.value.found == found)
    ensures message.None? && r.Ok? ==>
      Ok(r.value.message) == MessageText(candidates.value, location.start.line, location.start.column, found)
  {
    var built :=
      if message.Some? then Ok(message.value)
      else if candidates.None? then Err(NullPointer)
      else MessageText(candidates.value, location.start.line, location.start.column, found);
    if built.Err? then Err(built.fault)
    else if candidates.None? then Err(NullPointer)
    else Ok(SyntaxError(built.value, candidates.value, location, found))
  }

  /** The constructor taking a list: the list becomes a TreeSet first. */
  function FromList(message: Option<JString>, candidates: Option<seq<Expected>>, location: Location,
                    found: Option<CodeUnit>): (r: Result<SyntaxError>)
    reads location.start
    ensures candidates.None? ==> r == Err(NullPointer)
    ensures r.Ok? ==> StrictlySorted(r.value.candidates)
    ensures r.Ok? ==> Descriptions(r.value.candidates) == Descriptions(candidates.value)
    ensures r.Ok? ==> forall x :: x in r.value.candidates ==> FirstWith(candidates.value, x.description) == Some(x)
    ensures message.None? && candidates.Some? ==> (r.Ok? <==> candidates.value != [])
  {
    match candidates
    case None => FromSet(message, None, location, found)
    case Some(list) =>
      SortedSetSpec(list);
      assert list == [] <==> SortedSet(list) == [] by {
        if list != [] { assert list[0].description in Descriptions(list); }
      }
      FromSet(message, Some(SortedSet(list)), location, found)
  }

  /**
   * The error a user action should raise with a message of its own: that
   * message verbatim, with no candidates.
   */
  function UserError(message: JString, location: Location, found: Option<CodeUnit>): (r: SyntaxError)
    reads location.start
    ensures r.message == message && r.candidates == [] && r.location == location && r.found == found
  {
    FromSet(Some(message), Some([]), location, found).value
  }

  /** Passing a null set, as `State.error` does, never yields a SyntaxError. */
  lemma NullSetAlwaysFails(message: Option<JString>, location: Location, found: Option<CodeUnit>)
    ensures FromSet(message, None, location, found) == Err(NullPointer)
  {
  }
}

=== FILE: user_code.dfy ===
/**
 * The registry of user code (utils/UserCodeBuilder.js). Every predicate and
 * action of a grammar becomes a Java method; two registrations of the same
 * code with the same namespace, return type and typed parameters share one
 * method. A registry hands out the call text `<prefix><index>((T1)a1, ...)`
 * and later prints the declarations and definitions of what it holds.
 */
module UserCode {
  import opened Basics
  import opened VarStacks

  /** One stored function: `{ namespace, params, type, body }`. */
  datatype Function = Function(namespace: JString, params: seq<Param>, typeName: JString, body: JString)

  // ---------------------------------------------------------------------
  // Parameters
  // ---------------------------------------------------------------------

  /**
   * `zip(params, args)`: parameter name `i` with the type of argument `i`.
   * An argument list shorter than the names fails reading `.type` of
   * `undefined`.
   */
  function Zip(params: seq<JString>, args: seq<Param>): (r: Result<seq<Param>>)
    ensures r.Ok? <==> |params| <= |args|
    ensures r.Err? ==> r.fault == TypeError
    ensures r.Ok? ==> (|r.value| == |params|
      && forall i :: 0 <= i < |params| ==> r.value[i].name == params[i] && r.value[i].typeName == args[i].typeName)
  {
    if |params| <= |args| then Ok(seq(|params|, i requires 0 <= i < |params| => Param(params[i], args[i].typeName)))
    else Err(TypeError)
  }

  /** `eq(p1, p2)`: the same name and the same type, which is being the same parameter. */
  function Eq(p1: Param, p2: Param): (r: bool)
    ensures r <==> p1 == p2
  {
    p1.name == p2.name && p1.typeName == p2.typeName
  }

  /** `equals(params1, params2)`: the same length and pairwise `eq`. */
  method Equals(params1: seq<Param>, params2: seq<Param>) returns (r: bool)
    ensures r <==> params1 == params2
  {
    if |params1| != |params2| {
      return false;
    }
    var i := 0;
    while i < |params1|
      invariant 0 <= i <= |params1|
      invariant forall j :: 0 <= j < i ==> params1[j] == params2[j]
    {
      if !Eq(params1[i], params2[i]) {
        return false;
      }
      i := i + 1;
    }
    r := true;
  }

  // ---------------------------------------------------------------------
  // The texts a registry prints
  // ---------------------------------------------------------------------

  /** The casts of a call: `(T1)a1, (T2)a2, ...`. */
  function Casts(args: seq<Param>): JString
  {
    Join(seq(|args|, k requires 0 <= k < |args| => "(" + args[k].typeName + ")" + args[k].name), ", ")
  }

  /**
   * `n1(i, args)`: the call of function `i` with each argument cast to its
   * type. It starts with the registry's name and the decimal digits of `i`,
   * followed by `(`, and ends with `)`; without arguments it is just
   * `<name><i>()`.
   */
  function CallText(varName: JString, i: nat, args: seq<Param>): (r: JString)
    ensures var head := varName + NatToString(i) + "(";
      |r| > |head| && r[..|head|] == head && r[|r| - 1] == ')'
    ensures args == [] ==> r == varName + NatToString(i) + "()"
  {
    var head := varName + NatToString(i) + "(";
    var r := head + Casts(args) + ")";
    assert r[..|head|] == head;
    r
  }

  /** Two calls from one registry name the same function exactly when their indices agree. */
  lemma CallTextIndex(varName: JString, i: nat, j: nat, a: seq<Param>, b: seq<Param>)
    ensures CallText(varName, i, a) == CallText(varName, j, b) ==> i == j
  {
    var r, s := CallText(varName, i, a), CallText(varName, j, b);
    if r == s {
      var di, dj := NatToString(i), NatToString(j);
      NatToStringDecodes(i);
      NatToStringDecodes(j);
      DigitsBeforeParen(varName, di, dj, r);
      NatToStringInjective(i, j);
    }
  }

  /** Two digit strings each followed by `(` at the same place of one text are equal. */
  lemma DigitsBeforeParen(varName: JString, di: JString, dj: JString, r: JString)
    requires forall k :: 0 <= k < |di| ==> IsDigit(di[k])
    requires forall k :: 0 <= k < |dj| ==> IsDigit(dj[k])
    requires |r| > |varName + di + "("| && r[..|varName + di + "("|] == varName + di + "("
    requires |r| > |varName + dj + "("| && r[..|varName + dj + "("|] == varName + dj + "("
    ensures di == dj
  {
    var n := |varName|;
    if |di| < |dj| {
      PrefixAt(r, varName + di + "(", n + |di|);
      PrefixAt(r, varName + dj + "(", n + |di|);
      assert false;
    } else if |dj| < |di| {
      PrefixAt(r, varName + dj + "(", n + |dj|);
      PrefixAt(r, varName + di + "(", n + |dj|);
      assert false;
    } else {
      forall k | 0 <= k < |di| ensures di[k] == dj[k] {
        assert r[n + k] == di[k] && r[n + k] == dj[k];
      }
    }
  }

  lemma PrefixAt(r: JString, p: JString, k: int)
    requires |p| <= |r| && r[..|p|] == p && 0 <= k < |p|
    ensures r[k] == p[k]
  {
    assert r[..|p|][k] == r[k];
  }

  /**
   * `n2(f, i)`: the signature of function `i`: its return type, a space,
   * the registry's name with the digits of `i` and `(`, and a closing `)`.
   */
  function Signature(varName: JString, f: Function, i: nat): (r: JString)
    ensures var head := f.typeName + " " + varName + NatToString(i) + "(";
      |r| > |head| && r[..|head|] == head && r[|r| - 1] == ')'
    ensures f.params == [] ==> r == f.typeName + " " + varName + NatToString(i) + "()"
  {
    var head := f.typeName + " " + varName + NatToString(i) + "(";
    var r := head + Join(seq(|f.params|, k requires 0 <= k < |f.params| =>
      f.params[k].typeName + " " + f.params[k].name), ", ") + ")";
    assert r[..|head|] == head;
    r
  }

  /** Which of the two listings: `declare` (the signature and `;`) or `define` (with the body). */
  datatype Form = Declaration | Definition

  /**
   * One entry of a listing: the signature, then `;` for a declaration, or
   * the body between ` {` and `}` for a definition.
   */
  function Render(form: Form, varName: JString, f: Function, i: nat): (r: JString)
    ensures |r| > 0 && r[|r| - 1] == (if form.Declaration? then ';' else '}')
  {
    match form
    case Declaration => Signature(varName, f, i) + ";"
    case Definition => Signature(varName, f, i) + " {" + f.body + "}"
  }

  /** An entry begins with the signature, followed by `;` alone or by the body in braces. */
  lemma RenderShape(form: Form, varName: JString, f: Function, i: nat)
    ensures var sig, r := Signature(varName, f, i), Render(form, varName, f, i);
      |r| > |sig| && r[..|sig|] == sig
      && (form.Declaration? ==> r[|sig|..] == ";")
      && (form.Definition? ==> r[|sig|..] == " {" + f.body + "}")
  {
    var sig, r := Signature(varName, f, i), Render(form, varName, f, i);
    assert r[..|sig|] == sig;
  }

  // ---------------------------------------------------------------------
  // Storage, as values
  // ---------------------------------------------------------------------

  /** The indices, in ascending order, of the entries in namespace `ns` (every entry for `None`). */
  function Selected(s: seq<Function>, ns: Option<JString>): seq<nat>
  {
    if s == [] then []
    else Selected(s[..|s| - 1], ns) + (if ns.None? || s[|s| - 1].namespace == ns.value then [|s| - 1] else [])
  }

  /** The selection is strictly ascending and holds exactly the entries of the namespace. */
  lemma {:induction false} SelectedSpec(s: seq<Function>, ns: Option<JString>)
    ensures forall k :: 0 <= k < |Selected(s, ns)| ==> Selected(s, ns)[k] < |s|
    ensures forall a, b :: 0 <= a < b < |Selected(s, ns)| ==> Selected(s, ns)[a] < Selected(s, ns)[b]
    ensures forall i :: i in Selected(s, ns) <==> 0 <= i < |s| && (ns.None? || s[i].namespace == ns.value)
  {
    if s != [] {
      var init := s[..|s| - 1];
      SelectedSpec(init, ns);
      var a := Selected(init, ns);
      var tail: seq<nat> := if ns.None? || s[|s| - 1].namespace == ns.value then [|s| - 1] else [];
      assert Selected(s, ns) == a + tail;
      forall i
        ensures i in Selected(s, ns) <==> 0 <= i < |s| && (ns.None? || s[i].namespace == ns.value)
      {
        if 0 <= i < |init| {
          assert init[i] == s[i];
        }
      }
    }
  }

  /** Without a namespace every entry is selected. */
  lemma {:induction false} SelectedAll(s: seq<Function>)
    ensures Selected(s, None) == seq(|s|, i requires 0 <= i < |s| => i)
  {
    if s != [] {
      SelectedAll(s[..|s| - 1]);
    }
  }

  /**
   * The listing `declares(ns)` / `defines(ns)` prints: the selected entries
   * in storage order, each named by its index in the whole storage.
   */
  function Listing(form: Form, varName: JString, s: seq<Function>, ns: Option<JString>): seq<JString>
  {
    if s == [] then []
    else
      var n := |s| - 1;
      Listing(form, varName, s[..n], ns) + (if ns.None? || s[n].namespace == ns.value then [Render(form, varName, s[n], n)] else [])
  }

  /** Entry `k` of the listing renders the `k`-th selected function under its own index. */
  lemma {:induction false} ListingSpec(form: Form, varName: JString, s: seq<Function>, ns: Option<JString>)
    ensures |Listing(form, varName, s, ns)| == |Selected(s, ns)|
    ensures forall k :: 0 <= k < |Selected(s, ns)| ==> (Selected(s, ns)[k] < |s|
      && Listing(form, varName, s, ns)[k] == Render(form, varName, s[Selected(s, ns)[k]], Selected(s, ns)[k]))
  {
    if s != [] {
      var n := |s| - 1;
      var init := s[..n];
      ListingSpec(form, varName, init, ns);
      SelectedSpec(init, ns);
      var picked := ns.None? || s[n].namespace == ns.value;
      var sel0, sel := Selected(init, ns), Selected(s, ns);
      var l0, l := Listing(form, varName, init, ns), Listing(form, varName, s, ns);
      assert sel == sel0 + (if picked then [n] else []);
      assert l == l0 + (if picked then [Render(form, varName, s[n], n)] else []);
      forall k | 0 <= k < |sel|
        ensures sel[k] < |s| && l[k] == Render(form, varName, s[sel[k]], sel[k])
      {
        if k < |sel0| {
          assert sel[k] == sel0[k] && l[k] == l0[k] && s[sel0[k]] == init[sel0[k]];
        }
      }
    }
  }

  /** Extending the storage by one entry extends the listing by that entry, if selected. */
  lemma ListingStep(form: Form, varName: JString, s: seq<Function>, ns: Option<JString>, i: nat)
    requires i < |s|
    ensures Listing(form, varName, s[..i + 1], ns) == Listing(form, varName, s[..i], ns)
      + (if ns.None? || s[i].namespace == ns.value then [Render(form, varName, s[i], i)] else [])
  {
    assert s[..i + 1][..i] == s[..i];
  }

  /** Without a namespace, the listing renders every entry under its index. */
  lemma {:induction false} ListingAll(form: Form, varName: JString, s: seq<Function>)
    ensures Listing(form, varName, s, None) == seq(|s|, i requires 0 <= i < |s| => Render(form, varName, s[i], i))
  {
    if s != [] {
      ListingAll(form, varName, s[..|s| - 1]);
    }
  }

  // ---------------------------------------------------------------------
  // One registry (`makeFunctionBuilder(varName)`)
  // ---------------------------------------------------------------------

  class FunctionBuilder {
    const varName: JString
    var storage: seq<Function>

    predicate Valid()
      reads this
    {
      NoDuplicates(storage)
    }

    constructor (varName: JString)
      ensures this.varName == varName && storage == [] && Valid()
    {
      this.varName := varName;
      storage := [];
    }

    /** `storage.findIndex(...)`: the first entry with the same namespace, type, body and parameters. */
    method FindIndex(namespace: JString, typeName: JString, code: JString, params: seq<Param>) returns (index: int)
      ensures index == IndexOf(storage, Function(namespace, params, typeName, code))
    {
      index := 0;
      while index < |storage|
        invariant 0 <= index <= |storage|
        invariant forall j :: 0 <= j < index ==> storage[j] != Function(namespace, params, typeName, code)
      {
        var f := storage[index];
        if f.namespace == namespace && f.typeName == typeName && f.body == code {
          var same := Equals(f.params, params);
          if same {
            return;
          }
        }
        index := index + 1;
      }
      index := -1;
    }

    /**
     * `add(namespace, code, type, params, args)`: registers the function
     * (unless an equal one is stored) and returns the call of the stored one.
     */
    method Add(namespace: JString, code: JString, typeName: JString, params: seq<JString>, args: seq<Param>)
      returns (r: Result<JString>)
      requires Valid()
      modifies this
      ensures Valid()
      ensures |params| > |args| ==> r == Err(TypeError) && storage == old(storage)
      ensures |params| <= |args| ==>
        var f := Function(namespace, Zip(params, args).value, typeName, code);
        storage == Added(old(storage), f) && r == Ok(CallText(varName, IndexOf(storage, f), args))
    {
      var zipped := Zip(params, args);
      if zipped.Err? {
        return Err(zipped.fault);
      }
      var index := FindIndex(namespace, typeName, code, zipped.value);
      var f := Function(namespace, zipped.value, typeName, code);
      AddedKeepsNoDuplicates(storage, f);
      if index < 0 {
        storage := storage + [Function(namespace, zipped.value, typeName, code)];
        index := |storage| - 1;
      }
      r := Ok(CallText(varName, index, args));
    }

    /** The loop shared by `declares(ns)` and `defines(ns)`. */
    method Collect(form: Form, ns: Option<JString>) returns (r: seq<JString>)
      ensures r == Listing(form, varName, storage, ns)
    {
      if ns.None? {
        ListingAll(form, varName, storage);
        var all := storage;
        return seq(|all|, i requires 0 <= i < |all| => Render(form, varName, all[i], i));
      }
      r := [];
      var i := 0;
      while i < |storage|
        invariant 0 <= i <= |storage|
        invariant r == Listing(form, varName, storage[..i], ns)
      {
        ListingStep(form, varName, storage, ns, i);
        var v := storage[i];
        if ns.value == v.namespace {
          r := r + [Render(form, varName, v, i)];
        }
        i := i + 1;
      }
      assert storage[..i] == storage;
    }

    /** `declares(ns)`: the forward declarations of the functions of `ns` (of all, without `ns`). */
    method Declares(ns: Option<JString>) returns (r: seq<JString>)
      ensures r == Listing(Declaration, varName, storage, ns)
    {
      r := Collect(Declaration, ns);
    }

    /** `defines(ns)`: the definitions of the functions of `ns` (of all, without `ns`). */
    method Defines(ns: Option<JString>) returns (r: seq<JString>)
      ensures r == Listing(Definition, varName, storage, ns)
    {
      r := Collect(Definition, ns);
    }
  }

  // ---------------------------------------------------------------------
  // The module-level registries
  // ---------------------------------------------------------------------

  /** What the module remembers of a namespace: its initializer, if one was given. */
  datatype Namespace = Namespace(initializer: Option<JString>)

  /** The part of a predicate or action node the registry reads. */
  datatype UserNode = UserNode(namespace: JString, code: JString, returnType: JString)

  class Registry {
    var namespaces: map<JString, Namespace>
    const predicates: FunctionBuilder
    const actions: FunctionBuilder

    predicate Valid()
      reads this, predicates, actions
    {
      predicates != actions && predicates.varName == "is" && actions.varName == "f"
      && predicates.Valid() && actions.Valid()
    }

    /** The module's state when first loaded: no namespaces, registries `is` and `f`. */
    constructor ()
      ensures Valid() && namespaces == map[]
      ensures predicates.varName == "is" && predicates.storage == []
      ensures actions.varName == "f" && actions.storage == []
    {
      namespaces := map[];
      predicates := new FunctionBuilder("is");
      actions := new FunctionBuilder("f");
    }

    /** `addInitializer(namespace, code)`: the namespace's initializer becomes `code`, replacing any earlier one. */
    method AddInitializer(namespace: JString, code: JString)
      modifies this
      ensures namespaces == old(namespaces)[namespace := Namespace(Some(code))]
    {
      namespaces := namespaces[namespace := Namespace(Some(code))];
    }

    /** Makes sure the namespace is known, keeping its initializer. */
    method Touch(namespace: JString)
      modifies this
      ensures namespace in namespaces
      ensures namespaces == if namespace in old(namespaces) then old(namespaces)
        else old(namespaces)[namespace := Namespace(None)]
    {
      if namespace !in namespaces {
        namespaces := namespaces[namespace := Namespace(None)];
      }
    }

    /** `addPredicate(node, params, args)`: a `boolean` function in the predicate registry. */
    method AddPredicate(node: UserNode, params: seq<JString>, args: seq<Param>) returns (r: Result<JString>)
      requires Valid()
      modifies this, predicates
      ensures Valid() && node.namespace in namespaces
      ensures namespaces == if node.namespace in old(namespaces) then old(namespaces)
        else old(namespaces)[node.namespace := Namespace(None)]
      ensures actions.storage == old(actions.storage)
      ensures |params| > |args| ==> r == Err(TypeError) && predicates.storage == old(predicates.storage)
      ensures |params| <= |args| ==>
        var f := Function(node.namespace, Zip(params, args).value, "boolean", node.code);
        predicates.storage == Added(old(predicates.storage), f)
        && r == Ok(CallText("is", IndexOf(predicates.storage, f), args))
    {
      Touch(node.namespace);
      r := predicates.Add(node.namespace, node.code, "boolean", params, args);
    }

    /** `addAction(node, params, args)`: a function of the node's return type in the action registry. */
    method AddAction(node: UserNode, params: seq<JString>, args: seq<Param>) returns (r: Result<JString>)
      requires Valid()
      modifies this, actions
      ensures Valid() && node.namespace in namespaces
      ensures namespaces == if node.namespace in old(namespaces) then old(namespaces)
        else old(namespaces)[node.namespace := Namespace(None)]
      ensures predicates.storage == old(predicates.storage)
      ensures |params| > |args| ==> r == Err(TypeError) && actions.storage == old(actions.storage)
      ensures |params| <= |args| ==>
        var f := Function(node.namespace, Zip(params, args).value, node.returnType, node.code);
        actions.storage == Added(old(actions.storage), f)
        && r == Ok(CallText("f", IndexOf(actions.storage, f), args))
    {
      Touch(node.namespace);
      r := actions.Add(node.namespace, node.code, node.returnType, params, args);
    }
  }
}

=== FILE: var_stack.dfy ===
/**
 * The allocator of temporary variables used by the code generator
 * (utils/VarStack.js): a stack pointer `sp` into an unbounded supply of
 * variables `<varName>0`, `<varName>1`, ..., and the high-water mark
 * `maxSp`, from which the declarations of all variables used are printed.
 */
module VarStacks {
  import opened Basics

  /** A name and a type, as the `{ name: ..., type: ... }` records of the generator. */
  datatype Param = Param(name: JString, typeName: JString)

  // ---------------------------------------------------------------------
  // Variable names
  // ---------------------------------------------------------------------

  const UnderflowHead: JString := "Var stack '"
  const UnderflowMiddle: JString := "' underflow: attempt to use var at index "

  /** `Var stack '<name>' underflow: attempt to use var at index <i>`. */
  function UnderflowMessage(varName: JString, i: int): JString
  {
    UnderflowHead + varName + UnderflowMiddle + IntToString(i)
  }

  /** `s(i)`: the name of variable `i`; a negative index is an underflow. */
  function Slot(varName: JString, i: int): (r: Result<JString>)
    ensures r.Ok? <==> i >= 0
    ensures r.Ok? ==> r.value == varName + NatToString(i)
    ensures r.Err? ==> r == Err(Error(UnderflowMessage(varName, i)))
  {
    if i < 0 then Err(Error(UnderflowMessage(varName, i))) else Ok(varName + NatToString(i))
  }

  /** Different slots of one stack have different names. */
  lemma SlotNamesDistinct(varName: JString, i: nat, j: nat)
    requires i != j
    ensures Slot(varName, i).value != Slot(varName, j).value
  {
    var a, b := NatToString(i), NatToString(j);
    if varName + a == varName + b {
      assert a == (varName + a)[|varName|..];
      assert b == (varName + b)[|varName|..];
      NatToStringInjective(i, j);
    }
  }

  /**
   * The module's `range(begin, end, s)`: the names of `begin .. end-1` in
   * ascending order. An empty range (also when `end < begin`) is fine
   * whatever `begin` is; otherwise a negative `begin` is an underflow.
   */
  function Range(varName: JString, begin: int, end: int): (r: Result<seq<JString>>)
    ensures end <= begin ==> r == Ok([])
    ensures begin < end ==> (r.Ok? <==> 0 <= begin)
    ensures begin < end && begin < 0 ==> r == Err(Error(UnderflowMessage(varName, begin)))
    ensures r.Ok? && begin < end ==> (|r.value| == end - begin
      && forall k :: 0 <= k < end - begin ==> Ok(r.value[k]) == Slot(varName, begin + k))
  {
    if end <= begin then Ok([])
    else if begin < 0 then Err(Error(UnderflowMessage(varName, begin)))
    else Ok(seq(end - begin, k requires 0 <= k < end - begin => varName + NatToString(begin + k)))
  }

  // ---------------------------------------------------------------------
  // The two counters, and what each operation does to them
  // ---------------------------------------------------------------------

  datatype Counters = Counters(sp: int, maxSp: int)

  /** A new stack: no variable in use, none ever used. */
  const Empty := Counters(-1, -1)

  /** The high-water mark is at least -1 and at least the stack pointer. */
  predicate Sane(c: Counters)
  {
    -1 <= c.maxSp && c.sp <= c.maxSp
  }

  datatype Op = PushOp | PopOp | PopNOp(n: int) | ReplaceOp

  /**
   * The counters after one operation. `push` raises `sp` first and throws
   * for a negative new `sp` before updating `maxSp`; `pop()` lowers `sp`
   * whether or not it then throws; `replace` stops after a `pop` that throws.
   */
  function Apply(c: Counters, op: Op): Counters
  {
    match op
    case PushOp => Pushed(c)
    case PopOp => Counters(c.sp - 1, c.maxSp)
    case PopNOp(n) => Counters(c.sp - n, c.maxSp)
    case ReplaceOp => if c.sp < 0 then Counters(c.sp - 1, c.maxSp) else Pushed(Counters(c.sp - 1, c.maxSp))
  }

  function Pushed(c: Counters): Counters
  {
    if c.sp + 1 < 0 then Counters(c.sp + 1, c.maxSp)
    else Counters(c.sp + 1, if c.sp + 1 > c.maxSp then c.sp + 1 else c.maxSp)
  }

  /** The counters after each operation of `ops`, first to last. */
  function Run(c: Counters, ops: seq<Op>): Counters
  {
    if ops == [] then c else Apply(Run(c, ops[..|ops| - 1]), ops[|ops| - 1])
  }

  /** No `pop(n)` with a negative count (which would raise `sp` without recording it). */
  predicate NoNegativePops(ops: seq<Op>)
  {
    forall k :: 0 <= k < |ops| ==> (ops[k].PopNOp? ==> ops[k].n >= 0)
  }

  /** The highest of `c.maxSp` and of every `sp` reached along `ops`. */
  function Highest(c: Counters, ops: seq<Op>): int
  {
    if ops == [] then c.maxSp
    else
      var h, s := Highest(c, ops[..|ops| - 1]), Run(c, ops).sp;
      if s > h then s else h
  }

  /**
   * Along any sequence of operations without negative counts, `maxSp` stays
   * at least `sp`, and it is exactly the highest `sp` ever reached.
   */
  lemma {:induction false} RunKeepsHighWaterMark(c: Counters, ops: seq<Op>)
    requires Sane(c) && NoNegativePops(ops)
    ensures Sane(Run(c, ops))
    ensures Run(c, ops).maxSp == Highest(c, ops)
  {
    if ops != [] {
      var init := ops[..|ops| - 1];
      assert NoNegativePops(init) by {
        forall k | 0 <= k < |init| ensures (init[k].PopNOp? ==> init[k].n >= 0) {
          assert init[k] == ops[k];
        }
      }
      RunKeepsHighWaterMark(c, init);
      assert ops[|ops| - 1].PopNOp? ==> ops[|ops| - 1].n >= 0;
    }
  }

  /** From a new stack, `maxSp` is the deepest any sequence of operations went. */
  lemma MaxSpIsDeepest(ops: seq<Op>)
    requires NoNegativePops(ops)
    ensures Run(Empty, ops).maxSp == Highest(Empty, ops) >= Run(Empty, ops).sp
  {
    RunKeepsHighWaterMark(Empty, ops);
  }

  /** `replace` on a non-empty stack keeps both counters of a sane stack. */
  lemma ReplaceKeepsCounters(c: Counters)
    requires Sane(c) && c.sp >= 0
    ensures Apply(c, ReplaceOp) == c
  {
  }

  /** What `defines()` prints for a given high-water mark. */
  function Declaration(typeName: JString, varName: JString, maxSp: int): (r: JString)
    ensures maxSp < 0 <==> r == ""
  {
    if maxSp < 0 then "" else typeName + " " + Join(Range(varName, 0, maxSp + 1).value, ", ") + ";"
  }

  /** The declaration names every variable from 0 to `maxSp`, in order, separated by ", ". */
  lemma DeclarationNamesAll(typeName: JString, varName: JString, maxSp: nat)
    ensures Declaration(typeName, varName, maxSp) ==
      typeName + " " + Join(seq(maxSp + 1, k requires 0 <= k <= maxSp => varName + NatToString(k)), ", ") + ";"
  {
    var names := seq(maxSp + 1, k requires 0 <= k <= maxSp => varName + NatToString(k));
    assert Range(varName, 0, maxSp + 1).value == names;
  }

  /** `args(env)`: one record per label, named by the slot the label refers to. */
  function ArgsOf(typeName: JString, varName: JString, env: seq<(JString, int)>): (r: Result<seq<Param>>)
  {
    if env == [] then Ok([])
    else
      var init := ArgsOf(typeName, varName, env[..|env| - 1]);
      if init.Err? then init
      else
        var s := Slot(varName, env[|env| - 1].1);
        if s.Err? then Err(s.fault) else Ok(init.value + [Param(s.value, typeName)])
  }

  /** `args` succeeds iff no label refers to a negative slot, and then pairs each label's slot with the type. */
  lemma {:induction false} ArgsOfSpec(typeName: JString, varName: JString, env: seq<(JString, int)>)
    ensures ArgsOf(typeName, varName, env).Ok? <==> forall k :: 0 <= k < |env| ==> env[k].1 >= 0
    ensures ArgsOf(typeName, varName, env).Ok? ==>
      |ArgsOf(typeName, varName, env).value| == |env| &&
      forall k :: 0 <= k < |env| ==>
        ArgsOf(typeName, varName, env).value[k] == Param(varName + NatToString(env[k].1), typeName)
  {
    if env != [] {
      var init := env[..|env| - 1];
      ArgsOfSpec(typeName, varName, init);
      assert forall k :: 0 <= k < |init| ==> init[k] == env[k];
    }
  }

  // ---------------------------------------------------------------------
  // The mutable stack
  // ---------------------------------------------------------------------

  class VarStack {
    const typeName: JString
    const varName: JString
    var sp: int
    var maxSp: int

    function Value(): Counters
      reads this
    {
      Counters(sp, maxSp)
    }

    constructor (typeName: JString, varName: JString)
      ensures this.typeName == typeName && this.varName == varName && Value() == Empty
    {
      this.typeName, this.varName := typeName, varName;
      sp, maxSp := -1, -1;
    }

    /** `push(exprCode)`: assigns the expression to the next free variable. */
    method Push(exprCode: JString) returns (r: Result<JString>)
      modifies this
      ensures Value() == Apply(old(Value()), PushOp)
      ensures r.Ok? <==> sp >= 0
      ensures r.Ok? ==> r.value == varName + NatToString(sp) + " = " + exprCode + ";"
      ensures r.Err? ==> r == Slot(varName, sp)
    {
      sp := sp + 1;
      var name := Slot(varName, sp);
      if name.Err? {
        return name;
      }
      var code := name.value + " = " + exprCode + ";";
      if sp > maxSp {
        maxSp := sp;
      }
      r := Ok(code);
    }

    /** `pop()`: the name of the top variable, which is released. */
    method Pop() returns (r: Result<JString>)
      modifies this
      ensures Value() == Apply(old(Value()), PopOp)
      ensures r == Slot(varName, old(sp))
    {
      r := Slot(varName, sp);
      sp := sp - 1;
    }

    /** `pop(n)`: the names of the top `n` variables, lowest first, all released. */
    method PopN(n: int) returns (r: Result<seq<JString>>)
      modifies this
      ensures Value() == Apply(old(Value()), PopNOp(n))
      ensures r == Range(varName, old(sp) - n + 1, old(sp) + 1)
    {
      var end := sp + 1;
      sp := sp - n;
      r := Range(varName, sp + 1, end);
    }

    /** `replace(exprCode)`: assigns the expression to the variable on top instead. */
    method Replace(exprCode: JString) returns (r: Result<JString>)
      modifies this
      ensures Value() == Apply(old(Value()), ReplaceOp)
      ensures old(sp) < 0 ==> r == Slot(varName, old(sp))
      ensures old(sp) >= 0 ==> r == Ok(varName + NatToString(old(sp)) + " = " + exprCode + ";")
    {
      var popped := Pop();
      if popped.Err? {
        return popped;
      }
      r := Push(exprCode);
    }

    /** `top()`: the variable on top. */
    function Top(): (r: Result<JString>)
      reads this
      ensures r == Slot(varName, sp)
    {
      Slot(varName, sp)
    }

    /** `index(i)`: the variable `i` places below the top. */
    function Index(i: int): (r: Result<JString>)
      reads this
      ensures r == Slot(varName, sp - i)
    {
      Slot(varName, sp - i)
    }

    /** `defines()`: one declaration of every variable ever used, or nothing. */
    function Defines(): (r: JString)
      reads this
      ensures r == "" <==> maxSp < 0
      ensures r == Declaration(typeName, varName, maxSp)
    {
      Declaration(typeName, varName, maxSp)
    }

    /** `range(fromSp)`: the variables from `fromSp` up to the top. */
    function RangeFrom(fromSp: int): (r: Result<seq<JString>>)
      reads this
      ensures fromSp < 0 ==> r.Err?
      ensures fromSp >= 0 ==> r == Range(varName, fromSp, sp + 1)
    {
      if fromSp < 0 then
        Err(Error("`fromSp < 0`: (fromSp, this.sp) == [" + IntToString(fromSp) + "; " + IntToString(sp) + "]"))
      else Range(varName, fromSp, sp + 1)
    }

    /** `args(env)`, walking the labels in their property order. */
    method Args(env: seq<(JString, int)>) returns (r: Result<seq<Param>>)
      ensures r == ArgsOf(typeName, varName, env)
    {
      var acc: seq<Param> := [];
      var i := 0;
      while i < |env|
        invariant 0 <= i <= |env|
        invariant ArgsOf(typeName, varName, env[..i]) == Ok(acc)
      {
        assert env[..i + 1][..i] == env[..i];
        var name := Slot(varName, env[i].1);
        if name.Err? {
          ArgsErrorSticks(typeName, varName, env, i + 1);
          return Err(name.fault);
        }
        acc := acc + [Param(name.value, typeName)];
        i := i + 1;
      }
      assert env[..i] == env;
      r := Ok(acc);
    }

    /** `local(i)`: the name of variable `i`. */
    function Local(i: int): (r: Result<JString>)
      reads this
      ensures r == Slot(varName, i)
    {
      Slot(varName, i)
    }

    /** `result()`: the variable holding a rule's result, always the first. */
    function ResultName(): (r: Result<JString>)
      reads this
      ensures r == Ok(varName + "0")
    {
      Slot(varName, 0)
    }
  }

  /** Once a label refers to a negative slot, `args` fails with that slot's error, whatever follows. */
  lemma {:induction false} ArgsErrorSticks(typeName: JString, varName: JString, env: seq<(JString, int)>, k: nat)
    requires k <= |env| && ArgsOf(typeName, varName, env[..k]).Err?
    ensures ArgsOf(typeName, varName, env) == ArgsOf(typeName, varName, env[..k])
  {
    if k == |env| {
      assert env[..k] == env;
    } else {
      var init := env[..|env| - 1];
      assert init[..k] == env[..k];
      ArgsErrorSticks(typeName, varName, init, k);
    }
  }
}
